=== FILE: README.md ===
# LargeList in Dafny

A model of `LargeList<T>` (LargeList/LargeList.cs), an `IList<T>` that keeps its
elements in a list of backing arrays instead of one large array. Beside the
arrays (`arrayHolder`) the list tracks one fill count per array (`arraySizes`),
the element count `size`, a mutation counter `version`, and a per-instance cap
`arrayMaxSize` on an array's length, which is a power of two.

The state is the record `ListState.LargeList(maxSize, buffers, fills, size,
version, zero)`. `zero` is the element type's `default(T)`, which every fresh
slot holds. Every mutating operation is a pure function from a state to an
`Outcome`:
- `Done(list)` is the state the call leaves behind;
- `Threw(error, list)` is the exception the call raised, together with the state
  left behind. C# mutates in place, so a throw after a partial update (RemoveAt
  after `size--`) leaves that update visible.

CopyTo writes into the caller's array rather than the list, so it returns a
`Copied(dest)` or `CopyThrew(error, dest)`, where `dest` holds the copies made
before any throw.

`Array.Copy` is modelled as a memmove on value snapshots, with .NET's checks:
- a negative argument raises ArgumentOutOfRange;
- a range past the end raises Argument.

An element access out of range raises IndexOutOfRange. `List<T>`'s indexer
raises ArgumentOutOfRange.

Two abstraction functions describe the contents:
- the **indexer view** `View(l)`: element `j < size` is
  `buffers[j / max][j - (j / max) * max]`. The indexer, HeapSort and the
  enumerator read this view;
- the **fill view** `FillView(l)`: the concatenation of every
  `buffers[k][..fills[k]]`. IndexOf, Contains, ForEach and CopyTo read this view.

The invariants, from weakest to strongest:
- `Wf`: shape, i.e. one fill per array, each fill within its array, every array
  length a power of two in [16, cap];
- `Inv`: fills of the form cap, ..., cap, f, 0, ..., 0, summing to `size`.
  Under `Inv` the two views coincide (`ListState.ViewIsFillView`);
- `Fullness`: `Inv` with every array but the last full at the cap;
- `Tight`: `Fullness` with a non-empty last array (or no arrays).

Modules follow the source's structure:
- `PowersOfTwo`: the sizing helpers;
- `Segments`: element access, `Array.Copy`, fill sums and concatenation;
- `ListState`: the state, the index mapping, the views and the indexer;
- `Growth`: array creation and resizing, Add, Clear and the constructors;
- `Insertion` and `InsertEntry`: the Insert cascade and InsertRange;
- `Removal`: the RemoveAt cascade;
- `Queries`: IndexOf, Contains, ForEach, Remove and CopyTo;
- `Sorting`: Swap, BuildMaxHeap and HeapSort through the indexer;
- `Reversal`: Reverse;
- `Enumeration`: the fail-fast enumerator.

Where the code departs from the evident intent, the model keeps the code as
written and adds a corrected definition beside it, with the intended property
proved about the corrected one (see Findings). The rest of the model builds on
the corrected definitions:
- `RemoveFixed` uses `RemoveAtFixed`;
- the round trip `InsertThenRemove` pairs Insert with `RemoveAtFixed`.

HeapSort bumps the version twice per swap, since each Swap makes two setter
calls, and once more at the end. The model follows the code here, not a single
increment per sort.

## Model

| member | source | states |
|---|---|---|
| PowersOfTwo.FirstSmallerPowerOf2 | LargeList/LargeList.cs:82-94 | 0 for an input of at most 0; otherwise a power of two p with p <= n < 2p (the largest one not above n) |
| PowersOfTwo.FirstLargerPowerOf2 | LargeList/LargeList.cs:96-111 | 0 for a negative input, 2 for 0; otherwise a power of two p with n < p <= 2n, so strictly above n (4 gives 8) |
| Segments.Read | LargeList/LargeList.cs:202 | an array element read succeeds exactly for an index inside the array and returns that element; otherwise IndexOutOfRange |
| Segments.Write | LargeList/LargeList.cs:169 | an array element write succeeds exactly inside the array, changes that one slot only, and otherwise raises IndexOutOfRange |
| Segments.Copy | LargeList/LargeList.cs:187 | Array.Copy within or between arrays: succeeds exactly when both ranges fit; a negative argument is ArgumentOutOfRange, any other misfit Argument; on success slot k of the destination holds the source element k - di + si inside the copied range and its old value elsewhere (memmove) |
| ListState.ArrayIndex | LargeList/LargeList.cs:259-263 | GetArrayIndex: the array index r with r * cap <= index < (r + 1) * cap, i.e. floor division |
| ListState.Position | LargeList/LargeList.cs:222-223 | the offset inside the array: 0 <= offset < cap and index == array * cap + offset |
| ListState.Compose | LargeList/LargeList.cs:222-223 | array m, offset t is global index m * cap + t: the index mapping is a bijection |
| ListState.ViewIsFillView | LargeList/LargeList.cs:113-122 | under the invariant the fill-bounded scans see exactly the indexer's sequence |
| ListState.Get | LargeList/LargeList.cs:217-230 | index >= Count throws ArgumentOutOfRange; on an addressable state the read succeeds exactly for 0 <= index < Count and returns element index of the indexer view; no state change |
| ListState.Set | LargeList/LargeList.cs:231-245 | the getter's checks fail: ArgumentOutOfRange and no change; success writes value into the one backing slot the index maps to and leaves every other slot of every array unchanged (unused capacity included), keeps fills, size and array lengths, bumps the version by one, and makes the view old[index := value] |
| Growth.CreateArrayAtIndex | LargeList/LargeList.cs:310-316 | a new 16-slot array of default values with fill 0 is inserted at position k; arrays and fills before k are kept, those after it move up by one |
| Growth.Resize | LargeList/LargeList.cs:318-335 | a full array whose fill is at most half the cap is replaced by one twice as long with the same elements and default values after them, returning the same index; otherwise nothing changes and the next index is returned |
| Growth.EnsureTotalCapacity | LargeList/LargeList.cs:293-300 | succeeds exactly when k names an array after the optional append (an empty array is appended when Count is a multiple of the cap or k is one past the last array); the fills gain that 0 and are otherwise kept, arrays other than k are untouched, and Count and version are kept. On tight states InsertEntry.EnsureAgrees relates it to the corrected EnsureRoom; InsertEntry.InsertLeavesGap shows the append on fills [16, 0] |
| Growth.EnsureArrayCapacity | LargeList/LargeList.cs:302-308 | a missing array index is ArgumentOutOfRange; otherwise at most array k changes, and fills, size and version are kept |
| Growth.GetDestinationArray | LargeList/LargeList.cs:265-291 | on success the returned index names an existing array; size and version are unchanged |
| Growth.DestinationUnderInv | LargeList/LargeList.cs:250-252 | under the invariant Add's target array is Count / cap: every earlier array is full, the target's fill equals Count's offset and is below the cap, and later arrays are empty |
| Growth.Add | LargeList/LargeList.cs:248-257 | on any state where it succeeds, Count, version and the fill total each grow by one, the cap is kept and no array is lost; Growth.AddWrites and Growth.AddAppends state where the item goes under the invariant, Growth.AddKeepsWf that well-formedness is kept |
| Growth.AddWrites | LargeList/LargeList.cs:248-257 | what Add writes under the invariant: the item lands in the first free slot of the target array; only that array's fill grows, or a new array with fill 1 is appended; Count and version +1 |
| Growth.AddAppends | LargeList/LargeList.cs:248-257 | under the invariant Add succeeds, keeps the invariant (and Fullness), the view becomes old + [item], and Count and version grow by one |
| Growth.AddKeepsWf | LargeList/LargeList.cs:318-335 | Add on any well-formed state keeps every array length a power of two in [16, cap] and every fill within its array |
| Growth.GetDestinationKeepsWf | LargeList/LargeList.cs:265-291 | the array GetDestinationArray settles on has a free slot, and the state stays well formed |
| Growth.Clear | LargeList/LargeList.cs:337-343 | no arrays and Count 0, so the fullness invariant holds with an empty view; the version grows by one |
| Growth.Empty | LargeList/LargeList.cs:24-40 | the parameterless constructor: an empty list with the given cap that satisfies the fullness invariant |
| Growth.WithCapacity | LargeList/LargeList.cs:42-66 | a negative size is ArgumentOutOfRange; otherwise an empty list satisfying the invariant whose arrays hold at least size slots, with one array per full cap in size and one more for a remainder |
| Growth.FromSeq | LargeList/LargeList.cs:68-80 | the sequence constructor yields a list whose indexer view is the source, with every array but the last full at the cap and a non-empty last array (the pre-sized arrays are filled exactly), so the fullness invariant holds |
| Insertion.CascadeOne | LargeList/LargeList.cs:144-158 | one pass of Insert's carry loop changes only backing arrays (fills, size and version kept) |
| Insertion.Cascade | LargeList/LargeList.cs:142-159 | the whole carry loop changes only backing arrays |
| Insertion.InsertAt | LargeList/LargeList.cs:133-172 | the part of Insert after the capacity step keeps one fill per array |
| Insertion.Insert | LargeList/LargeList.cs:124-173 | index > Count throws ArgumentOutOfRange with no change |
| Insertion.InsertCascade | LargeList/LargeList.cs:137-172 | inserting into a full array before the last: the carried elements move one slot on through every later array and the view becomes old[..i] + [x] + old[i..], Count and version +1, fullness kept |
| Insertion.InsertLocal | LargeList/LargeList.cs:163-172 | inserting into the last array shifts its tail by one and gives the same view, count and version change |
| InsertEntry.EnsureAgrees | LargeList/LargeList.cs:293-300 | on tight states EnsureTotalCapacity behaves as the corrected EnsureRoom |
| InsertEntry.InsertInserts | LargeList/LargeList.cs:124-173 | on a tight list and 0 <= i <= Count, Insert succeeds, the view becomes old[..i] + [x] + old[i..], Count and version +1, and the list stays tight |
| InsertEntry.InsertNegative | LargeList/LargeList.cs:126-131 | a negative index passes the Count check but GetArrayIndex is negative and the array lookup throws ArgumentOutOfRange; the view, Count, version and invariant are unchanged (an empty array may have been appended) |
| InsertEntry.EnsureRoom | LargeList/LargeList.cs:293-300 | the corrected capacity step keeps one fill per array |
| InsertEntry.InsertFixed | LargeList/LargeList.cs:124-173 | the corrected Insert throws ArgumentOutOfRange for index > Count with no change |
| InsertEntry.InsertFixedInserts | LargeList/LargeList.cs:124-173 | the corrected Insert inserts on every state under the fullness invariant, including one with an empty last array, and leaves a tight list |
| InsertEntry.InsertFixedAgrees | LargeList/LargeList.cs:124-173 | the corrected Insert equals Insert as written on tight lists |
| InsertEntry.InsertLeavesGap | LargeList/LargeList.cs:293-298 | cap 16, fills [16, 0]: Insert(0, 7) succeeds but leaves fills [16, 0, 1], which are not packed |
| InsertEntry.InsertRange | LargeList/LargeList.cs:400-413 | an index outside [0, Count] throws ArgumentOutOfRange with no change; on a tight list every item goes in, in order: the view becomes old[..index] + source + old[index..], Count and version grow by the number of items, and the list stays tight |
| Removal.PullOne | LargeList/LargeList.cs:201-206 | one pass of RemoveAt's pull loop changes only backing arrays |
| Removal.Pull | LargeList/LargeList.cs:197-207 | the whole pull loop changes only backing arrays |
| Removal.CloseGap | LargeList/LargeList.cs:185-188 | the gap-closing shift changes only backing arrays |
| Removal.RemoveAt | LargeList/LargeList.cs:175-213 | index >= Count throws ArgumentOutOfRange with no change |
| Removal.RemoveAtNegative | LargeList/LargeList.cs:177-181 | a negative index fails at the array lookup with ArgumentOutOfRange, before size is decremented: no change (both versions) |
| Removal.RemoveAtLast | LargeList/LargeList.cs:185-194 | removal from a last array with room: the view loses element index, Count -1, version +1, fullness kept |
| Removal.RemoveAtLastFull | LargeList/LargeList.cs:183-192 | removal from a last array full to its length throws IndexOutOfRange after size was decremented: fills kept, Count -1, version unchanged, invariant broken |
| Removal.RemoveAtPull | LargeList/LargeList.cs:195-211 | removal from an array before the last: the view is right and Count -1, but no fill count drops, so the fills sum to Count + 1 and the invariant breaks |
| Removal.RemoveAtFixed | LargeList/LargeList.cs:175-213 | the corrected RemoveAt throws ArgumentOutOfRange for index >= Count with no change; before removing it drops an empty last array that follows the element's array |
| Removal.RemoveAtFixedLast | LargeList/LargeList.cs:190-194 | the corrected last-array branch clears the vacated slot fills - 1 and removes the element on every fullness state |
| Removal.RemoveAtFixedPull | LargeList/LargeList.cs:195-211 | the corrected pull branch, with the last fill decremented and an empty last array dropped first, removes the element and keeps the fullness invariant on every fullness state |
| Removal.RemoveAtFixedRemoves | LargeList/LargeList.cs:175-213 | under the fullness invariant and 0 <= i < Count the corrected RemoveAt succeeds, the view becomes old[..i] + old[i + 1..], Count -1, version +1, fullness kept, so removals chain |
| Removal.RemoveTwice | LargeList/LargeList.cs:175-213 | two corrected removals in a row both succeed under the fullness invariant: Count -2, version +2, both elements gone from the view |
| Removal.TrimmedTight | LargeList/LargeList.cs:175-213 | dropping an empty last array from a fullness state leaves a tight state with the same indexer view |
| Removal.RemoveAtEmptyLast | LargeList/LargeList.cs:195-211 | RemoveAt as written on a fullness state whose last array is empty: the pull loop runs, the final Array.Copy gets length -1 and throws ArgumentOutOfRange after Count dropped, leaving fills that sum to Count + 1 |
| Removal.RemoveAtGap | LargeList/LargeList.cs:175-213 | cap 16, one full array and one empty array (fills [16, 0], the fills 17 Adds and then RemoveAt(16) leave): RemoveAt(0) as written throws ArgumentOutOfRange with Count already 15 and the invariant broken, while the corrected RemoveAt removes the element and keeps the fullness invariant |
| Removal.InsertThenRemove | LargeList/LargeList.cs:124-213 | Insert(i, x) followed by the corrected RemoveAt(i) restores the view and Count of a tight list |
| Queries.ArrayIndexOf | LargeList/LargeList.cs:117 | Array.IndexOf over a prefix: a count outside the array is ArgumentOutOfRange; otherwise the first position below count holding x, or -1 |
| Queries.IndexOf | LargeList/LargeList.cs:113-122 | on a well-formed state the array scans never throw |
| Queries.IndexOfFinds | LargeList/LargeList.cs:113-122 | under the invariant IndexOf returns the least j with view[j] == x, and -1 exactly when x is absent |
| Queries.Contains | LargeList/LargeList.cs:345-359 | on a well-formed state the answer is whether x is in the fill view; under the invariant, whether x is in the indexer view (so Contains(x) holds exactly when IndexOf(x) >= 0) |
| Queries.ForEach | LargeList/LargeList.cs:378-388 | the action sees the fill view in order; under the invariant, the indexer view |
| Queries.Remove | LargeList/LargeList.cs:415-424 | an answer of false comes with the list unchanged |
| Queries.RemoveFixed | LargeList/LargeList.cs:415-424 | the same for Remove over the corrected RemoveAt |
| Queries.RemoveAbsent | LargeList/LargeList.cs:415-424 | under the invariant x is absent exactly when Remove returns false and changes nothing; when x is present Remove is RemoveAt at x's first index |
| Queries.RemoveFixedRemovesFirst | LargeList/LargeList.cs:415-424 | on a list under the fullness invariant holding x, the corrected Remove answers true and removes exactly the first occurrence of x |
| Queries.CopyTo | LargeList/LargeList.cs:361-376 | arrayIndex outside [0, length] or fewer than Count slots after it throws IndexOutOfRange with the destination untouched; the destination keeps its length, also when a copy throws midway and leaves the earlier copies in place |
| Queries.CopyToFixed | LargeList/LargeList.cs:361-376 | the corrected CopyTo makes the same argument checks; its loop places array i at arrayIndex plus the fills of the arrays before it |
| Queries.CopyToFixedCopies | LargeList/LargeList.cs:372-375 | under the invariant (so also after the size constructor, with empty or partly filled arrays before the last) the corrected CopyTo yields dest[..arrayIndex] + view + dest[arrayIndex + Count..] |
| Queries.CopyArraysAgree | LargeList/LargeList.cs:372-375 | when every array is full at the cap, the loop as written and the corrected loop at offset 0 agree |
| Queries.CopyToAllFull | LargeList/LargeList.cs:372-375 | CopyTo as written is right when every array is full at the cap and arrayIndex is 0: view + dest[Count..] |
| Queries.CopyToIgnoresOffset | LargeList/LargeList.cs:374 | one element 5, destination [0, 0], arrayIndex 1: CopyTo gives [5, 0], the corrected CopyTo [0, 5] |
| Queries.CopyToAfterPull | LargeList/LargeList.cs:372-375 | after RemoveAt(0) as written on two full arrays (fills [cap, cap], Count 2 * cap - 1), CopyTo into a Count-slot destination throws Argument on the second array, and the destination keeps the first array's copy |
| Queries.CopyToSized | LargeList/LargeList.cs:372-375 | fills [10, 0], the shape the size constructor for 32 leaves after ten Adds: CopyTo as written and the corrected CopyTo both copy the ten elements into a ten-slot destination |
| Queries.CopyToMisplaces | LargeList/LargeList.cs:374 | fills [16, 3]: CopyTo puts the second array at offset 3, so slot 16 keeps 0 while the corrected CopyTo copies the view |
| Sorting.Swap | LargeList/LargeList.cs:504-509 | a failing read of either index throws ArgumentOutOfRange with no change; on valid indices of an addressable state the two view elements trade places, nothing else moves, and the version grows by two |
| Sorting.Largest | LargeList/LargeList.cs:474-489 | the node, its left child or its right child (inside the heap), whichever is largest, preferring the node and then the left child on ties |
| Sorting.BuildMaxHeap | LargeList/LargeList.cs:470-502 | given the heap order below index + 1, the sift-down establishes it below index; it only rearranges elements before heapSize |
| Sorting.RootMax | LargeList/LargeList.cs:460-466 | in a max-heap the root is a largest element |
| Sorting.ExtractStep | LargeList/LargeList.cs:460-466 | swapping the root behind the heap and sifting down keeps the tail sorted and at least every heap element |
| Sorting.Heapify | LargeList/LargeList.cs:453-458 | the first loop makes the whole view a max-heap and keeps its multiset |
| Sorting.ExtractOne | LargeList/LargeList.cs:462-464 | one pass of the second loop: heap one shorter, sorted tail one longer, multiset kept |
| Sorting.Extract | LargeList/LargeList.cs:460-465 | the second loop turns a max-heap into a sorted view with the same multiset |
| Sorting.HeapSort | LargeList/LargeList.cs:437-468 | Sort(): the indexer view ends non-decreasing and a permutation of the view before; fills, Count and array lengths kept; the version grows |
| Reversal.Reverse | LargeList/LargeList.cs:426-435 | every backing array reversed end to end and the array order reversed; fills and Count untouched; version +1 |
| Reversal.ReverseTwice | LargeList/LargeList.cs:426-435 | Reverse twice restores every backing array and their order exactly, with fills untouched |
| Reversal.ReverseAllFull | LargeList/LargeList.cs:426-435 | when every array holds exactly the cap, Reverse keeps the fullness invariant and reverses the indexer view |
| Reversal.ReverseFrontSlot | LargeList/LargeList.cs:428-432 | with two cap-long arrays and a last array whose final slot is unwritten, the first element after Reverse is that unwritten default value |
| Reversal.ReverseExposesCapacity | LargeList/LargeList.cs:428-432 | sixteen 1s then 2, 2, 2 (cap 16): after Reverse the fullness invariant still holds but the first element is 0, not 2 |
| Reversal.ReverseFixed | LargeList/LargeList.cs:426-435 | the corrected Reverse (swap i with Count - 1 - i through the indexer) reverses the view and keeps fills, Count and array lengths |
| Enumeration.GetEnumerator | LargeList/LargeList.cs:511-535 | the enumerator captures the list's version, starts at index 0 with Current default(T), as the Enumerator constructor at lines 529-535 does; Enumeration.EnumerateYieldsView proves that traversing it yields the view |
| Enumeration.MoveNext | LargeList/LargeList.cs:552-572 | a version differing from the captured one throws InvalidOperation; past the end it answers false and changes nothing; otherwise Current becomes view[index] and the index advances |
| Enumeration.Reset | LargeList/LargeList.cs:574-578 | Reset returns to index 0 and keeps the captured version |
| Enumeration.EnumerateYieldsView | LargeList/LargeList.cs:513-572 | enumerating an unmodified list yields exactly its indexer view, in order |
| Enumeration.ResetRestarts | LargeList/LargeList.cs:574-578 | after Reset an enumerator of the unmodified list yields the whole view again |
| Enumeration.ModifiedFails | LargeList/LargeList.cs:552-572 | MoveNext first calls CheckVersion (line 554, body at 568-572): after an indexer write, Add, Clear or Reverse, an enumerator taken before fails its next MoveNext, and Reset does not revive it |

## Left out

- The element-footprint sizing in the parameterless constructor (`Marshal.SizeOf`, `IntPtr.Size`) is runtime type inspection. The cap is a parameter instead: a power of two of at least 16.
- `GetArrayIndex` goes through `double` and `Math.Floor`. It is modelled as integer floor division, which is exact for the int range.
- Int32 overflow of `size`, `version` and `1 << count` is not modelled; integers are unbounded.
- The concurrent-modification test is concurrency. Only the sequential version comparison is modelled.
- `EqualityComparer<T>.Default` and the `Action<T>` delegate are foreign calls. Elements are compared with `==`, and ForEach returns the sequence it visits.
- Sort(IComparer) and `Comparer<T>.Default` are foreign calls. Sorting uses int elements with `>` as the comparer. The null-comparer check is not modelled.
- Null arguments (`source`, `array`, `comparer`) are not modelled, because a sequence cannot be null.
- `IsReadOnly`, the `Count` getter (the `size` field), `Dispose`, the non-generic `IEnumerator` and `Current` (the enumerator's field) are plumbing.
- Sorting.HeapSort: proved only on states where every index below Count maps to a filled slot. On a broken state the indexer can throw midway, and that partial sort is not modelled.
- Sorting.BuildMaxHeap: requires the same addressable state, and a heapSize within Count, which is how HeapSort calls it.
- Reversal.ReverseFixed: requires an addressable state, like HeapSort.
- InsertEntry.InsertInserts: Insert as written is characterised only on tight lists. On other states it can leave unpacked fills (InsertLeavesGap), and those states are not characterised further.
- Removal.RemoveAtFixedRemoves: proved under the fullness invariant. A list from the size constructor can carry several empty trailing arrays; the corrected RemoveAt drops only one, and removal there is not characterised.
- Insertion.Insert: Insert on a list from the size constructor, which has several empty trailing arrays, is not characterised. Only Add is proved there.

## Findings

| source | as written | input that shows it | evidently intended | confidence | as-written member | corrected member |
|---|---|---|---|---|---|---|
| LargeList/LargeList.cs:293-298 | EnsureTotalCapacity appends an empty array whenever Count is a multiple of the cap, even when the last array is empty. The carry loop then writes the carried element into two arrays and bumps the fill of the wrong one | cap 16, one full array and one empty array (fills [16, 0]), Insert(0, 7) | append only when the last array is full at the cap; the view becomes old[..i] + [x] + old[i..] with packed fills | not executed | InsertEntry.InsertLeavesGap | InsertEntry.InsertFixedInserts |
| LargeList/LargeList.cs:192 | the last-array branch clears `array[arraySizes[k]]`, one slot past the vacated one | 16 elements in one 16-slot array, RemoveAt(0) | clear slot `arraySizes[k] - 1`; removal succeeds | not executed | Removal.RemoveAtLastFull | Removal.RemoveAtFixedLast |
| LargeList/LargeList.cs:208-210 | the pull branch shifts the last array with length `arraySizes[last] - 1`, which is -1 when that array is empty; the last-array branch itself leaves such an array behind | cap 16, 17 Adds, RemoveAt(16) (fills [16, 0]), then RemoveAt(0) | drop an empty last array before removing; removal succeeds and removals chain | not executed | Removal.RemoveAtEmptyLast | Removal.RemoveAtFixedRemoves |
| LargeList/LargeList.cs:195-211 | the pull branch never decrements a fill count | cap 16, 17 elements (fills [16, 1]), RemoveAt(0) | decrement the last array's fill; fills sum to Count | not executed | Removal.RemoveAtPull | Removal.RemoveAtFixedPull |
| LargeList/LargeList.cs:374 | the destination offset does not add arrayIndex | one element 5, destination [0, 0], arrayIndex 1 | array i goes to arrayIndex plus the running total of the earlier arrays' fills | not executed | Queries.CopyToIgnoresOffset | Queries.CopyToFixedCopies |
| LargeList/LargeList.cs:374 | array i goes to offset i * arraySizes[i] instead of the running total of the earlier arrays' fills | cap 16, fills [16, 3], a 19-slot destination, arrayIndex 0 | array i goes to arrayIndex plus the running total of the earlier arrays' fills, right after their elements | not executed | Queries.CopyToMisplaces | Queries.CopyToFixedCopies |
| LargeList/LargeList.cs:428-432 | Reverse reverses whole backing arrays, unused capacity included, and the array order, but leaves arraySizes | cap 16, sixteen 1s then 2, 2, 2 | reverse only the Count logical elements | not executed | Reversal.ReverseExposesCapacity | Reversal.ReverseFixed |

=== FILE: enumeration.dfy ===
/**
 * The fail-fast enumerator: it captures the list's version when created,
 * and every MoveNext first compares that with the live version, then reads
 * the next element through the indexer.
 */
module Enumeration {
  import opened Segments
  import opened ListState
  import opened Growth
  import opened Reversal

  /**
   * The enumerator struct: the version it was created against, the index
   * of the next element, and Current. The list itself is the one passed to
   * each call, so changes made in between are seen.
   */
  datatype Enumerator<T> = Enumerator(listVersion: int, index: int, current: T)

  /** GetEnumerator: version captured, Current default(T), index 0. */
  function GetEnumerator<T>(l: LargeList<T>): (e: Enumerator<T>)
    ensures e.listVersion == l.version && e.index == 0 && e.current == l.zero
  {
    Enumerator(l.version, 0, l.zero)
  }

  /**
   * MoveNext: a changed version is an InvalidOperationException; otherwise
   * the element at index becomes Current and the index advances, until the
   * index reaches the count, where it answers false and changes nothing.
   */
  function MoveNext<T>(e: Enumerator<T>, l: LargeList<T>): (r: Result<(bool, Enumerator<T>)>)
    ensures e.listVersion != l.version ==> r == Err(InvalidOperation)
    ensures e.listVersion == l.version && e.index >= l.size ==> r == Ok((false, e))
    ensures r.Ok? && r.value.0 ==>
              && 0 <= e.index < l.size
              && r.value.1 == e.(index := e.index + 1, current := r.value.1.current)
    ensures e.listVersion == l.version && Addressable(l) && 0 <= e.index < l.size ==>
              r == Ok((true, e.(index := e.index + 1, current := View(l)[e.index])))
  {
    if e.listVersion != l.version then Err(InvalidOperation)
    else if e.index < l.size then
      match Get(l, e.index)
      case Err(err) => Err(err)
      case Ok(x) => Ok((true, e.(current := x, index := e.index + 1)))
    else Ok((false, e))
  }

  /** Reset: back to the first element, Current default(T); the captured version stays. */
  function Reset<T>(e: Enumerator<T>, l: LargeList<T>): (r: Enumerator<T>)
    ensures r.listVersion == e.listVersion && r.index == 0
  {
    e.(index := 0, current := l.zero)
  }

  /** A foreach loop: MoveNext until it answers false, collecting every Current. */
  function Drain<T>(e: Enumerator<T>, l: LargeList<T>): (r: Result<seq<T>>)
    decreases l.size - e.index
  {
    match MoveNext(e, l)
    case Err(err) => Err(err)
    case Ok(step) =>
      if !step.0 then Ok([])
      else
        var rest :- Drain(step.1, l);
        Ok([step.1.current] + rest)
  }

  lemma {:induction false} DrainFrom<T>(e: Enumerator<T>, l: LargeList<T>)
    requires Addressable(l) && e.listVersion == l.version && 0 <= e.index <= l.size
    ensures Drain(e, l) == Ok(View(l)[e.index..])
    decreases l.size - e.index
  {
    if e.index < l.size {
      var next := e.(index := e.index + 1, current := View(l)[e.index]);
      DrainFrom(next, l);
      assert View(l)[e.index..] == [View(l)[e.index]] + View(l)[e.index + 1..];
    }
  }

  /** Enumerating an unmodified list yields exactly its indexer view, in order. */
  lemma EnumerateYieldsView<T>(l: LargeList<T>)
    requires Addressable(l)
    ensures Drain(GetEnumerator(l), l) == Ok(View(l))
  {
    DrainFrom(GetEnumerator(l), l);
  }

  /** After Reset an enumerator of the unmodified list starts over and yields the view again. */
  lemma ResetRestarts<T>(e: Enumerator<T>, l: LargeList<T>)
    requires Addressable(l) && e.listVersion == l.version
    ensures Drain(Reset(e, l), l) == Ok(View(l))
  {
    DrainFrom(Reset(e, l), l);
  }

  /**
   * Every mutation bumps the version, so an enumerator taken before it
   * throws on its next MoveNext, and Reset does not revive it.
   */
  lemma ModifiedFails<T>(l: LargeList<T>, index: int, value: T, item: T)
    ensures Set(l, index, value).Done? ==>
              MoveNext(GetEnumerator(l), Set(l, index, value).list) == Err(InvalidOperation)
    ensures Inv(l) ==> MoveNext(GetEnumerator(l), Add(l, item).list) == Err(InvalidOperation)
    ensures MoveNext(GetEnumerator(l), Clear(l)) == Err(InvalidOperation)
    ensures MoveNext(GetEnumerator(l), Reverse(l)) == Err(InvalidOperation)
    ensures MoveNext(Reset(GetEnumerator(l), Clear(l)), Clear(l)) == Err(InvalidOperation)
  {
    if Inv(l) {
      AddAppends(l, item);
    }
  }
}

=== FILE: growth.dfy ===
/**
 * Segment growth and appending: CreateArrayAtIndex, Resize, the two
 * EnsureCapacity helpers, GetDestinationArray, Add, Clear, and the three
 * constructors.
 */
module Growth {
  import opened PowersOfTwo
  import opened Segments
  import opened ListState

  function NewArray<T>(n: nat, zero: T): (a: seq<T>)
    ensures |a| == n && forall i :: 0 <= i < n ==> a[i] == zero
  {
    seq(n, _ => zero)
  }

  lemma SixteenIsPow2()
    ensures IsPow2(DefaultArraySize)
  {
    assert IsPow2(2);
    assert IsPow2(4);
    assert IsPow2(8);
  }

  /** CreateArrayAtIndex: a new empty 16-slot backing array at position k. */
  function CreateArrayAtIndex<T>(l: LargeList<T>, k: int): (r: LargeList<T>)
    requires Parallel(l) && 0 <= k <= |l.buffers|
    ensures Parallel(r) && |r.buffers| == |l.buffers| + 1
    ensures r.buffers[k] == NewArray(DefaultArraySize, l.zero) && r.fills[k] == 0
    ensures forall i :: 0 <= i < k ==> r.buffers[i] == l.buffers[i] && r.fills[i] == l.fills[i]
    ensures forall i :: k < i < |r.buffers| ==> r.buffers[i] == l.buffers[i - 1] && r.fills[i] == l.fills[i - 1]
    ensures r.size == l.size && r.version == l.version && r.maxSize == l.maxSize && r.zero == l.zero
  {
    l.(buffers := l.buffers[..k] + [NewArray(DefaultArraySize, l.zero)] + l.buffers[k..],
       fills := l.fills[..k] + [0] + l.fills[k..])
  }

  /**
   * Resize: an array whose fill count is at most half the cap is replaced by
   * one twice as long holding the same elements, and its index is returned;
   * otherwise nothing changes and the next index is returned. Both callers
   * resize only an array that is exactly full.
   */
  function Resize<T>(l: LargeList<T>, k: int): (r: (LargeList<T>, int))
    requires Parallel(l) && 0 <= k < |l.buffers|
    requires |l.buffers[k]| == l.fills[k]
    ensures Parallel(r.0) && |r.0.buffers| == |l.buffers|
    ensures l.fills[k] <= l.maxSize / 2 ==>
              && r.1 == k
              && |r.0.buffers[k]| == 2 * l.fills[k]
              && r.0.buffers[k][..l.fills[k]] == l.buffers[k]
              && (forall i :: l.fills[k] <= i < 2 * l.fills[k] ==> r.0.buffers[k][i] == l.zero)
              && r.0 == l.(buffers := r.0.buffers)
              && (forall i :: 0 <= i < |l.buffers| && i != k ==> r.0.buffers[i] == l.buffers[i])
    ensures l.fills[k] > l.maxSize / 2 ==> r == (l, k + 1)
  {
    var oldSize := l.fills[k];
    if l.maxSize / 2 >= oldSize then
      var oldArray := l.buffers[k];
      var grown := NewArray(2 * oldSize, l.zero);
      var copied := Copy(oldArray, 0, grown, 0, |oldArray|).value;
      (l.(buffers := l.buffers[k := copied]), k)
    else
      (l, k + 1)
  }

  /** EnsureArrayCapacity: resize array k if it is exactly full. */
  function EnsureArrayCapacity<T>(l: LargeList<T>, k: int): (r: Outcome<T>)
    requires Parallel(l)
    ensures !(0 <= k < |l.buffers|) ==> r == Threw(ArgumentOutOfRange, l)
    ensures r.Done? ==> Parallel(r.list) && |r.list.buffers| == |l.buffers|
    ensures r.Done? ==> BuffersOnly(l, r.list)
    ensures r.Done? ==> forall i :: 0 <= i < |l.buffers| && i != k ==> r.list.buffers[i] == l.buffers[i]
  {
    if k < 0 || k >= |l.buffers| then Threw(ArgumentOutOfRange, l)
    else if |l.buffers[k]| == l.fills[k] then Done(Resize(l, k).0)
    else Done(l)
  }

  /**
   * EnsureTotalCapacity: append an empty array when the element count is a
   * multiple of the cap or the target index is one past the last array, then
   * ensure room in array k.
   */
  function EnsureTotalCapacity<T>(l: LargeList<T>, k: int): (r: Outcome<T>)
    requires Parallel(l)
    ensures var grows := l.size % l.maxSize == 0 || |l.buffers| == k;
      && (r.Done? <==> 0 <= k < |l.buffers| + (if grows then 1 else 0))
      && (r.Done? ==> r.list.fills == (if grows then l.fills + [0] else l.fills))
    ensures r.Done? ==> Parallel(r.list) && r.list.size == l.size && r.list.version == l.version && r.list.maxSize == l.maxSize
    ensures r.Done? ==> forall i :: 0 <= i < |l.buffers| && i != k ==> r.list.buffers[i] == l.buffers[i]
  {
    var l1 := if l.size % l.maxSize == 0 || |l.buffers| == k
              then CreateArrayAtIndex(l, |l.buffers|) else l;
    EnsureArrayCapacity(l1, k)
  }

  /**
   * GetDestinationArray: the array that receives the next appended element,
   * created when it does not exist, grown when full, and skipped (to the
   * next one) when full at the cap. Returns the index it settled on.
   */
  function GetDestinationArray<T>(l: LargeList<T>, k: int): (r: (Outcome<T>, int))
    requires Parallel(l)
    ensures r.0.Done? ==> Parallel(r.0.list) && 0 <= r.1 < |r.0.list.buffers|
    ensures r.0.Done? ==> r.0.list.size == l.size && r.0.list.version == l.version
    ensures r.0.Done? ==> r.0.list.maxSize == l.maxSize && |r.0.list.buffers| >= |l.buffers| && Sum(r.0.list.fills) == Sum(l.fills)
    decreases |l.buffers| - k
  {
    if |l.buffers| == k then
      SumAppend(l.fills, [0]);
      assert l.fills[..k] + [0] + l.fills[k..] == l.fills + [0];
      (Done(CreateArrayAtIndex(l, k)), k)
    else if k < 0 || k > |l.buffers| then (Threw(ArgumentOutOfRange, l), k)
    else if |l.buffers[k]| == l.fills[k] then
      var (l1, k1) := Resize(l, k);
      if k1 == k then (Done(l1), k) else GetDestinationArray(l1, k1)
    else (Done(l), k)
  }

  /** Add: store the item after the last element. */
  function Add<T>(l: LargeList<T>, item: T): (r: Outcome<T>)
    requires Parallel(l)
    ensures r.Done? ==> Parallel(r.list) && r.list.maxSize == l.maxSize && |r.list.buffers| >= |l.buffers|
    ensures r.Done? ==> r.list.size == l.size + 1 && r.list.version == l.version + 1 && Sum(r.list.fills) == Sum(l.fills) + 1
  {
    var (o, k) := GetDestinationArray(l, ArrayIndex(l.maxSize, l.size));
    var l1 :- o;
    var l2 :- Store(l1, k, l1.fills[k], item);
    SumUpdate(l2.fills, k, l2.fills[k] + 1);
    Done(l2.(fills := l2.fills[k := l2.fills[k] + 1], size := l2.size + 1, version := l2.version + 1))
  }

  /** Under Packed fill counts, the array after the last element is never full at the cap. */
  lemma DestinationUnderInv<T>(l: LargeList<T>)
    requires Inv(l)
    ensures var k := ArrayIndex(l.maxSize, l.size);
      && 0 <= k <= |l.buffers|
      && (forall i :: 0 <= i < k ==> l.fills[i] == l.maxSize)
      && (k < |l.buffers| ==> l.fills[k] == Position(l.maxSize, l.size) < l.maxSize)
      && (forall i :: k < i < |l.buffers| ==> l.fills[i] == 0)
  {
    FillsBounded(l);
    Shape(l.fills, l.maxSize);
  }

  /** What Add writes under the invariant: one slot after the last element. */
  lemma AddWrites<T>(l: LargeList<T>, item: T)
    requires Inv(l)
    ensures var k := ArrayIndex(l.maxSize, l.size);
            var f := Position(l.maxSize, l.size);
            var r := Add(l, item);
      && r.Done?
      && r.list.maxSize == l.maxSize && r.list.zero == l.zero
      && r.list.size == l.size + 1 && r.list.version == l.version + 1
      && |r.list.buffers| == (if k == |l.buffers| then |l.buffers| + 1 else |l.buffers|)
      && r.list.fills == (if k == |l.buffers| then l.fills + [1] else l.fills[k := f + 1])
      && (forall i :: 0 <= i < |l.buffers| && i != k ==> r.list.buffers[i] == l.buffers[i])
      && f < |r.list.buffers[k]| && CapacityOk(l.maxSize, |r.list.buffers[k]|)
      && r.list.buffers[k][f] == item
      && (k < |l.buffers| ==>
            f <= |l.buffers[k]| && forall t :: 0 <= t < f ==> r.list.buffers[k][t] == l.buffers[k][t])
  {
    var max := l.maxSize;
    var n := |l.buffers|;
    var k := ArrayIndex(max, l.size);
    var f := Position(max, l.size);
    DestinationUnderInv(l);
    var (o, k') := GetDestinationArray(l, k);
    var l1: LargeList<T>;
    if k == n {
      l1 := CreateArrayAtIndex(l, k);
      SixteenIsPow2();
      assert o == Done(l1) && k' == k;
      assert f == 0 by {
        FillsBounded(l);
        Shape(l.fills, max);
      }
    } else if |l.buffers[k]| == l.fills[k] {
      assert CapacityOk(max, |l.buffers[k]|);
      Pow2Gap(|l.buffers[k]|, max);
      l1 := Resize(l, k).0;
      assert o == Done(l1) && k' == k;
      DoubleIsPow2(|l.buffers[k]|);
      assert CapacityOk(max, |l1.buffers[k]|);
      forall t | 0 <= t < f ensures l1.buffers[k][t] == l.buffers[k][t] {
        assert l1.buffers[k][..f][t] == l.buffers[k][t];
      }
    } else {
      l1 := l;
      assert o == Done(l1) && k' == k;
    }
    assert l1.fills[k] == f < |l1.buffers[k]|;
  }

  /** The facts AddWrites establishes, stated of an arbitrary successor state. */
  ghost predicate AppendedAt<T>(l: LargeList<T>, r: LargeList<T>, item: T)
    requires Inv(l)
  {
    var k := ArrayIndex(l.maxSize, l.size);
    var f := Position(l.maxSize, l.size);
    && 0 <= k <= |l.buffers|
    && r.maxSize == l.maxSize && r.zero == l.zero
    && r.size == l.size + 1 && r.version == l.version + 1
    && |r.buffers| == (if k == |l.buffers| then |l.buffers| + 1 else |l.buffers|)
    && r.fills == (if k == |l.buffers| then l.fills + [1] else l.fills[k := f + 1])
    && (forall i :: 0 <= i < |l.buffers| && i != k ==> r.buffers[i] == l.buffers[i])
    && 0 <= k < |r.buffers|
    && f < |r.buffers[k]| && CapacityOk(l.maxSize, |r.buffers[k]|)
    && r.buffers[k][f] == item
    && (k < |l.buffers| ==>
          f <= |l.buffers[k]| && forall t :: 0 <= t < f ==> r.buffers[k][t] == l.buffers[k][t])
  }

  lemma AppendedKeepsInv<T>(l: LargeList<T>, r: LargeList<T>, item: T)
    requires Inv(l) && AppendedAt(l, r, item)
    ensures Inv(r)
    ensures Fullness(l) ==> Fullness(r)
  {
    var max := l.maxSize;
    var n := |l.buffers|;
    var k := ArrayIndex(max, l.size);
    var f := Position(max, l.size);
    DestinationUnderInv(l);
    assert Wf(r) by {
      forall i | 0 <= i < |r.buffers| ensures CapacityOk(max, |r.buffers[i]|) && 0 <= r.fills[i] <= |r.buffers[i]| {
        if i != k {
          assert r.buffers[i] == l.buffers[i];
          assert r.fills[i] == l.fills[i];
        }
      }
    }
    assert Packed(r.fills, max);
    if k == n {
      SumAppend(l.fills, [1]);
    } else {
      SumUpdate(l.fills, k, f + 1);
    }
    if Fullness(l) {
      forall i | 0 <= i < |r.fills| - 1 ensures r.fills[i] == max {
        if i == k {
          assert false;
        }
      }
    }
  }

  lemma AppendedView<T>(l: LargeList<T>, r: LargeList<T>, item: T)
    requires Inv(l) && AppendedAt(l, r, item) && Inv(r)
    ensures View(r) == View(l) + [item]
  {
    var max := l.maxSize;
    var k := ArrayIndex(max, l.size);
    var f := Position(max, l.size);
    forall j | 0 <= j < r.size ensures View(r)[j] == (View(l) + [item])[j] {
      ViewAt(r, j);
      if j < l.size {
        ViewAt(l, j);
        if ArrayIndex(max, j) == k {
          assert Position(max, j) < f;
        }
      } else {
        assert j == l.size;
      }
    }
  }

  /** Add under the invariant: the view gains the item at its end and nothing else changes. */
  lemma AddAppends<T>(l: LargeList<T>, item: T)
    requires Inv(l)
    ensures Add(l, item).Done?
    ensures Inv(Add(l, item).list)
    ensures View(Add(l, item).list) == View(l) + [item]
    ensures Add(l, item).list.size == l.size + 1
    ensures Add(l, item).list.version == l.version + 1
    ensures Add(l, item).list.maxSize == l.maxSize
    ensures Fullness(l) ==> Fullness(Add(l, item).list)
  {
    AddWrites(l, item);
    var r := Add(l, item).list;
    assert AppendedAt(l, r, item);
    AppendedKeepsInv(l, r, item);
    AppendedView(l, r, item);
  }

  /** Add on any well-formed state keeps every backing array a power of two in [16, cap]. */
  lemma AddKeepsWf<T>(l: LargeList<T>, item: T)
    requires Wf(l)
    ensures Add(l, item).Done? ==> Wf(Add(l, item).list)
  {
    var r := Add(l, item);
    if r.Done? {
      GetDestinationKeepsWf(l, ArrayIndex(l.maxSize, l.size));
    }
  }

  lemma {:induction false} GetDestinationKeepsWf<T>(l: LargeList<T>, k: int)
    requires Wf(l)
    ensures var (o, k') := GetDestinationArray(l, k);
      o.Done? ==> Wf(o.list) && o.list.fills[k'] < |o.list.buffers[k']|
    decreases |l.buffers| - k
  {
    if |l.buffers| == k {
      SixteenIsPow2();
    } else if k < 0 || k > |l.buffers| {
    } else if |l.buffers[k]| == l.fills[k] {
      var (l1, k1) := Resize(l, k);
      if k1 == k {
        assert CapacityOk(l.maxSize, |l.buffers[k]|);
        DoubleIsPow2(|l.buffers[k]|);
        assert Wf(l1);
      } else {
        GetDestinationKeepsWf(l1, k1);
      }
    }
  }

  /** Clear: no arrays, no elements, a new version. */
  function Clear<T>(l: LargeList<T>): (r: LargeList<T>)
    ensures Wf(l) ==> Fullness(r) && View(r) == []
    ensures r.version == l.version + 1
  {
    l.(buffers := [], fills := [], size := 0, version := l.version + 1)
  }

  /** The parameterless constructor, with the cap given explicitly. */
  function Empty<T>(maxSize: PosInt, zero: T): (r: LargeList<T>)
    requires IsPow2(maxSize) && DefaultArraySize <= maxSize
    ensures Fullness(r) && View(r) == [] && r.maxSize == maxSize
  {
    LargeList(maxSize, [], [], 0, 0, zero)
  }

  /**
   * The size constructor (CreateInternalArrays): as many empty arrays at the
   * cap as fit, then one more of the smallest power of two above the rest
   * (at least 16). A negative size is rejected.
   */
  method WithCapacity<T>(maxSize: PosInt, zero: T, size: int) returns (r: Result<LargeList<T>>)
    requires IsPow2(maxSize) && DefaultArraySize <= maxSize
    ensures size < 0 ==> r == Err(ArgumentOutOfRange)
    ensures size >= 0 ==> r.Ok?
    ensures r.Ok? ==> Inv(r.value) && View(r.value) == [] && r.value.maxSize == maxSize
    ensures r.Ok? ==> Capacity(r.value.buffers) >= size
    ensures r.Ok? ==> |r.value.buffers| == ArraysFor(maxSize, size)
  {
    if size < 0 {
      return Err(ArgumentOutOfRange);
    }
    var l := Empty(maxSize, zero);
    var rest := size;
    while rest >= maxSize
      invariant Wf(l) && l.size == 0 && l.maxSize == maxSize && l.zero == zero
      invariant forall i :: 0 <= i < |l.fills| ==> l.fills[i] == 0
      invariant Capacity(l.buffers) + rest == size
      invariant |l.buffers| * maxSize + rest == size
      invariant 0 <= rest
    {
      CapacityAppend(l.buffers, NewArray(maxSize, zero));
      OneMoreArray(|l.buffers|, maxSize, rest, size);
      l := l.(buffers := l.buffers + [NewArray(maxSize, zero)], fills := l.fills + [0]);
      rest := rest - maxSize;
    }
    ArraysForRest(maxSize, |l.buffers|, rest, size);
    if rest > 0 {
      var lastSize := FirstLargerPowerOf2(rest);
      if lastSize > maxSize {
        Pow2Gap(maxSize, lastSize);
        assert false;
      }
      if lastSize < DefaultArraySize {
        lastSize := DefaultArraySize;
        SixteenIsPow2();
      }
      CapacityAppend(l.buffers, NewArray(lastSize, zero));
      l := l.(buffers := l.buffers + [NewArray(lastSize, zero)], fills := l.fills + [0]);
    }
    SumZeros(l.fills);
    r := Ok(l);
  }

  /**
   * The number of backing arrays the size constructor makes for n elements:
   * one per full cap, and one more for a remainder.
   */
  function ArraysFor(max: PosInt, n: int): int
  {
    ArrayIndex(max, n) + if Position(max, n) > 0 then 1 else 0
  }

  lemma OneMoreArray(n: int, max: int, rest: int, size: int)
    requires n * max + rest == size
    ensures (n + 1) * max + (rest - max) == size
  {
  }

  /** n arrays at the cap and a remainder below it: the count ArraysFor gives. */
  lemma ArraysForRest(max: PosInt, n: int, rest: int, size: int)
    requires n * max + rest == size && 0 <= rest < max
    ensures ArraysFor(max, size) == n + if rest > 0 then 1 else 0
  {
    Compose(max, n, rest);
  }

  /** Every index below n falls in one of the arrays made for n elements. */
  lemma IndexBelowArrays(max: PosInt, i: int, n: int)
    requires 0 <= i < n
    ensures 0 <= ArrayIndex(max, i) < ArraysFor(max, n)
  {
    var q := ArrayIndex(max, i);
    var a := ArrayIndex(max, n);
    if q < 0 {
      MulAtLeast(max, -q);
      assert false;
    }
    if q > a {
      MulAtLeast(max, q - a);
      assert false;
    }
    if q == a && Position(max, n) == 0 {
      assert false;
    }
  }

  /**
   * A state under the invariant with as many arrays as the size constructor
   * makes for its count is tight: every array but the last is full and the
   * last holds something.
   */
  lemma TightWhenSized<T>(l: LargeList<T>)
    requires Inv(l) && |l.buffers| == ArraysFor(l.maxSize, l.size)
    ensures Fullness(l) && (|l.buffers| == 0 || l.fills[|l.buffers| - 1] > 0)
  {
    FillsBounded(l);
    Shape(l.fills, l.maxSize);
    if |l.buffers| > 0 && Position(l.maxSize, l.size) == 0 {
      assert l.fills[|l.buffers| - 1] == l.maxSize;
    }
  }

  /** Total number of slots over all backing arrays. */
  function Capacity<T>(bufs: seq<seq<T>>): int
  {
    if bufs == [] then 0 else |bufs[0]| + Capacity(bufs[1..])
  }

  lemma {:induction false} CapacityAppend<T>(bufs: seq<seq<T>>, b: seq<T>)
    ensures Capacity(bufs + [b]) == Capacity(bufs) + |b|
  {
    if bufs != [] {
      assert (bufs + [b])[1..] == bufs[1..] + [b];
      CapacityAppend(bufs[1..], b);
    }
  }

  /** One Add of the sequence constructor, into arrays that have room for it. */
  method AddOnce<T>(l: LargeList<T>, item: T) returns (r: LargeList<T>)
    requires Inv(l) && ArrayIndex(l.maxSize, l.size) < |l.buffers|
    ensures Inv(r) && View(r) == View(l) + [item] && r.maxSize == l.maxSize && |r.buffers| == |l.buffers|
  {
    AddAppends(l, item);
    AddWrites(l, item);
    r := Add(l, item).list;
  }

  /** The sequence constructor: pre-size for the source, then Add every element. */
  method FromSeq<T>(maxSize: PosInt, zero: T, source: seq<T>) returns (r: LargeList<T>)
    requires IsPow2(maxSize) && DefaultArraySize <= maxSize
    ensures Inv(r) && View(r) == source && r.maxSize == maxSize
    ensures Fullness(r) && (|r.buffers| == 0 || r.fills[|r.buffers| - 1] > 0)
  {
    var pre := WithCapacity(maxSize, zero, |source|);
    r := pre.value;
    var i := 0;
    while i < |source|
      invariant 0 <= i <= |source|
      invariant Inv(r) && View(r) == source[..i] && r.maxSize == maxSize
      invariant |r.buffers| == ArraysFor(maxSize, |source|)
    {
      IndexBelowArrays(maxSize, i, |source|);
      assert source[..i + 1] == source[..i] + [source[i]];
      r := AddOnce(r, source[i]);
      i := i + 1;
    }
    assert source[..i] == source;
    TightWhenSized(r);
  }
}

=== FILE: insert_entry.dfy ===
/**
 * Insert as a whole: EnsureTotalCapacity followed by the cascade or the
 * local shift, when it inserts and when it leaves the fill counts broken;
 * the capacity step as evidently intended; and InsertRange, which inserts
 * the elements of a sequence one after another.
 */
module InsertEntry {
  import opened PowersOfTwo
  import opened Segments
  import opened ListState
  import opened Growth
  import opened Insertion

  /**
   * The fullness invariant with no backing arrays or a non-empty last one:
   * the states on which Insert, as written, inserts.
   */
  ghost predicate Tight<T>(l: LargeList<T>)
  {
    Fullness(l) && (|l.buffers| == 0 || l.fills[|l.buffers| - 1] > 0)
  }

  /** Two states whose filled slots agree show the same indexer view. */
  lemma ViewFromSlots<T>(l: LargeList<T>, l1: LargeList<T>)
    requires Addressable(l) && Addressable(l1) && l1.size == l.size && l1.maxSize == l.maxSize
    requires |l.buffers| <= |l1.buffers|
    requires forall m, t :: 0 <= m < |l.buffers| && 0 <= t < l.fills[m] ==>
               t < |l1.buffers[m]| && l1.buffers[m][t] == l.buffers[m][t]
    ensures View(l1) == View(l)
  {
    forall j | 0 <= j < l.size ensures View(l1)[j] == View(l)[j] {
      ViewAt(l, j);
      ViewAt(l1, j);
    }
  }

  /** EnsureArrayCapacity leaves an array that is full at the cap alone. */
  lemma EnsureFullArray<T>(l: LargeList<T>, k: int)
    requires Wf(l) && 0 <= k < |l.buffers| && l.fills[k] == l.maxSize
    ensures EnsureArrayCapacity(l, k) == Done(l)
  {
    assert CapacityOk(l.maxSize, |l.buffers[k]|);
  }

  /**
   * EnsureArrayCapacity on a last array below the cap: it becomes g, which
   * keeps its filled prefix and has a free slot.
   */
  lemma EnsureLastRoom<T>(l: LargeList<T>) returns (g: seq<T>)
    requires Wf(l) && |l.buffers| >= 1 && l.fills[|l.buffers| - 1] < l.maxSize
    ensures EnsureArrayCapacity(l, |l.buffers| - 1) == Done(l.(buffers := l.buffers[|l.buffers| - 1 := g]))
    ensures CapacityOk(l.maxSize, |g|) && l.fills[|l.buffers| - 1] < |g|
    ensures forall t :: 0 <= t < l.fills[|l.buffers| - 1] ==> g[t] == l.buffers[|l.buffers| - 1][t]
  {
    var max := l.maxSize;
    var L := |l.buffers| - 1;
    var b := l.buffers[L];
    var f := l.fills[L];
    assert CapacityOk(max, |b|);
    if f == |b| {
      Pow2Gap(f, max);
      DoubleIsPow2(f);
      g := Resize(l, L).0.buffers[L];
      assert Resize(l, L).0 == l.(buffers := l.buffers[L := g]);
      forall t | 0 <= t < f ensures g[t] == b[t] {
        assert g[..f][t] == b[t];
      }
    } else {
      g := b;
      assert l.buffers[L := g] == l.buffers;
    }
  }

  /** x mod the cap is the offset the indexer uses. */
  lemma ModIsPosition(max: PosInt, x: int)
    ensures x % max == Position(max, x)
  {
  }

  /** An index up to n * max lies in one of arrays 0 .. n. */
  lemma IndexUpTo(max: PosInt, n: nat, index: int)
    requires 0 <= index <= n * max
    ensures 0 <= ArrayIndex(max, index) <= n
  {
    ArrayIndexBounds(max, index, 0);
    assert (n + 1) * max == n * max + max;
    ArrayIndexBounds(max, index, n + 1);
  }

  /** When every array is full at the cap, the count is their number times the cap. */
  lemma AllFullSize<T>(l: LargeList<T>)
    requires Fullness(l) && (|l.buffers| == 0 || l.fills[|l.buffers| - 1] == l.maxSize)
    ensures l.size == |l.buffers| * l.maxSize
  {
    var n := |l.buffers|;
    if n >= 1 {
      FullSize(l);
      assert (n - 1) * l.maxSize + l.maxSize == n * l.maxSize;
    }
  }

  /** Appending an empty array keeps Inv, and Fullness when every array was full. */
  lemma AppendEmptyKeepsInv<T>(l: LargeList<T>)
    requires Inv(l)
    ensures Inv(CreateArrayAtIndex(l, |l.buffers|))
    ensures Fullness(l) && (|l.buffers| == 0 || l.fills[|l.buffers| - 1] == l.maxSize) ==>
              Fullness(CreateArrayAtIndex(l, |l.buffers|))
  {
    var l1 := CreateArrayAtIndex(l, |l.buffers|);
    SixteenIsPow2();
    assert l1.fills == l.fills + [0];
    SumAppend(l.fills, [0]);
  }

  /** Appending an empty array keeps the view. */
  lemma AppendEmptyView<T>(l: LargeList<T>)
    requires Inv(l) && Inv(CreateArrayAtIndex(l, |l.buffers|))
    ensures View(CreateArrayAtIndex(l, |l.buffers|)) == View(l)
  {
    ViewFromSlots(l, CreateArrayAtIndex(l, |l.buffers|));
  }

  /** Appending an empty array to a state whose arrays are all full keeps Fullness and the view. */
  lemma AppendEmpty<T>(l: LargeList<T>)
    requires Fullness(l) && (|l.buffers| == 0 || l.fills[|l.buffers| - 1] == l.maxSize)
    ensures Fullness(CreateArrayAtIndex(l, |l.buffers|))
    ensures View(CreateArrayAtIndex(l, |l.buffers|)) == View(l)
    ensures l.size == |l.buffers| * l.maxSize
  {
    AllFullSize(l);
    AppendEmptyKeepsInv(l);
    AppendEmptyView(l);
  }

  /**
   * The capacity step when every array is full (or there is none): one
   * empty array is appended and EnsureArrayCapacity changes nothing more.
   */
  lemma RoomAppend<T>(l: LargeList<T>, index: int) returns (l1: LargeList<T>)
    requires Fullness(l) && 0 <= index <= l.size
    requires |l.buffers| == 0 || l.fills[|l.buffers| - 1] == l.maxSize
    ensures l1 == CreateArrayAtIndex(l, |l.buffers|)
    ensures EnsureArrayCapacity(l1, ArrayIndex(l.maxSize, index)) == Done(l1)
    ensures ReadyToInsert(l1, index) && View(l1) == View(l)
  {
    var n := |l.buffers|;
    l1 := CreateArrayAtIndex(l, n);
    AppendEmpty(l);
    IndexUpTo(l.maxSize, n, index);
    var k := ArrayIndex(l.maxSize, index);
    if k < n {
      EnsureFullArray(l1, k);
    }
    assert ReadyToInsert(l1, index);
  }

  /** The capacity step when the index falls in a full array before the last: nothing changes. */
  lemma RoomBeforeLast<T>(l: LargeList<T>, index: int)
    requires Fullness(l) && 0 <= index <= l.size
    requires |l.buffers| >= 1 && l.fills[|l.buffers| - 1] < l.maxSize
    requires 0 <= ArrayIndex(l.maxSize, index) < |l.buffers| - 1
    ensures EnsureArrayCapacity(l, ArrayIndex(l.maxSize, index)) == Done(l)
    ensures ReadyToInsert(l, index)
  {
    EnsureFullArray(l, ArrayIndex(l.maxSize, index));
  }

  /** The capacity step when the index falls in the last array: it is grown if exactly full. */
  lemma RoomInLast<T>(l: LargeList<T>, index: int) returns (l1: LargeList<T>)
    requires Fullness(l) && 0 <= index <= l.size
    requires |l.buffers| >= 1 && l.fills[|l.buffers| - 1] < l.maxSize
    requires ArrayIndex(l.maxSize, index) == |l.buffers| - 1
    ensures EnsureArrayCapacity(l, ArrayIndex(l.maxSize, index)) == Done(l1)
    ensures ReadyToInsert(l1, index) && View(l1) == View(l)
    ensures l1.size == l.size && l1.version == l.version && l1.maxSize == l.maxSize && l1.zero == l.zero
  {
    var L := |l.buffers| - 1;
    var g := EnsureLastRoom(l);
    l1 := l.(buffers := l.buffers[L := g]);
    ReplaceKeepsWf(l, L, g);
    assert Fullness(l1);
    ViewFromSlots(l, l1);
  }

  /** The capacity step when the last array is below the cap: no array is appended. */
  lemma RoomInPlace<T>(l: LargeList<T>, index: int) returns (l1: LargeList<T>)
    requires Fullness(l) && 0 <= index <= l.size
    requires |l.buffers| >= 1 && l.fills[|l.buffers| - 1] < l.maxSize
    ensures 0 <= ArrayIndex(l.maxSize, index) < |l.buffers|
    ensures EnsureArrayCapacity(l, ArrayIndex(l.maxSize, index)) == Done(l1)
    ensures ReadyToInsert(l1, index) && View(l1) == View(l)
    ensures l1.size == l.size && l1.version == l.version && l1.maxSize == l.maxSize && l1.zero == l.zero
  {
    IndexInArrays(l, index);
    if ArrayIndex(l.maxSize, index) < |l.buffers| - 1 {
      RoomBeforeLast(l, index);
      l1 := l;
    } else {
      l1 := RoomInLast(l, index);
    }
  }

  /**
   * EnsureTotalCapacity as evidently intended: a new array is appended when
   * the last one is full at the cap (or there is none), not whenever the
   * count is a multiple of the cap, which it also is when the last array is
   * empty.
   */
  function EnsureRoom<T>(l: LargeList<T>, k: int): (r: Outcome<T>)
    requires Parallel(l)
    ensures r.Done? ==> Parallel(r.list)
  {
    var l1 := if |l.buffers| == 0 || l.fills[|l.buffers| - 1] == l.maxSize || |l.buffers| == k
              then CreateArrayAtIndex(l, |l.buffers|) else l;
    EnsureArrayCapacity(l1, k)
  }

  /** Under Fullness the intended capacity step leaves a state ready for InsertAt, with the same view. */
  lemma RoomReady<T>(l: LargeList<T>, index: int) returns (l1: LargeList<T>)
    requires Fullness(l) && 0 <= index <= l.size
    ensures EnsureRoom(l, ArrayIndex(l.maxSize, index)) == Done(l1)
    ensures ReadyToInsert(l1, index) && View(l1) == View(l)
    ensures l1.size == l.size && l1.version == l.version && l1.maxSize == l.maxSize && l1.zero == l.zero
  {
    if |l.buffers| == 0 || l.fills[|l.buffers| - 1] == l.maxSize {
      l1 := RoomAppend(l, index);
    } else {
      l1 := RoomInPlace(l, index);
    }
  }

  /**
   * On Tight states the count is a multiple of the cap exactly when the
   * last array is full at the cap, so the two capacity steps agree.
   */
  lemma EnsureAgrees<T>(l: LargeList<T>, k: int)
    requires Tight(l)
    ensures EnsureTotalCapacity(l, k) == EnsureRoom(l, k)
  {
    MultipleWhenFull(l);
  }

  /** On Tight states the count is a multiple of the cap exactly when every array is full. */
  lemma MultipleWhenFull<T>(l: LargeList<T>)
    requires Tight(l)
    ensures l.size % l.maxSize == 0 <==> |l.buffers| == 0 || l.fills[|l.buffers| - 1] == l.maxSize
  {
    var n := |l.buffers|;
    if n >= 1 {
      var f := LastFill(l);
      MultipleOfCap(l.maxSize, n, f, l.size);
    } else {
      EmptySize(l);
    }
  }

  lemma EmptySize<T>(l: LargeList<T>)
    requires Inv(l) && |l.buffers| == 0
    ensures l.size % l.maxSize == 0
  {
    assert l.size == 0;
  }

  /** On Tight states with an array, the count is the full arrays plus a last fill in 1 .. max. */
  lemma LastFill<T>(l: LargeList<T>) returns (f: int)
    requires Tight(l) && |l.buffers| >= 1
    ensures f == l.fills[|l.buffers| - 1] && 1 <= f <= l.maxSize
    ensures l.size == (|l.buffers| - 1) * l.maxSize + f
  {
    FullSize(l);
    assert CapacityOk(l.maxSize, |l.buffers[|l.buffers| - 1]|);
    f := l.fills[|l.buffers| - 1];
  }

  /** (n - 1) * max + f, with f in 1 .. max, is a multiple of max exactly when f is max. */
  lemma MultipleOfCap(max: PosInt, n: int, f: int, x: int)
    requires 1 <= f <= max && x == (n - 1) * max + f
    ensures x % max == 0 <==> f == max
  {
    ModIsPosition(max, x);
    if f == max {
      Compose(max, n, 0);
      assert x == n * max + 0;
    } else {
      Compose(max, n - 1, f);
    }
  }

  /** InsertAt on a state ready for it inserts, and the last array then holds an element. */
  lemma InsertAtInserts<T>(l: LargeList<T>, index: int, item: T) returns (r: LargeList<T>)
    requires ReadyToInsert(l, index)
    ensures InsertAt(l, index, item) == Done(r)
    ensures Inserted(l, r, index, item) && Tight(r)
  {
    if ArrayIndex(l.maxSize, index) == |l.buffers| - 1 {
      r := InsertLocal(l, index, item);
    } else {
      r := InsertCascade(l, index, item);
    }
  }

  /** Insert, once its capacity step has produced l1, is InsertAt on l1. */
  lemma InsertUnfold<T>(l: LargeList<T>, index: int, item: T, l1: LargeList<T>)
    requires Parallel(l) && index <= l.size
    requires EnsureTotalCapacity(l, ArrayIndex(l.maxSize, index)) == Done(l1)
    ensures Parallel(l1) && 0 <= ArrayIndex(l1.maxSize, index) < |l1.buffers|
    ensures Insert(l, index, item) == InsertAt(l1, index, item)
  {
  }

  /** An insertion into a state with l's view is an insertion into l. */
  lemma InsertedTransfer<T>(l: LargeList<T>, l1: LargeList<T>, r: LargeList<T>, index: int, item: T)
    requires Fullness(l) && 0 <= index <= l.size && ReadyToInsert(l1, index)
    requires View(l1) == View(l) && l1.size == l.size && l1.version == l.version
    requires l1.maxSize == l.maxSize && l1.zero == l.zero
    requires Inserted(l1, r, index, item)
    ensures Inserted(l, r, index, item)
  {
  }

  /**
   * Insert as written, on a Tight state and an index within the count:
   * the item lands at the index, everything from there on moves up by one,
   * the count and version grow by one, and the state stays Tight.
   */
  lemma InsertInserts<T>(l: LargeList<T>, index: int, item: T) returns (r: LargeList<T>)
    requires Tight(l) && 0 <= index <= l.size
    ensures Insert(l, index, item) == Done(r)
    ensures Inserted(l, r, index, item) && Tight(r)
  {
    var l1 := RoomReady(l, index);
    EnsureAgrees(l, ArrayIndex(l.maxSize, index));
    r := InsertAtInserts(l1, index, item);
    InsertUnfold(l, index, item, l1);
    InsertedTransfer(l, l1, r, index, item);
  }

  /**
   * A negative index passes Insert's only guard, may get an empty array
   * appended, and then fails on the backing-array lookup: the view, the
   * count and the version are unchanged.
   */
  lemma InsertNegative<T>(l: LargeList<T>, index: int, item: T)
    requires Inv(l) && index < 0
    ensures Insert(l, index, item).Threw? && Insert(l, index, item).error == ArgumentOutOfRange
    ensures Inv(Insert(l, index, item).list) && View(Insert(l, index, item).list) == View(l)
    ensures Insert(l, index, item).list.size == l.size && Insert(l, index, item).list.version == l.version
  {
    var max := l.maxSize;
    ArrayIndexBounds(max, index, 0);
    if l.size % max == 0 || |l.buffers| == ArrayIndex(max, index) {
      var l1 := CreateArrayAtIndex(l, |l.buffers|);
      AppendEmptyKeepsInv(l);
      AppendEmptyView(l);
      assert Insert(l, index, item) == Threw(ArgumentOutOfRange, l1);
    } else {
      assert Insert(l, index, item) == Threw(ArgumentOutOfRange, l);
    }
  }

  /** Insert with the intended capacity step. */
  function InsertFixed<T>(l: LargeList<T>, index: int, item: T): (r: Outcome<T>)
    requires Parallel(l)
    ensures index > l.size ==> r == Threw(ArgumentOutOfRange, l)
    ensures r.Done? ==> Parallel(r.list)
  {
    if index > l.size then Threw(ArgumentOutOfRange, l)
    else
      var l1 :- EnsureRoom(l, ArrayIndex(l.maxSize, index));
      InsertAt(l1, index, item)
  }

  lemma InsertFixedUnfold<T>(l: LargeList<T>, index: int, item: T, l1: LargeList<T>)
    requires Parallel(l) && index <= l.size
    requires EnsureRoom(l, ArrayIndex(l.maxSize, index)) == Done(l1)
    ensures Parallel(l1) && 0 <= ArrayIndex(l1.maxSize, index) < |l1.buffers|
    ensures InsertFixed(l, index, item) == InsertAt(l1, index, item)
  {
  }

  /** With the intended capacity step, Insert inserts on every state with the fullness invariant. */
  lemma InsertFixedInserts<T>(l: LargeList<T>, index: int, item: T) returns (r: LargeList<T>)
    requires Fullness(l) && 0 <= index <= l.size
    ensures InsertFixed(l, index, item) == Done(r)
    ensures Inserted(l, r, index, item) && Tight(r)
  {
    var l1 := RoomReady(l, index);
    r := InsertAtInserts(l1, index, item);
    InsertFixedUnfold(l, index, item, l1);
    InsertedTransfer(l, l1, r, index, item);
  }

  /** On Tight states the corrected Insert is the Insert of the source, for every index. */
  lemma InsertFixedAgrees<T>(l: LargeList<T>, index: int, item: T)
    requires Tight(l)
    ensures InsertFixed(l, index, item) == Insert(l, index, item)
  {
    EnsureAgrees(l, ArrayIndex(l.maxSize, index));
  }

  /** A cap of 16, one full array of ones and one empty array. */
  function GapState(): (l: LargeList<int>)
    ensures Fullness(l) && l.fills == [16, 0] && l.size == 16
  {
    var l := LargeList(16, [NewArray(16, 1), NewArray(16, 0)], [16, 0], 16, 0, 0);
    SixteenIsPow2();
    assert Sum([16, 0]) == 16 by {
      assert [16, 0][1..] == [0];
      assert [0][1..] == [];
    }
    l
  }

  /** The capacity step on GapState for index 0 appends a third, empty array. */
  lemma GapCapacity() returns (l1: LargeList<int>)
    ensures l1 == CreateArrayAtIndex(GapState(), 2)
    ensures EnsureTotalCapacity(GapState(), 0) == Done(l1)
    ensures Parallel(l1) && l1.fills == [16, 0, 0] && |l1.buffers[0]| == 16 && l1.buffers[0][15] == 1
    ensures l1.maxSize == 16
    ensures |l1.buffers[1]| == 16 && |l1.buffers[2]| == 16
  {
    l1 := CreateArrayAtIndex(GapState(), 2);
    assert l1.fills == [16, 0] + [0];
  }

  /** The cascade from array 0 writes the carried element into slot 0 of both empty arrays. */
  lemma GapCascade(l1: LargeList<int>) returns (l3: LargeList<int>)
    requires Parallel(l1) && l1.fills == [16, 0, 0] && |l1.buffers[1]| == 16 && |l1.buffers[2]| == 16
    ensures Cascade(l1, 0, 1) == Done(l3)
    ensures l3.fills == [16, 0, 0] && l3.buffers[0] == l1.buffers[0] && Parallel(l3)
  {
    var l2 := l1.(buffers := l1.buffers[1 := l1.buffers[1][0 := 1]]);
    UnfoldEmpty(l1, 0, 1, l1, l2);
    l3 := l2.(buffers := l2.buffers[2 := l2.buffers[2][0 := 1]]);
    UnfoldEmpty(l2, 1, 1, l2, l3);
    assert Cascade(l2, 1, 1) == Done(l3);
  }

  /** After the cascade, array 0 is shifted, the item written, and the count goes to array 2. */
  lemma GapPlace(l1: LargeList<int>, l3: LargeList<int>) returns (r: LargeList<int>)
    requires Parallel(l1) && l1.fills == [16, 0, 0] && |l1.buffers[0]| == 16 && l1.buffers[0][15] == 1
    requires l1.maxSize == 16
    requires Cascade(l1, 0, 1) == Done(l3)
    requires l3.fills == [16, 0, 0] && l3.buffers[0] == l1.buffers[0] && Parallel(l3)
    ensures InsertAt(l1, 0, 7) == Done(r) && r.fills == [16, 0, 1]
  {
    var b4 := PlaceShifted(l3, 0, 0, 15, 7, 2);
    r := l3.(buffers := l3.buffers[0 := b4], fills := [16, 0, 1], size := l3.size + 1, version := l3.version + 1);
    CarryAndPlaceAfter(l1, 0, 0, 7, l3);
    Compose(16, 0, 0);
    InsertAtCascade(l1, 0, 0, 0, 7, Done(r));
  }

  /**
   * Insert as written on a state whose last array is empty: with a cap of
   * 16, one full array and an empty one, inserting at index 0 appends a
   * third array (the count 16 is a multiple of the cap), the cascade writes
   * the carried element into both empty arrays, and the count goes to the
   * third. The fill counts become [16, 0, 1]: a filled array after one that
   * is not full.
   */
  lemma InsertLeavesGap()
    ensures Fullness(GapState())
    ensures Insert(GapState(), 0, 7).Done?
    ensures Insert(GapState(), 0, 7).list.fills == [16, 0, 1]
    ensures !Packed(Insert(GapState(), 0, 7).list.fills, 16)
  {
    var l1 := GapCapacity();
    InsertUnfold(GapState(), 0, 7, l1);
    var l3 := GapCascade(l1);
    var r := GapPlace(l1, l3);
    assert !Packed(r.fills, 16) by {
      assert r.fills[2] > 0 && r.fills[1] != 16;
    }
  }

  /** Inserting x at the end of the part already inserted extends that part by x. */
  lemma InsertRangeStep<T>(v: seq<T>, index: int, source: seq<T>, i: int, w: seq<T>, w': seq<T>)
    requires 0 <= index <= |v| && 0 <= i < |source|
    requires w == v[..index] + source[..i] + v[index..]
    requires w' == w[..index + i] + [source[i]] + w[index + i..]
    ensures w' == v[..index] + source[..i + 1] + v[index..]
  {
    assert w[..index + i] == v[..index] + source[..i];
    assert w[index + i..] == v[index..];
    assert source[..i + 1] == source[..i] + [source[i]];
  }

  /** cur is l after the first i elements of source were inserted from index on. */
  ghost predicate RangeAt<T>(l: LargeList<T>, index: int, source: seq<T>, i: int, cur: LargeList<T>)
  {
    && Tight(l) && 0 <= index <= l.size && 0 <= i <= |source|
    && Tight(cur) && cur.size == l.size + i && cur.version == l.version + i
    && cur.maxSize == l.maxSize && cur.zero == l.zero
    && View(cur) == View(l)[..index] + source[..i] + View(l)[index..]
  }

  /** One pass of InsertRange's loop, given the insertion it makes, keeps RangeAt. */
  lemma RangeExtend<T>(l: LargeList<T>, index: int, source: seq<T>, i: int, cur: LargeList<T>, next: LargeList<T>)
    requires RangeAt(l, index, source, i, cur) && i < |source|
    requires Inserted(cur, next, index + i, source[i]) && Tight(next)
    ensures RangeAt(l, index, source, i + 1, next)
  {
    InsertRangeStep(View(l), index, source, i, View(cur), View(next));
  }

  /** One call of Insert inside InsertRange, with what it does on Tight states. */
  method InsertOnce<T>(cur: LargeList<T>, at: int, x: T) returns (o: Outcome<T>)
    requires Parallel(cur)
    ensures o.Done? ==> Parallel(o.list)
    ensures Tight(cur) && 0 <= at <= cur.size ==> o.Done? && Inserted(cur, o.list, at, x) && Tight(o.list)
  {
    o := Insert(cur, at, x);
    if Tight(cur) && 0 <= at <= cur.size {
      var next := InsertInserts(cur, at, x);
    }
  }

  /**
   * InsertRange(index, source): the index is checked against both ends,
   * then each element of source is inserted at the next index in turn. An
   * exception from one Insert leaves the elements inserted before it.
   */
  method InsertRange<T>(l: LargeList<T>, index: int, source: seq<T>) returns (r: Outcome<T>)
    requires Parallel(l)
    ensures index > l.size || index < 0 ==> r == Threw(ArgumentOutOfRange, l)
    ensures Tight(l) && 0 <= index <= l.size ==>
              && r.Done? && Tight(r.list)
              && View(r.list) == View(l)[..index] + source + View(l)[index..]
              && r.list.size == l.size + |source| && r.list.version == l.version + |source|
              && r.list.maxSize == l.maxSize
  {
    if index > l.size || index < 0 {
      return Threw(ArgumentOutOfRange, l);
    }
    var cur := l;
    var i := 0;
    if Tight(l) {
      assert RangeAt(l, index, source, 0, l);
    }
    while i < |source|
      invariant 0 <= i <= |source| && Parallel(cur)
      invariant Tight(l) ==> RangeAt(l, index, source, i, cur)
    {
      var o := InsertOnce(cur, index + i, source[i]);
      if o.Threw? {
        return o;
      }
      if Tight(l) {
        RangeExtend(l, index, source, i, cur, o.list);
      }
      cur := o.list;
      i := i + 1;
    }
    assert source[..|source|] == source;
    return Done(cur);
  }
}

=== FILE: insertion.dfy ===
/**
 * Insert and InsertRange: a local shift inside the target array, preceded,
 * when that array is full and not the last, by a cascade that carries one
 * displaced element forward across every later array.
 */
module Insertion {
  import opened PowersOfTwo
  import opened Segments
  import opened ListState
  import opened Growth

  /** One pass of the cascade loop: the updated list and the element carried on, or the exception. */
  datatype CarryOutcome<T> = Carried(list: LargeList<T>, carry: T) | CarryThrew(error: Error, list: LargeList<T>)

  /**
   * One pass of the cascade loop of Insert, on array `next`: the array is
   * grown if exactly full, then, if it holds elements, its last element
   * becomes the next carry, it is shifted right by one (dropping its last
   * slot when full at the cap) and receives the carried element in slot 0;
   * an empty array just receives the carry in slot 0 and passes it on.
   */
  function CascadeOne<T>(l: LargeList<T>, next: int, carry: T): (r: CarryOutcome<T>)
    requires Parallel(l) && 0 <= next < |l.buffers|
    ensures r.Carried? ==> Parallel(r.list) && |r.list.buffers| == |l.buffers|
    ensures r.Carried? ==> BuffersOnly(l, r.list)
  {
    match EnsureArrayCapacity(l, next)
    case Threw(e, l1) => CarryThrew(e, l1)
    case Done(l1) =>
      if l1.fills[next] > 0 then
        if l1.fills[next] > |l1.buffers[next]| then CarryThrew(IndexOutOfRange, l1)
        else
          var len := if l1.fills[next] == l1.maxSize then l1.fills[next] - 1 else l1.fills[next];
          match Shift(l1, next, 0, 1, len)
          case Threw(e, l2) => CarryThrew(e, l2)
          case Done(l2) =>
            match Store(l2, next, 0, carry)
            case Threw(e, l3) => CarryThrew(e, l3)
            case Done(l3) => Carried(l3, l1.buffers[next][l1.fills[next] - 1])
      else
        match Store(l1, next, 0, carry)
        case Threw(e, l2) => CarryThrew(e, l2)
        case Done(l2) => Carried(l2, carry)
  }

  /** The cascade loop of Insert, over every array after idx. */
  function Cascade<T>(l: LargeList<T>, idx: int, carry: T): (r: Outcome<T>)
    requires Parallel(l) && 0 <= idx
    ensures r.Done? ==> Parallel(r.list) && |r.list.buffers| == |l.buffers|
    ensures r.Done? ==> BuffersOnly(l, r.list)
    decreases |l.buffers| - idx
  {
    if idx >= |l.buffers| - 1 then Done(l)
    else
      match CascadeOne(l, idx + 1, carry)
      case CarryThrew(e, l') => Threw(e, l')
      case Carried(l', c) => Cascade(l', idx + 1, c)
  }

  /**
   * The end of Insert: shift array k right by one from offset pos (len
   * elements) when pos is below its fill, write the item at pos, and count
   * it in array u.
   */
  function PlaceItem<T>(l: LargeList<T>, k: int, pos: int, len: int, item: T, u: int): (r: Outcome<T>)
    requires Parallel(l) && 0 <= k < |l.buffers| && 0 <= u < |l.buffers|
    ensures r.Done? ==> Parallel(r.list)
  {
    match ShiftFrom(l, k, pos, len)
    case Threw(e, l') => Threw(e, l')
    case Done(l3) =>
      match Store(l3, k, pos, item)
      case Threw(e, l') => Threw(e, l')
      case Done(l4) => Done(l4.(fills := l4.fills[u := l4.fills[u] + 1], size := l4.size + 1, version := l4.version + 1))
  }

  /** The shift of Insert: only when the insertion offset is below the fill. */
  function ShiftFrom<T>(l: LargeList<T>, k: int, pos: int, len: int): (r: Outcome<T>)
    requires Parallel(l) && 0 <= k < |l.buffers|
    ensures r.Done? ==> Parallel(r.list) && |r.list.buffers| == |l.buffers|
  {
    if pos < l.fills[k] then Shift(l, k, pos, pos + 1, len) else Done(l)
  }

  /**
   * The tail of Insert once capacity is ensured: when array k is full and not
   * the last, carry its last element through the cascade, shift without it,
   * and count the item in the last array; otherwise shift array k and count
   * the item there.
   */
  function InsertAt<T>(l: LargeList<T>, index: int, item: T): (r: Outcome<T>)
    requires Parallel(l) && 0 <= ArrayIndex(l.maxSize, index) < |l.buffers|
    ensures r.Done? ==> Parallel(r.list)
  {
    var k := ArrayIndex(l.maxSize, index);
    var pos := Position(l.maxSize, index);
    if k != |l.buffers| - 1 && l.fills[k] == l.maxSize then CarryAndPlace(l, k, pos, item)
    else PlaceItem(l, k, pos, l.fills[k] - pos, item, k)
  }

  /**
   * The cascade branch of Insert: the last element of array k is carried
   * through every later array, array k is shifted without it, and the item
   * is counted in the last array.
   */
  function CarryAndPlace<T>(l: LargeList<T>, k: int, pos: int, item: T): (r: Outcome<T>)
    requires Parallel(l) && 0 <= k < |l.buffers|
    ensures r.Done? ==> Parallel(r.list)
  {
    if !(0 <= l.fills[k] - 1 < |l.buffers[k]|) then Threw(IndexOutOfRange, l)
    else AfterCascade(Cascade(l, k, l.buffers[k][l.fills[k] - 1]), k, pos, item)
  }

  /** What follows a cascade: its exception, or the placement of the item with the count going to the last array. */
  function AfterCascade<T>(o: Outcome<T>, k: int, pos: int, item: T): (r: Outcome<T>)
    requires o.Done? ==> Parallel(o.list) && 0 <= k < |o.list.buffers|
    ensures r.Done? ==> Parallel(r.list)
  {
    match o
    case Threw(e, l') => Threw(e, l')
    case Done(l2) => PlaceItem(l2, k, pos, l2.fills[k] - pos - 1, item, |l2.buffers| - 1)
  }

  /** Insert(index, item). Only index > Count is rejected up front. */
  function Insert<T>(l: LargeList<T>, index: int, item: T): (r: Outcome<T>)
    requires Parallel(l)
    ensures index > l.size ==> r == Threw(ArgumentOutOfRange, l)
    ensures r.Done? ==> Parallel(r.list)
  {
    if index > l.size then Threw(ArgumentOutOfRange, l)
    else
      var k := ArrayIndex(l.maxSize, index);
      var l1 :- EnsureTotalCapacity(l, k);
      InsertAt(l1, index, item)
  }

  // ---------------------------------------------------------------------
  // The cascade under the fullness invariant
  // ---------------------------------------------------------------------

  /**
   * The shape the cascade expects from array idx on: every later array but
   * the last is full at the cap, the last is not.
   */
  ghost predicate CascadeReady<T>(l: LargeList<T>, idx: int)
  {
    && Wf(l) && 0 <= idx < |l.buffers|
    && (forall m :: idx < m < |l.buffers| - 1 ==> l.fills[m] == l.maxSize)
    && l.fills[|l.buffers| - 1] < l.maxSize
  }

  /** The number of slots of array m the cascade defines: all of a middle one, fill + 1 of the last. */
  ghost function Span<T>(l: LargeList<T>, m: int): int
    requires 0 <= m < |l.fills|
  {
    if m == |l.fills| - 1 then l.fills[m] + 1 else l.maxSize
  }

  lemma MiddleIsFull<T>(l: LargeList<T>, idx: int, m: int)
    requires CascadeReady(l, idx) && idx < m < |l.buffers| - 1
    ensures l.fills[m] == l.maxSize == |l.buffers[m]|
  {
    assert CapacityOk(l.maxSize, |l.buffers[m]|);
  }

  /**
   * EnsureArrayCapacity on the array after idx, under CascadeReady: it
   * replaces that array by g, which keeps its filled prefix and has room for
   * one more element unless it is full at the cap.
   */
  lemma EnsureNext<T>(l: LargeList<T>, idx: int) returns (g: seq<T>)
    requires CascadeReady(l, idx) && idx < |l.buffers| - 1
    ensures EnsureArrayCapacity(l, idx + 1) == Done(l.(buffers := l.buffers[idx + 1 := g]))
    ensures CapacityOk(l.maxSize, |g|) && l.fills[idx + 1] <= |g|
    ensures l.fills[idx + 1] < |g| || l.fills[idx + 1] == l.maxSize == |g|
    ensures forall t :: 0 <= t < l.fills[idx + 1] ==> g[t] == l.buffers[idx + 1][t]
  {
    var max := l.maxSize;
    var next := idx + 1;
    var b := l.buffers[next];
    var f := l.fills[next];
    assert CapacityOk(max, |b|);
    if f == |b| && f <= max / 2 {
      Pow2Gap(f, max);
      DoubleIsPow2(f);
      g := Resize(l, next).0.buffers[next];
      assert Resize(l, next).0 == l.(buffers := l.buffers[next := g]);
      forall t | 0 <= t < f ensures g[t] == b[t] {
        assert g[..f][t] == b[t];
      }
    } else {
      if f == |b| && f < max {
        Pow2Gap(f, max);
      }
      g := b;
      assert l.buffers[next := g] == l.buffers;
    }
  }

  /** Unfolding one pass of the cascade when array idx + 1 holds elements. */
  lemma UnfoldFilled<T>(l: LargeList<T>, idx: int, carry: T, l1: LargeList<T>, l2: LargeList<T>, l3: LargeList<T>)
    requires Parallel(l) && 0 <= idx < |l.buffers| - 1
    requires EnsureArrayCapacity(l, idx + 1) == Done(l1)
    requires 0 < l1.fills[idx + 1] <= |l1.buffers[idx + 1]|
    requires Shift(l1, idx + 1, 0, 1, if l1.fills[idx + 1] == l1.maxSize then l1.fills[idx + 1] - 1 else l1.fills[idx + 1]) == Done(l2)
    requires Store(l2, idx + 1, 0, carry) == Done(l3)
    ensures CascadeOne(l, idx + 1, carry) == Carried(l3, l1.buffers[idx + 1][l1.fills[idx + 1] - 1])
  {
  }

  /** Unfolding one pass of the cascade when array idx + 1 is empty. */
  lemma UnfoldEmpty<T>(l: LargeList<T>, idx: int, carry: T, l1: LargeList<T>, l2: LargeList<T>)
    requires Parallel(l) && 0 <= idx < |l.buffers| - 1
    requires EnsureArrayCapacity(l, idx + 1) == Done(l1)
    requires l1.fills[idx + 1] == 0
    requires Store(l1, idx + 1, 0, carry) == Done(l2)
    ensures CascadeOne(l, idx + 1, carry) == Carried(l2, carry)
  {
  }

  /**
   * The array-level effect of one cascade step on a non-empty array: shift
   * right by one (all of it, or all but the last slot when full at the cap)
   * and write the carry into slot 0.
   */
  lemma ShiftInCarry<T>(b: seq<T>, f: int, max: int, carry: T) returns (c: seq<T>, b3: seq<T>)
    requires 0 < f <= |b| <= max && (f < |b| || f == max)
    ensures Copy(b, 0, b, 1, if f == max then f - 1 else f) == Ok(c)
    ensures b3 == c[0 := carry] && |b3| == |b|
    ensures forall t :: 0 <= t < |b| && t <= f ==> b3[t] == if t == 0 then carry else b[t - 1]
  {
    var len := if f == max then f - 1 else f;
    c := Copy(b, 0, b, 1, len).value;
    b3 := c[0 := carry];
  }

  /** Replacing one backing array by one of a legal capacity that holds its fill keeps Wf. */
  lemma ReplaceKeepsWf<T>(l: LargeList<T>, k: int, a: seq<T>)
    requires Wf(l) && 0 <= k < |l.buffers| && CapacityOk(l.maxSize, |a|) && l.fills[k] <= |a|
    ensures Wf(l.(buffers := l.buffers[k := a]))
  {
    var l' := l.(buffers := l.buffers[k := a]);
    forall m | 0 <= m < |l'.buffers| ensures CapacityOk(l.maxSize, |l'.buffers[m]|) && 0 <= l'.fills[m] <= |l'.buffers[m]| {
      if m != k {
        assert l'.buffers[m] == l.buffers[m];
      }
    }
  }

  lemma ReadyMoves<T>(l: LargeList<T>, l': LargeList<T>, idx: int)
    requires CascadeReady(l, idx) && idx < |l.buffers| - 1
    requires Wf(l') && l'.fills == l.fills && l'.maxSize == l.maxSize
    ensures CascadeReady(l', idx + 1)
  {
  }

  /** One cascade step into a non-empty array idx + 1, given what EnsureArrayCapacity made of it. */
  lemma StepFilled<T>(l: LargeList<T>, idx: int, carry: T, g: seq<T>) returns (b3: seq<T>)
    requires Parallel(l) && 0 <= idx < |l.buffers| - 1
    requires EnsureArrayCapacity(l, idx + 1) == Done(l.(buffers := l.buffers[idx + 1 := g]))
    requires 0 < l.fills[idx + 1] <= |g| <= l.maxSize
    requires l.fills[idx + 1] < |g| || l.fills[idx + 1] == l.maxSize
    ensures CascadeOne(l, idx + 1, carry) == Carried(l.(buffers := l.buffers[idx + 1 := b3]), g[l.fills[idx + 1] - 1])
    ensures |b3| == |g|
    ensures forall t :: 0 <= t < |b3| && t <= l.fills[idx + 1] ==> b3[t] == if t == 0 then carry else g[t - 1]
  {
    var next := idx + 1;
    var l1 := l.(buffers := l.buffers[next := g]);
    var c;
    c, b3 := ShiftInCarry(g, l.fills[next], l.maxSize, carry);
    var l2 := l1.(buffers := l1.buffers[next := c]);
    var l3 := l2.(buffers := l2.buffers[next := b3]);
    assert l3 == l.(buffers := l.buffers[next := b3]);
    UnfoldFilled(l, idx, carry, l1, l2, l3);
  }

  /** One cascade step into an empty array idx + 1, given what EnsureArrayCapacity made of it. */
  lemma StepEmpty<T>(l: LargeList<T>, idx: int, carry: T, g: seq<T>) returns (b3: seq<T>)
    requires Parallel(l) && 0 <= idx < |l.buffers| - 1
    requires EnsureArrayCapacity(l, idx + 1) == Done(l.(buffers := l.buffers[idx + 1 := g]))
    requires l.fills[idx + 1] == 0 < |g|
    ensures CascadeOne(l, idx + 1, carry) == Carried(l.(buffers := l.buffers[idx + 1 := b3]), carry)
    ensures b3 == g[0 := carry]
  {
    var next := idx + 1;
    var l1 := l.(buffers := l.buffers[next := g]);
    b3 := g[0 := carry];
    var l2 := l1.(buffers := l1.buffers[next := b3]);
    assert l2 == l.(buffers := l.buffers[next := b3]);
    UnfoldEmpty(l, idx, carry, l1, l2);
  }

  /**
   * One step of the cascade: array idx + 1 is replaced by b3, which holds
   * the carry in slot 0 and the array's old elements shifted up by one over
   * its span; the element carried on is the old last slot of a middle array.
   */
  lemma CascadeStep<T>(l: LargeList<T>, idx: int, carry: T) returns (b3: seq<T>, nextCarry: T)
    requires CascadeReady(l, idx) && idx < |l.buffers| - 1
    ensures CascadeOne(l, idx + 1, carry) == Carried(l.(buffers := l.buffers[idx + 1 := b3]), nextCarry)
    ensures CapacityOk(l.maxSize, |b3|) && Span(l, idx + 1) <= |b3|
    ensures forall t :: 0 <= t < Span(l, idx + 1) ==> b3[t] == if t == 0 then carry else l.buffers[idx + 1][t - 1]
    ensures idx + 1 < |l.buffers| - 1 ==> nextCarry == l.buffers[idx + 1][l.maxSize - 1]
  {
    if l.fills[idx + 1] > 0 {
      b3, nextCarry := CascadeStepFilled(l, idx, carry);
    } else {
      b3, nextCarry := CascadeStepEmpty(l, idx, carry);
    }
  }

  /** CascadeStep into a non-empty array. */
  lemma CascadeStepFilled<T>(l: LargeList<T>, idx: int, carry: T) returns (b3: seq<T>, nextCarry: T)
    requires CascadeReady(l, idx) && idx < |l.buffers| - 1 && l.fills[idx + 1] > 0
    ensures CascadeOne(l, idx + 1, carry) == Carried(l.(buffers := l.buffers[idx + 1 := b3]), nextCarry)
    ensures CapacityOk(l.maxSize, |b3|) && Span(l, idx + 1) <= |b3|
    ensures forall t :: 0 <= t < Span(l, idx + 1) ==> b3[t] == if t == 0 then carry else l.buffers[idx + 1][t - 1]
    ensures idx + 1 < |l.buffers| - 1 ==> nextCarry == l.buffers[idx + 1][l.maxSize - 1]
  {
    var next := idx + 1;
    var f := l.fills[next];
    var g := EnsureNext(l, idx);
    if next < |l.buffers| - 1 {
      MiddleIsFull(l, idx, next);
    }
    nextCarry := g[f - 1];
    b3 := StepFilled(l, idx, carry, g);
    assert CapacityOk(l.maxSize, |b3|) && Span(l, idx + 1) <= |b3|;
    assert idx + 1 < |l.buffers| - 1 ==> nextCarry == l.buffers[idx + 1][l.maxSize - 1];
  }

  /** CascadeStep into an empty array (only the last can be). */
  lemma CascadeStepEmpty<T>(l: LargeList<T>, idx: int, carry: T) returns (b3: seq<T>, nextCarry: T)
    requires CascadeReady(l, idx) && idx < |l.buffers| - 1 && l.fills[idx + 1] == 0
    ensures CascadeOne(l, idx + 1, carry) == Carried(l.(buffers := l.buffers[idx + 1 := b3]), nextCarry)
    ensures idx + 1 == |l.buffers| - 1 && Span(l, idx + 1) == 1
    ensures CapacityOk(l.maxSize, |b3|) && 1 <= |b3| && b3[0] == carry
  {
    var next := idx + 1;
    var g := EnsureNext(l, idx);
    if next < |l.buffers| - 1 {
      MiddleIsFull(l, idx, next);
      assert false;
    }
    nextCarry := carry;
    b3 := StepEmpty(l, idx, carry, g);
  }

  /**
   * What the cascade from array idx leaves behind: arrays up to idx
   * untouched, every later array shifted right by one over its span with the
   * previous array's last element (the initial carry for the first) in slot 0.
   */
  ghost predicate Cascaded<T>(l: LargeList<T>, r: LargeList<T>, idx: int, carry: T)
    requires CascadeReady(l, idx)
  {
    && Wf(r) && BuffersOnly(l, r) && |r.buffers| == |l.buffers|
    && (forall m :: 0 <= m <= idx && m < |l.buffers| ==> r.buffers[m] == l.buffers[m])
    && (forall m :: idx < m < |l.buffers| ==> Span(l, m) <= |r.buffers[m]|)
    && (forall m, t :: idx < m < |l.buffers| && 0 <= t < Span(l, m) ==>
          r.buffers[m][t] ==
            if t == 0 then (if m == idx + 1 then carry else l.buffers[m - 1][l.maxSize - 1])
            else l.buffers[m][t - 1])
  }

  /** Under CascadeReady, the cascade from array idx succeeds with the effect Cascaded describes. */
  lemma {:induction false} CascadeShifts<T>(l: LargeList<T>, idx: int, carry: T) returns (r: LargeList<T>)
    requires CascadeReady(l, idx)
    ensures Cascade(l, idx, carry) == Done(r)
    ensures Cascaded(l, r, idx, carry)
    decreases |l.buffers| - idx, 1
  {
    if idx == |l.buffers| - 1 {
      r := l;
      CascadeAtLast(l, idx, carry);
    } else {
      r := CascadeShiftsStep(l, idx, carry);
    }
  }

  /** The inductive step of CascadeShifts: one pass, then the cascade of the remaining arrays. */
  lemma {:induction false} CascadeShiftsStep<T>(l: LargeList<T>, idx: int, carry: T) returns (r: LargeList<T>)
    requires CascadeReady(l, idx) && idx < |l.buffers| - 1
    ensures Cascade(l, idx, carry) == Done(r)
    ensures Cascaded(l, r, idx, carry)
    decreases |l.buffers| - idx, 0
  {
    var b3, c := CascadeStep(l, idx, carry);
    var l3 := l.(buffers := l.buffers[idx + 1 := b3]);
    ReplaceKeepsWf(l, idx + 1, b3);
    ReadyMoves(l, l3, idx);
    r := CascadeShifts(l3, idx + 1, c);
    CascadeClose(l, b3, r, idx, carry, c);
  }

  /** The cascade from idx is one step followed by the cascade from idx + 1, whose effect is known. */
  lemma CascadeClose<T>(l: LargeList<T>, b3: seq<T>, r: LargeList<T>, idx: int, carry: T, c: T)
    requires CascadeReady(l, idx) && idx < |l.buffers| - 1
    requires CascadeOne(l, idx + 1, carry) == Carried(l.(buffers := l.buffers[idx + 1 := b3]), c)
    requires CapacityOk(l.maxSize, |b3|) && Span(l, idx + 1) <= |b3|
    requires forall t :: 0 <= t < Span(l, idx + 1) ==> b3[t] == if t == 0 then carry else l.buffers[idx + 1][t - 1]
    requires idx + 1 < |l.buffers| - 1 ==> c == l.buffers[idx + 1][l.maxSize - 1]
    requires CascadeReady(l.(buffers := l.buffers[idx + 1 := b3]), idx + 1)
    requires Cascade(l.(buffers := l.buffers[idx + 1 := b3]), idx + 1, c) == Done(r)
    requires Cascaded(l.(buffers := l.buffers[idx + 1 := b3]), r, idx + 1, c)
    ensures Cascade(l, idx, carry) == Done(r)
    ensures Cascaded(l, r, idx, carry)
  {
    CascadeUnfold(l, idx, carry, l.(buffers := l.buffers[idx + 1 := b3]), c, r);
    CascadeLink(l, b3, r, idx, carry, c);
  }

  lemma CascadeUnfold<T>(l: LargeList<T>, idx: int, carry: T, l3: LargeList<T>, c: T, r: LargeList<T>)
    requires Parallel(l) && 0 <= idx < |l.buffers| - 1
    requires CascadeOne(l, idx + 1, carry) == Carried(l3, c)
    requires Parallel(l3) && Cascade(l3, idx + 1, c) == Done(r)
    ensures Cascade(l, idx, carry) == Done(r)
  {
  }

  lemma CascadeAtLast<T>(l: LargeList<T>, idx: int, carry: T)
    requires CascadeReady(l, idx) && idx == |l.buffers| - 1
    ensures Cascade(l, idx, carry) == Done(l)
    ensures Cascaded(l, l, idx, carry)
  {
  }

  /** Composing one cascade step with the cascade of the remaining arrays. */
  lemma CascadeLink<T>(l: LargeList<T>, b3: seq<T>, r: LargeList<T>, idx: int, carry: T, c: T)
    requires CascadeReady(l, idx) && idx < |l.buffers| - 1
    requires CapacityOk(l.maxSize, |b3|) && Span(l, idx + 1) <= |b3|
    requires forall t :: 0 <= t < Span(l, idx + 1) ==> b3[t] == if t == 0 then carry else l.buffers[idx + 1][t - 1]
    requires idx + 1 < |l.buffers| - 1 ==> c == l.buffers[idx + 1][l.maxSize - 1]
    requires CascadeReady(l.(buffers := l.buffers[idx + 1 := b3]), idx + 1)
    requires Cascaded(l.(buffers := l.buffers[idx + 1 := b3]), r, idx + 1, c)
    ensures Cascaded(l, r, idx, carry)
  {
    var n := |l.buffers|;
    var max := l.maxSize;
    var l3 := l.(buffers := l.buffers[idx + 1 := b3]);
    assert BuffersOnly(l, r);
    forall m | 0 <= m <= idx ensures r.buffers[m] == l.buffers[m] {
      assert l3.buffers[m] == l.buffers[m];
    }
    forall m | idx < m < n ensures Span(l, m) <= |r.buffers[m]| {
      assert Span(l3, m) == Span(l, m);
    }
    forall m, t | idx < m < n && 0 <= t < Span(l, m)
      ensures r.buffers[m][t] ==
                if t == 0 then (if m == idx + 1 then carry else l.buffers[m - 1][max - 1])
                else l.buffers[m][t - 1]
    {
      LinkSlot(l, b3, r, idx, carry, c, m, t);
    }
    assert Cascaded(l, r, idx, carry);
  }

  /** One slot of CascadeLink. */
  lemma LinkSlot<T>(l: LargeList<T>, b3: seq<T>, r: LargeList<T>, idx: int, carry: T, c: T, m: int, t: int)
    requires CascadeReady(l, idx) && idx < |l.buffers| - 1
    requires Span(l, idx + 1) <= |b3|
    requires forall t :: 0 <= t < Span(l, idx + 1) ==> b3[t] == if t == 0 then carry else l.buffers[idx + 1][t - 1]
    requires idx + 1 < |l.buffers| - 1 ==> c == l.buffers[idx + 1][l.maxSize - 1]
    requires CascadeReady(l.(buffers := l.buffers[idx + 1 := b3]), idx + 1)
    requires Cascaded(l.(buffers := l.buffers[idx + 1 := b3]), r, idx + 1, c)
    requires idx < m < |l.buffers| && 0 <= t < Span(l, m)
    ensures r.buffers[m][t] ==
              if t == 0 then (if m == idx + 1 then carry else l.buffers[m - 1][l.maxSize - 1])
              else l.buffers[m][t - 1]
  {
    var l3 := l.(buffers := l.buffers[idx + 1 := b3]);
    if m == idx + 1 {
      assert r.buffers[m] == b3;
    } else {
      assert Span(l3, m) == Span(l, m);
      assert l3.buffers[m] == l.buffers[m];
      if t == 0 && m > idx + 2 {
        assert l3.buffers[m - 1] == l.buffers[m - 1];
      }
    }
  }

  // ---------------------------------------------------------------------
  // Index arithmetic under the fullness invariant
  // ---------------------------------------------------------------------

  lemma {:induction false} SumOfFull(xs: seq<int>, max: int)
    requires |xs| >= 1 && forall i :: 0 <= i < |xs| - 1 ==> xs[i] == max
    ensures Sum(xs) == (|xs| - 1) * max + xs[|xs| - 1]
  {
    if |xs| > 1 {
      SumOfFull(xs[1..], max);
      assert (|xs| - 1) * max == max + (|xs| - 2) * max;
    }
  }

  /** An index below m * max lies in an array before m; one at or above it, in m or later. */
  lemma ArrayIndexBounds(max: PosInt, j: int, m: int)
    ensures j < m * max ==> ArrayIndex(max, j) < m
    ensures m * max <= j ==> m <= ArrayIndex(max, j)
  {
    var a := ArrayIndex(max, j);
    if a >= m && j < m * max {
      if a > m {
        MulAtLeast(max, a - m);
      }
      assert false;
    }
    if a < m && m * max <= j {
      MulAtLeast(max, m - a);
      assert false;
    }
  }

  /** The index just before the start of array a is the last slot of array a - 1. */
  lemma LastOfPrevious(max: PosInt, a: int)
    ensures ArrayIndex(max, a * max - 1) == a - 1
    ensures Position(max, a * max - 1) == max - 1
  {
    Compose(max, a - 1, max - 1);
    assert (a - 1) * max + (max - 1) == a * max - 1;
  }

  /** Under Fullness with at least one array, the count is the full arrays plus the last fill. */
  lemma FullSize<T>(l: LargeList<T>)
    requires Fullness(l) && |l.buffers| >= 1
    ensures l.size == (|l.buffers| - 1) * l.maxSize + l.fills[|l.buffers| - 1]
  {
    SumOfFull(l.fills, l.maxSize);
  }

  // ---------------------------------------------------------------------
  // InsertAt under the fullness invariant
  // ---------------------------------------------------------------------

  /**
   * The state Insert's capacity step should leave: every array but the last
   * full at the cap, the last with room below the cap, the index within the
   * count, and, when it falls in the last array, a free slot there.
   */
  ghost predicate ReadyToInsert<T>(l: LargeList<T>, index: int)
  {
    && Fullness(l) && |l.buffers| >= 1
    && l.fills[|l.buffers| - 1] < l.maxSize
    && 0 <= index <= l.size
    && 0 <= ArrayIndex(l.maxSize, index) < |l.buffers|
    && (ArrayIndex(l.maxSize, index) == |l.buffers| - 1 ==>
          l.fills[|l.buffers| - 1] < |l.buffers[|l.buffers| - 1]|)
  }

  /** Under Fullness, every index up to the count falls in an existing array once the last has room. */
  lemma IndexInArrays<T>(l: LargeList<T>, index: int)
    requires Fullness(l) && |l.buffers| >= 1 && l.fills[|l.buffers| - 1] < l.maxSize
    requires 0 <= index <= l.size
    ensures 0 <= ArrayIndex(l.maxSize, index) < |l.buffers|
  {
    FullSize(l);
    ArrayIndexBounds(l.maxSize, index, |l.buffers|);
    ArrayIndexBounds(l.maxSize, index, 0);
  }

  /**
   * r is l with x inserted at logical index i: the fullness invariant holds,
   * the count and version grow by one, and the indexer view gains x at i
   * with everything from i on moved up by one.
   */
  ghost predicate Inserted<T>(l: LargeList<T>, r: LargeList<T>, i: int, x: T)
    requires Fullness(l) && 0 <= i <= l.size
  {
    && Fullness(r)
    && r.maxSize == l.maxSize && r.zero == l.zero
    && r.size == l.size + 1 && r.version == l.version + 1
    && View(r) == View(l)[..i] + [x] + View(l)[i..]
  }

  /** Array.Copy(b, p, b, p + 1, len) followed by b[p] = x. */
  lemma ShiftInsert<T>(b: seq<T>, p: int, len: int, x: T) returns (b4: seq<T>)
    requires 0 <= p && 0 <= len && p + 1 + len <= |b|
    ensures Copy(b, p, b, p + 1, len).Ok?
    ensures b4 == Copy(b, p, b, p + 1, len).value[p := x] && |b4| == |b|
    ensures forall t :: 0 <= t <= p + len ==> b4[t] == if t < p then b[t] else if t == p then x else b[t - 1]
  {
    b4 := Copy(b, p, b, p + 1, len).value[p := x];
  }

  /** PlaceItem when it shifts: array k becomes b4 and array u counts one more element. */
  lemma PlaceShifted<T>(l: LargeList<T>, k: int, pos: int, len: int, item: T, u: int) returns (b4: seq<T>)
    requires Parallel(l) && 0 <= k < |l.buffers| && 0 <= u < |l.buffers|
    requires 0 <= pos < l.fills[k] && 0 <= len && pos + 1 + len <= |l.buffers[k]|
    ensures PlaceItem(l, k, pos, len, item, u) ==
              Done(l.(buffers := l.buffers[k := b4], fills := l.fills[u := l.fills[u] + 1],
                      size := l.size + 1, version := l.version + 1))
    ensures |b4| == |l.buffers[k]|
    ensures forall t {:trigger b4[t]} :: 0 <= t <= pos + len ==>
              b4[t] == if t < pos then l.buffers[k][t] else if t == pos then item else l.buffers[k][t - 1]
  {
    b4 := ShiftInsert(l.buffers[k], pos, len, item);
    var l3 := l.(buffers := l.buffers[k := Copy(l.buffers[k], pos, l.buffers[k], pos + 1, len).value]);
    assert Shift(l, k, pos, pos + 1, len) == Done(l3);
    assert ShiftFrom(l, k, pos, len) == Done(l3);
    assert Store(l3, k, pos, item) == Done(l.(buffers := l.buffers[k := b4]));
    assert PlaceItem(l, k, pos, len, item, u) ==
             Done(l.(buffers := l.buffers[k := b4], fills := l.fills[u := l.fills[u] + 1],
                     size := l.size + 1, version := l.version + 1));
  }

  /** PlaceItem at the end of the filled prefix: just the write. */
  lemma PlaceAtEnd<T>(l: LargeList<T>, k: int, pos: int, len: int, item: T, u: int)
    requires Parallel(l) && 0 <= k < |l.buffers| && 0 <= u < |l.buffers|
    requires 0 <= l.fills[k] <= pos < |l.buffers[k]|
    ensures PlaceItem(l, k, pos, len, item, u) ==
              Done(l.(buffers := l.buffers[k := l.buffers[k][pos := item]], fills := l.fills[u := l.fills[u] + 1],
                      size := l.size + 1, version := l.version + 1))
  {
  }

  /**
   * Counting one more element in the last array keeps Fullness, given a
   * well-formed state m with l's fill counts whose last array has room.
   */
  lemma FullnessAfterCount<T>(l: LargeList<T>, m: LargeList<T>, r: LargeList<T>)
    requires Fullness(l) && |l.buffers| >= 1
    requires l.fills[|l.buffers| - 1] < l.maxSize
    requires Wf(m) && m.fills == l.fills && m.maxSize == l.maxSize
    requires l.fills[|l.buffers| - 1] < |m.buffers[|l.buffers| - 1]|
    requires r.maxSize == l.maxSize && r.buffers == m.buffers
    requires r.fills == l.fills[|l.buffers| - 1 := l.fills[|l.buffers| - 1] + 1] && r.size == l.size + 1
    ensures Fullness(r)
  {
    var L := |l.buffers| - 1;
    SumUpdate(l.fills, L, l.fills[L] + 1);
    assert Fits(r.buffers, r.fills) by {
      forall i | 0 <= i < |r.fills| ensures 0 <= r.fills[i] <= |r.buffers[i]| {
      }
    }
  }

  /** A sequence that agrees slot by slot with v with x inserted at i is v[..i] + [x] + v[i..]. */
  lemma InsertedSeq<T>(v: seq<T>, w: seq<T>, i: int, x: T)
    requires 0 <= i <= |v| && |w| == |v| + 1
    requires forall j {:trigger w[j]} :: 0 <= j < |w| ==> w[j] == if j < i then v[j] else if j == i then x else v[j - 1]
    ensures w == v[..i] + [x] + v[i..]
  {
    var u := v[..i] + [x] + v[i..];
    forall j | 0 <= j < |w| ensures w[j] == u[j] {
      if j > i {
        assert u[j] == v[i..][j - i - 1];
      }
    }
  }

  /**
   * r is l after an insertion at index, offset p of the last array: that
   * array became b4, which holds the item at p, the elements before p in
   * place and those from p on moved up by one.
   */
  ghost predicate LocalShape<T>(l: LargeList<T>, r: LargeList<T>, index: int, p: int, item: T, b4: seq<T>)
  {
    && Fullness(l) && |l.buffers| >= 1 && 0 <= index <= l.size
    && ArrayIndex(l.maxSize, index) == |l.buffers| - 1 && p == Position(l.maxSize, index)
    && Addressable(r) && r.size == l.size + 1 && r.maxSize == l.maxSize
    && r.buffers == l.buffers[|l.buffers| - 1 := b4]
    && p <= l.fills[|l.buffers| - 1] < |b4|
    && (forall t {:trigger b4[t]} :: 0 <= t <= l.fills[|l.buffers| - 1] ==>
          b4[t] == if t < p then l.buffers[|l.buffers| - 1][t] else if t == p then item else l.buffers[|l.buffers| - 1][t - 1])
  }

  /** One logical element after an insertion into the last array. */
  lemma InsertLocalSlot<T>(l: LargeList<T>, r: LargeList<T>, index: int, p: int, item: T, b4: seq<T>, j: int)
    requires LocalShape(l, r, index, p, item, b4)
    requires 0 <= j < r.size
    ensures View(r)[j] == if j < index then View(l)[j] else if j == index then item else View(l)[j - 1]
  {
    var max := l.maxSize;
    var L := |l.buffers| - 1;
    var a := ArrayIndex(max, j);
    var t := Position(max, j);
    ViewAt(r, j);
    FullSize(l);
    if a < L {
      ArrayIndexBounds(max, j, L);
      assert r.buffers[a] == l.buffers[a];
      ViewAt(l, j);
    } else if t < p {
      ViewAt(l, j);
    } else if t > p {
      Compose(max, L, t - 1);
      ViewAt(l, j - 1);
    }
  }

  lemma InsertLocalView<T>(l: LargeList<T>, r: LargeList<T>, index: int, p: int, item: T, b4: seq<T>)
    requires LocalShape(l, r, index, p, item, b4)
    ensures View(r) == View(l)[..index] + [item] + View(l)[index..]
  {
    var v := View(l);
    var w := View(r);
    forall j {:trigger w[j]} | 0 <= j < |w|
      ensures w[j] == if j < index then v[j] else if j == index then item else v[j - 1]
    {
      InsertLocalSlot(l, r, index, p, item, b4, j);
    }
    InsertedSeq(v, w, index, item);
  }

  /** The array-level effect of Insert into the last array: slot formula over its filled prefix and one more. */
  lemma InsertLocalPlace<T>(l: LargeList<T>, p: int, item: T) returns (b4: seq<T>)
    requires Wf(l) && |l.buffers| >= 1
    requires 0 <= p <= l.fills[|l.buffers| - 1] < |l.buffers[|l.buffers| - 1]|
    ensures PlaceItem(l, |l.buffers| - 1, p, l.fills[|l.buffers| - 1] - p, item, |l.buffers| - 1) ==
              Done(l.(buffers := l.buffers[|l.buffers| - 1 := b4],
                      fills := l.fills[|l.buffers| - 1 := l.fills[|l.buffers| - 1] + 1],
                      size := l.size + 1, version := l.version + 1))
    ensures |b4| == |l.buffers[|l.buffers| - 1]|
    ensures forall t {:trigger b4[t]} :: 0 <= t <= l.fills[|l.buffers| - 1] ==>
              b4[t] == if t < p then l.buffers[|l.buffers| - 1][t] else if t == p then item else l.buffers[|l.buffers| - 1][t - 1]
  {
    var L := |l.buffers| - 1;
    var f := l.fills[L];
    if p < f {
      b4 := PlaceShifted(l, L, p, f - p, item, L);
    } else {
      PlaceAtEnd(l, L, p, f - p, item, L);
      b4 := l.buffers[L][p := item];
      assert forall t :: 0 <= t <= f ==> b4[t] == if t < p then l.buffers[L][t] else item;
    }
  }

  /** InsertAt when the index falls in the last array: no cascade, the item is counted there. */
  lemma InsertAtLast<T>(l: LargeList<T>, index: int, p: int, item: T, x: Outcome<T>)
    requires Parallel(l) && ArrayIndex(l.maxSize, index) == |l.buffers| - 1 >= 0 && p == Position(l.maxSize, index)
    requires PlaceItem(l, |l.buffers| - 1, p, l.fills[|l.buffers| - 1] - p, item, |l.buffers| - 1) == x
    ensures InsertAt(l, index, item) == x
  {
  }

  /** The state an insertion into the last array leaves is l with the item inserted. */
  lemma LocalInserted<T>(l: LargeList<T>, index: int, p: int, item: T, b4: seq<T>, r: LargeList<T>)
    requires Fullness(l) && |l.buffers| >= 1 && 0 <= index <= l.size
    requires ArrayIndex(l.maxSize, index) == |l.buffers| - 1 && p == Position(l.maxSize, index)
    requires p <= l.fills[|l.buffers| - 1] < |b4| && l.fills[|l.buffers| - 1] < l.maxSize
    requires |b4| == |l.buffers[|l.buffers| - 1]|
    requires forall t {:trigger b4[t]} :: 0 <= t <= l.fills[|l.buffers| - 1] ==>
               b4[t] == if t < p then l.buffers[|l.buffers| - 1][t] else if t == p then item else l.buffers[|l.buffers| - 1][t - 1]
    requires r.buffers == l.buffers[|l.buffers| - 1 := b4]
    requires r.fills == l.fills[|l.buffers| - 1 := l.fills[|l.buffers| - 1] + 1]
    requires r.size == l.size + 1 && r.version == l.version + 1 && r.maxSize == l.maxSize && r.zero == l.zero
    ensures Inserted(l, r, index, item)
  {
    var L := |l.buffers| - 1;
    ReplaceKeepsWf(l, L, b4);
    FullnessAfterCount(l, l.(buffers := l.buffers[L := b4]), r);
    assert LocalShape(l, r, index, p, item, b4);
    InsertLocalView(l, r, index, p, item, b4);
    assert Inserted(l, r, index, item);
  }

  /** Insert into the last array: a local shift, no cascade. */
  lemma InsertLocal<T>(l: LargeList<T>, index: int, item: T) returns (r: LargeList<T>)
    requires ReadyToInsert(l, index) && ArrayIndex(l.maxSize, index) == |l.buffers| - 1
    ensures InsertAt(l, index, item) == Done(r)
    ensures Inserted(l, r, index, item)
    ensures |r.fills| == |l.fills| && r.fills[|l.fills| - 1] > 0
  {
    var L := |l.buffers| - 1;
    var f := l.fills[L];
    var p := Position(l.maxSize, index);
    FullSize(l);
    var b4 := InsertLocalPlace(l, p, item);
    r := l.(buffers := l.buffers[L := b4], fills := l.fills[L := f + 1],
            size := l.size + 1, version := l.version + 1);
    InsertAtLast(l, index, p, item, Done(r));
    LocalInserted(l, index, p, item, b4, r);
  }

  /**
   * r is l after an insertion at index, offset p of a full array k before
   * the last: the cascade from k produced l2, and array k became b4, which
   * holds the item at p, the elements before p in place and those from p on
   * moved up by one (its old last element went on with the cascade).
   */
  ghost predicate CascadeShape<T>(l: LargeList<T>, l2: LargeList<T>, r: LargeList<T>, index: int, k: int, p: int, item: T, b4: seq<T>)
  {
    && Fullness(l) && 0 <= index <= l.size
    && k == ArrayIndex(l.maxSize, index) && p == Position(l.maxSize, index)
    && CascadeReady(l, k) && k < |l.buffers| - 1 && 0 < l.fills[k] == l.maxSize == |l.buffers[k]|
    && Cascaded(l, l2, k, l.buffers[k][l.fills[k] - 1])
    && Addressable(r) && r.size == l.size + 1 && r.maxSize == l.maxSize
    && r.buffers == l2.buffers[k := b4] && |b4| == l.maxSize
    && (forall t {:trigger b4[t]} :: 0 <= t < l.maxSize ==>
          b4[t] == if t < p then l.buffers[k][t] else if t == p then item else l.buffers[k][t - 1])
  }

  /** One logical element after an insertion that cascades. */
  lemma InsertCascadeSlot<T>(l: LargeList<T>, l2: LargeList<T>, r: LargeList<T>, index: int, k: int, p: int, item: T, b4: seq<T>, j: int)
    requires CascadeShape(l, l2, r, index, k, p, item, b4)
    requires 0 <= j < r.size
    ensures View(r)[j] == if j < index then View(l)[j] else if j == index then item else View(l)[j - 1]
  {
    var a := ArrayIndex(l.maxSize, j);
    if a < k {
      SlotBeforeK(l, l2, r, index, k, p, item, b4, j);
    } else if a == k {
      SlotInK(l, l2, r, index, k, p, item, b4, j);
    } else {
      SlotAfterK(l, l2, r, index, k, p, item, b4, j);
    }
  }

  /** An element of an array before k is untouched. */
  lemma SlotBeforeK<T>(l: LargeList<T>, l2: LargeList<T>, r: LargeList<T>, index: int, k: int, p: int, item: T, b4: seq<T>, j: int)
    requires CascadeShape(l, l2, r, index, k, p, item, b4)
    requires 0 <= j < r.size && ArrayIndex(l.maxSize, j) < k
    ensures j < index && View(r)[j] == View(l)[j]
  {
    var max := l.maxSize;
    var a := ArrayIndex(max, j);
    ViewAt(r, j);
    ArrayIndexBounds(max, j, k);
    assert r.buffers[a] == l.buffers[a];
    ViewAt(l, j);
    assert View(r)[j] == View(l)[j];
  }

  /** An element of array k: before p in place, the item at p, the rest moved up by one. */
  lemma SlotInK<T>(l: LargeList<T>, l2: LargeList<T>, r: LargeList<T>, index: int, k: int, p: int, item: T, b4: seq<T>, j: int)
    requires CascadeShape(l, l2, r, index, k, p, item, b4)
    requires 0 <= j < r.size && ArrayIndex(l.maxSize, j) == k
    ensures View(r)[j] == if j < index then View(l)[j] else if j == index then item else View(l)[j - 1]
  {
    var max := l.maxSize;
    var t := Position(max, j);
    ViewAt(r, j);
    if t < p {
      ViewAt(l, j);
      assert View(r)[j] == View(l)[j];
    } else if t > p {
      Compose(max, k, t - 1);
      ViewAt(l, j - 1);
      assert View(r)[j] == View(l)[j - 1];
    }
  }

  /** An element of an array after k: its predecessor in the old view. */
  lemma SlotAfterK<T>(l: LargeList<T>, l2: LargeList<T>, r: LargeList<T>, index: int, k: int, p: int, item: T, b4: seq<T>, j: int)
    requires CascadeShape(l, l2, r, index, k, p, item, b4)
    requires 0 <= j < r.size && ArrayIndex(l.maxSize, j) > k
    ensures j > index && View(r)[j] == View(l)[j - 1]
  {
    var max := l.maxSize;
    var a := ArrayIndex(max, j);
    var t := Position(max, j);
    ViewAt(r, j);
    FullSize(l);
    ArrayIndexBounds(max, j, k + 1);
    assert r.buffers[a] == l2.buffers[a];
    assert t < Span(l, a);
    if t == 0 {
      LastOfPrevious(max, a);
    } else {
      Compose(max, a, t - 1);
    }
    ViewAt(l, j - 1);
    assert View(r)[j] == View(l)[j - 1];
  }

  lemma InsertCascadeView<T>(l: LargeList<T>, l2: LargeList<T>, r: LargeList<T>, index: int, k: int, p: int, item: T, b4: seq<T>)
    requires CascadeShape(l, l2, r, index, k, p, item, b4)
    ensures View(r) == View(l)[..index] + [item] + View(l)[index..]
  {
    var v := View(l);
    var w := View(r);
    forall j {:trigger w[j]} | 0 <= j < |w|
      ensures w[j] == if j < index then v[j] else if j == index then item else v[j - 1]
    {
      InsertCascadeSlot(l, l2, r, index, k, p, item, b4, j);
    }
    InsertedSeq(v, w, index, item);
  }

  /** InsertAt when array k is full and not the last takes the cascade branch. */
  lemma InsertAtCascade<T>(l: LargeList<T>, index: int, k: int, p: int, item: T, x: Outcome<T>)
    requires Parallel(l) && k == ArrayIndex(l.maxSize, index) && p == Position(l.maxSize, index)
    requires 0 <= k < |l.buffers| - 1 && l.fills[k] == l.maxSize
    requires CarryAndPlace(l, k, p, item) == x
    ensures InsertAt(l, index, item) == x
  {
  }

  /** The cascade branch once the cascade has produced l2. */
  lemma CarryAndPlaceAfter<T>(l: LargeList<T>, k: int, pos: int, item: T, l2: LargeList<T>)
    requires Parallel(l) && 0 <= k < |l.buffers| && 0 < l.fills[k] <= |l.buffers[k]|
    requires Cascade(l, k, l.buffers[k][l.fills[k] - 1]) == Done(l2)
    ensures CarryAndPlace(l, k, pos, item) == PlaceItem(l2, k, pos, l2.fills[k] - pos - 1, item, |l2.buffers| - 1)
  {
    CarryUnfold(l, k, pos, item, Done(l2));
  }

  /** Unfolding the cascade branch down to the cascade's outcome. */
  lemma CarryUnfold<T>(l: LargeList<T>, k: int, pos: int, item: T, o: Outcome<T>)
    requires Parallel(l) && 0 <= k < |l.buffers| && 0 < l.fills[k] <= |l.buffers[k]|
    requires Cascade(l, k, l.buffers[k][l.fills[k] - 1]) == o
    ensures CarryAndPlace(l, k, pos, item) == AfterCascade(o, k, pos, item)
  {
  }

  /**
   * The cascade branch from a full array k before the last, under
   * CascadeReady: the cascade succeeds with the effect Cascaded describes,
   * leaving only the placement of the item.
   */
  lemma CascadeThenPlace<T>(l: LargeList<T>, k: int, pos: int, item: T) returns (l2: LargeList<T>)
    requires CascadeReady(l, k) && k < |l.buffers| - 1 && 0 < l.fills[k] == |l.buffers[k]|
    ensures Cascaded(l, l2, k, l.buffers[k][l.fills[k] - 1])
    ensures CarryAndPlace(l, k, pos, item) == PlaceItem(l2, k, pos, l2.fills[k] - pos - 1, item, |l.buffers| - 1)
  {
    l2 := CascadeShifts(l, k, l.buffers[k][l.fills[k] - 1]);
    CarryAndPlaceAfter(l, k, pos, item, l2);
  }

  /**
   * The cascade branch at array level: the cascade from k yields l2, then
   * array k becomes b4 and the last array counts one more element.
   */
  lemma CascadeEffect<T>(l: LargeList<T>, k: int, p: int, item: T) returns (l2: LargeList<T>, b4: seq<T>)
    requires CascadeReady(l, k) && k < |l.buffers| - 1 && 0 < l.fills[k] == |l.buffers[k]| == l.maxSize
    requires 0 <= p < l.maxSize
    ensures Cascaded(l, l2, k, l.buffers[k][l.fills[k] - 1])
    ensures CarryAndPlace(l, k, p, item) ==
              Done(l2.(buffers := l2.buffers[k := b4], fills := l2.fills[|l.buffers| - 1 := l2.fills[|l.buffers| - 1] + 1],
                       size := l2.size + 1, version := l2.version + 1))
    ensures |b4| == l.maxSize
    ensures forall t {:trigger b4[t]} :: 0 <= t < l.maxSize ==>
              b4[t] == if t < p then l.buffers[k][t] else if t == p then item else l.buffers[k][t - 1]
  {
    var L := |l.buffers| - 1;
    l2 := CascadeThenPlace(l, k, p, item);
    assert l2.buffers[k] == l.buffers[k] && l2.fills == l.fills;
    b4 := PlaceShifted(l2, k, p, l2.fills[k] - p - 1, item, L);
    assert CarryAndPlace(l, k, p, item) ==
             Done(l2.(buffers := l2.buffers[k := b4], fills := l2.fills[L := l2.fills[L] + 1],
                      size := l2.size + 1, version := l2.version + 1));
  }

  /** The state the cascade branch leaves is l with the item inserted. */
  lemma CascadeInserted<T>(l: LargeList<T>, index: int, k: int, p: int, item: T, l2: LargeList<T>, b4: seq<T>, r: LargeList<T>)
    requires Fullness(l) && 0 <= index <= l.size
    requires k == ArrayIndex(l.maxSize, index) && p == Position(l.maxSize, index)
    requires CascadeReady(l, k) && k < |l.buffers| - 1 && 0 < l.fills[k] == |l.buffers[k]| == l.maxSize
    requires Cascaded(l, l2, k, l.buffers[k][l.fills[k] - 1])
    requires |b4| == l.maxSize
    requires forall t {:trigger b4[t]} :: 0 <= t < l.maxSize ==>
               b4[t] == if t < p then l.buffers[k][t] else if t == p then item else l.buffers[k][t - 1]
    requires r.buffers == l2.buffers[k := b4]
    requires r.fills == l2.fills[|l.buffers| - 1 := l2.fills[|l.buffers| - 1] + 1]
    requires r.size == l2.size + 1 && r.version == l2.version + 1 && r.maxSize == l2.maxSize && r.zero == l2.zero
    ensures Inserted(l, r, index, item)
  {
    var L := |l.buffers| - 1;
    assert Span(l, L) <= |l2.buffers[L]|;
    ReplaceKeepsWf(l2, k, b4);
    FullnessAfterCount(l, l2.(buffers := l2.buffers[k := b4]), r);
    assert CascadeShape(l, l2, r, index, k, p, item, b4);
    InsertCascadeView(l, l2, r, index, k, p, item, b4);
    assert Inserted(l, r, index, item);
  }

  /** The cascade branch of InsertAt, from a full array k before the last, inserts the item. */
  lemma CascadeBranch<T>(l: LargeList<T>, index: int, k: int, p: int, item: T) returns (r: LargeList<T>)
    requires Fullness(l) && 0 <= index <= l.size
    requires CascadeReady(l, k) && k < |l.buffers| - 1 && 0 < l.fills[k] == |l.buffers[k]| == l.maxSize
    requires k == ArrayIndex(l.maxSize, index) && p == Position(l.maxSize, index) && 0 <= p < l.maxSize
    ensures CarryAndPlace(l, k, p, item) == Done(r)
    ensures Inserted(l, r, index, item)
    ensures |r.fills| == |l.fills| && r.fills[|l.fills| - 1] > 0
  {
    var L := |l.buffers| - 1;
    var l2, b4 := CascadeEffect(l, k, p, item);
    r := l2.(buffers := l2.buffers[k := b4], fills := l2.fills[L := l2.fills[L] + 1],
             size := l2.size + 1, version := l2.version + 1);
    CascadeInserted(l, index, k, p, item, l2, b4, r);
  }

  /** Insert into a full array before the last: the cascade, then the local shift. */
  lemma InsertCascade<T>(l: LargeList<T>, index: int, item: T) returns (r: LargeList<T>)
    requires ReadyToInsert(l, index) && ArrayIndex(l.maxSize, index) < |l.buffers| - 1
    ensures InsertAt(l, index, item) == Done(r)
    ensures Inserted(l, r, index, item)
    ensures |r.fills| == |l.fills| && r.fills[|l.fills| - 1] > 0
  {
    var max := l.maxSize;
    var k := ArrayIndex(max, index);
    assert CapacityOk(max, |l.buffers[k]|);
    var p := Position(max, index);
    r := CascadeBranch(l, index, k, p, item);
    InsertAtCascade(l, index, k, p, item, Done(r));
  }
}

=== FILE: list_state.dfy ===
/**
 * The state of a LargeList<T>, its invariants, its two views (the indexer
 * view and the fill view) and the indexer itself.
 */
module ListState {
  import opened PowersOfTwo
  import opened Segments

  /** Capacity of a freshly created backing array (DEFAULT_ARRAY_SIZE). */
  const DefaultArraySize: int := 16

  type PosInt = n: int | n >= 1 witness 1

  /**
   * One LargeList<T>: `buffers` are the backing arrays (arrayHolder),
   * `fills` their fill counts (arraySizes), `size` the element count,
   * `version` the mutation counter, `maxSize` the per-instance cap on a
   * backing array's length (arrayMaxSize), and `zero` the element type's
   * default value, which every freshly allocated slot holds.
   */
  datatype LargeList<T> = LargeList(
    maxSize: PosInt,
    buffers: seq<seq<T>>,
    fills: seq<int>,
    size: int,
    version: int,
    zero: T)

  /**
   * The result of a mutating operation: the state it leaves behind, and the
   * exception it raised, if any. C# mutates in place, so a throw after a
   * partial update leaves that partial update visible.
   */
  datatype Outcome<T> = Done(list: LargeList<T>) | Threw(error: Error, list: LargeList<T>) {
    predicate IsFailure() {
      Threw?
    }

    function PropagateFailure(): Outcome<T>
      requires Threw?
    {
      this
    }

    function Extract(): LargeList<T>
      requires Done?
    {
      list
    }
  }

  /** GetArrayIndex: the backing array that holds a global index (floor division). */
  function ArrayIndex(max: PosInt, index: int): (r: int)
    ensures r * max <= index < (r + 1) * max
  {
    index / max
  }

  /** The offset of a global index inside its backing array. */
  function Position(max: PosInt, index: int): (r: int)
    ensures 0 <= r < max
    ensures index == ArrayIndex(max, index) * max + r
  {
    index - ArrayIndex(max, index) * max
  }

  lemma MulAtLeast(d: int, k: int)
    requires d >= 1 && k >= 1
    ensures k * d >= d
  {
  }

  /** Segment m, offset t is global index m * max + t. */
  lemma Compose(max: PosInt, m: int, t: int)
    requires 0 <= t < max
    ensures ArrayIndex(max, m * max + t) == m
    ensures Position(max, m * max + t) == t
  {
    var j := m * max + t;
    var q := ArrayIndex(max, j);
    if q > m {
      MulAtLeast(max, q - m);
      assert false;
    } else if q < m {
      MulAtLeast(max, m - q);
      assert false;
    }
  }

  /** Adding the cap to an index moves it to the same offset of the next array. */
  lemma NextArray(max: PosInt, x: int)
    ensures ArrayIndex(max, x + max) == ArrayIndex(max, x) + 1
    ensures Position(max, x + max) == Position(max, x)
  {
    Compose(max, ArrayIndex(max, x) + 1, Position(max, x));
    assert (ArrayIndex(max, x) + 1) * max + Position(max, x) == x + max;
  }

  /** One fill count per backing array: true of every reachable state. */
  ghost predicate Parallel<T>(l: LargeList<T>)
  {
    |l.fills| == |l.buffers|
  }

  /** `arrayHolder[k][pos] = v`. */
  function Store<T>(l: LargeList<T>, k: int, pos: int, v: T): (r: Outcome<T>)
    requires 0 <= k < |l.buffers|
    ensures r.Done? <==> 0 <= pos < |l.buffers[k]|
    ensures r.Threw? ==> r == Threw(IndexOutOfRange, l)
    ensures r.Done? ==> r.list == l.(buffers := l.buffers[k := l.buffers[k][pos := v]])
  {
    match Write(l.buffers[k], pos, v)
    case Err(e) => Threw(e, l)
    case Ok(a) => Done(l.(buffers := l.buffers[k := a]))
  }

  /** `Array.Copy(arrayHolder[k], si, arrayHolder[k], di, len)`: a shift inside one array. */
  function Shift<T>(l: LargeList<T>, k: int, si: int, di: int, len: int): (r: Outcome<T>)
    requires 0 <= k < |l.buffers|
    ensures r.Threw? ==> r.list == l
    ensures r.Done? <==> Copy(l.buffers[k], si, l.buffers[k], di, len).Ok?
    ensures r.Done? ==> r.list == l.(buffers := l.buffers[k := Copy(l.buffers[k], si, l.buffers[k], di, len).value])
  {
    match Copy(l.buffers[k], si, l.buffers[k], di, len)
    case Err(e) => Threw(e, l)
    case Ok(a) => Done(l.(buffers := l.buffers[k := a]))
  }

  /** Every backing array's length is a power of two between 16 and the cap. */
  ghost predicate CapacityOk(max: int, c: int)
  {
    IsPow2(c) && DefaultArraySize <= c <= max
  }

  /** Shape: a fill count per backing array, within it, and legal capacities. */
  ghost predicate Wf<T>(l: LargeList<T>)
  {
    && IsPow2(l.maxSize) && DefaultArraySize <= l.maxSize
    && Fits(l.buffers, l.fills)
    && forall k :: 0 <= k < |l.buffers| ==> CapacityOk(l.maxSize, |l.buffers[k]|)
  }

  /** A backing array is full whenever a later one holds anything. */
  ghost predicate Packed(fills: seq<int>, max: int)
  {
    forall i, j :: 0 <= i < j < |fills| && fills[j] > 0 ==> fills[i] == max
  }

  /**
   * The invariant every constructor and Add keep: fill counts of the form
   * max, ..., max, f, 0, ..., 0 summing to `size`.
   */
  ghost predicate Inv<T>(l: LargeList<T>)
  {
    Addressable(l) && l.size == Sum(l.fills)
  }

  /** The fullness invariant: Inv, and every backing array but the last is full. */
  ghost predicate Fullness<T>(l: LargeList<T>)
  {
    Inv(l) && forall k :: 0 <= k < |l.fills| - 1 ==> l.fills[k] == l.maxSize
  }

  /** Every index below `size` maps to a filled slot. */
  ghost predicate Addressable<T>(l: LargeList<T>)
  {
    Wf(l) && Packed(l.fills, l.maxSize) && 0 <= l.size <= Sum(l.fills)
  }

  /** r differs from l at most in its backing arrays. */
  ghost predicate BuffersOnly<T>(l: LargeList<T>, r: LargeList<T>)
  {
    && r.maxSize == l.maxSize && r.fills == l.fills && r.size == l.size
    && r.version == l.version && r.zero == l.zero
  }

  /** Two states that differ at most in element values and the version. */
  ghost predicate SameShape<T>(a: LargeList<T>, b: LargeList<T>)
  {
    && a.maxSize == b.maxSize && a.fills == b.fills && a.size == b.size && a.zero == b.zero
    && |a.buffers| == |b.buffers|
    && forall k :: 0 <= k < |a.buffers| ==> |a.buffers[k]| == |b.buffers[k]|
  }

  lemma SameShapeInvariants<T>(a: LargeList<T>, b: LargeList<T>)
    requires SameShape(a, b)
    ensures Wf(a) ==> Wf(b)
    ensures Inv(a) ==> Inv(b)
    ensures Fullness(a) ==> Fullness(b)
    ensures Addressable(a) ==> Addressable(b)
  {
  }

  lemma {:induction false} SumNonNegative(xs: seq<int>)
    requires forall k :: 0 <= k < |xs| ==> xs[k] >= 0
    ensures Sum(xs) >= 0
  {
    if xs != [] {
      SumNonNegative(xs[1..]);
    }
  }

  lemma {:induction false} SumZeros(xs: seq<int>)
    requires forall k :: 0 <= k < |xs| ==> xs[k] == 0
    ensures Sum(xs) == 0
  {
    if xs != [] {
      SumZeros(xs[1..]);
    }
  }

  /**
   * Under Packed, the fill counts are determined by their sum s: every array
   * before s's array is full, s's array holds s's offset, later ones are empty.
   */
  lemma {:induction false} Shape(fills: seq<int>, max: PosInt)
    requires Packed(fills, max)
    requires forall k :: 0 <= k < |fills| ==> 0 <= fills[k] <= max
    ensures 0 <= ArrayIndex(max, Sum(fills)) <= |fills|
    ensures forall i :: 0 <= i < ArrayIndex(max, Sum(fills)) ==> fills[i] == max
    ensures ArrayIndex(max, Sum(fills)) < |fills| ==>
              fills[ArrayIndex(max, Sum(fills))] == Position(max, Sum(fills))
    ensures forall i :: ArrayIndex(max, Sum(fills)) < i < |fills| ==> fills[i] == 0
    ensures ArrayIndex(max, Sum(fills)) == |fills| ==> Position(max, Sum(fills)) == 0
  {
    var s := Sum(fills);
    if fills == [] {
      Compose(max, 0, 0);
    } else if fills[0] == max {
      var rest := fills[1..];
      assert Packed(rest, max);
      Shape(rest, max);
      var s' := Sum(rest);
      NextArray(max, s');
      forall i | 0 <= i < ArrayIndex(max, s) ensures fills[i] == max {
        if i > 0 {
          assert fills[i] == rest[i - 1];
        }
      }
    } else {
      var rest := fills[1..];
      forall k | 0 <= k < |rest| ensures rest[k] == 0 {
        assert fills[k + 1] == rest[k];
      }
      SumZeros(rest);
      Compose(max, 0, fills[0]);
    }
  }

  /**
   * Under Packed, fill-view index j lives in array j / max at offset
   * j - (j / max) * max: the indexer's mapping finds every filled element.
   */
  lemma {:induction false} LocateOne<T>(bufs: seq<seq<T>>, fills: seq<int>, max: PosInt, j: int)
    requires Fits(bufs, fills) && Packed(fills, max)
    requires forall k :: 0 <= k < |fills| ==> fills[k] <= max
    requires 0 <= j < Sum(fills)
    ensures 0 <= ArrayIndex(max, j) < |bufs|
    ensures Position(max, j) < fills[ArrayIndex(max, j)]
    ensures Concat(bufs, fills)[j] == bufs[ArrayIndex(max, j)][Position(max, j)]
  {
    var rest := fills[1..];
    assert Concat(bufs, fills) == bufs[0][..fills[0]] + Concat(bufs[1..], rest);
    if j < fills[0] {
      Compose(max, 0, j);
    } else {
      if fills[0] < max {
        forall k | 0 <= k < |rest| ensures rest[k] == 0 {
          assert fills[k + 1] == rest[k];
        }
        SumZeros(rest);
        assert false;
      }
      assert Packed(rest, max);
      var j' := j - max;
      LocateOne(bufs[1..], rest, max, j');
      var m := ArrayIndex(max, j');
      NextArray(max, j');
      assert fills[m + 1] == rest[m];
    }
  }

  lemma Locate<T>(bufs: seq<seq<T>>, fills: seq<int>, max: PosInt)
    requires Fits(bufs, fills) && Packed(fills, max)
    requires forall k :: 0 <= k < |fills| ==> fills[k] <= max
    ensures forall j :: 0 <= j < Sum(fills) ==>
              && 0 <= ArrayIndex(max, j) < |bufs|
              && Position(max, j) < fills[ArrayIndex(max, j)]
              && Concat(bufs, fills)[j] == bufs[ArrayIndex(max, j)][Position(max, j)]
  {
    forall j | 0 <= j < Sum(fills)
      ensures 0 <= ArrayIndex(max, j) < |bufs|
      ensures Position(max, j) < fills[ArrayIndex(max, j)]
      ensures Concat(bufs, fills)[j] == bufs[ArrayIndex(max, j)][Position(max, j)]
    {
      LocateOne(bufs, fills, max, j);
    }
  }

  lemma FillsBounded<T>(l: LargeList<T>)
    requires Wf(l)
    ensures forall k :: 0 <= k < |l.fills| ==> 0 <= l.fills[k] <= l.maxSize
  {
    forall k | 0 <= k < |l.fills| ensures 0 <= l.fills[k] <= l.maxSize {
      assert CapacityOk(l.maxSize, |l.buffers[k]|);
    }
  }

  /**
   * The indexer view: logical element j is slot j - (j / max) * max of
   * backing array j / max. This is what the indexer, HeapSort and the
   * enumerator read.
   */
  function View<T>(l: LargeList<T>): (v: seq<T>)
    requires Addressable(l)
    ensures |v| == l.size
  {
    FillsBounded(l);
    Locate(l.buffers, l.fills, l.maxSize);
    seq(l.size, j requires 0 <= j < l.size => l.buffers[ArrayIndex(l.maxSize, j)][Position(l.maxSize, j)])
  }

  /** The fill view: what IndexOf, Contains, ForEach and CopyTo read. */
  function FillView<T>(l: LargeList<T>): (v: seq<T>)
    requires Wf(l)
    ensures |v| == Sum(l.fills)
  {
    Concat(l.buffers, l.fills)
  }

  /** Under the invariant the indexer view and the fill view coincide. */
  lemma ViewIsFillView<T>(l: LargeList<T>)
    requires Inv(l)
    ensures View(l) == FillView(l)
  {
    FillsBounded(l);
    Locate(l.buffers, l.fills, l.maxSize);
  }

  /** Where the indexer finds logical element j, for every j below size. */
  lemma ViewAt<T>(l: LargeList<T>, j: int)
    requires Addressable(l) && 0 <= j < l.size
    ensures 0 <= ArrayIndex(l.maxSize, j) < |l.buffers|
    ensures Position(l.maxSize, j) < l.fills[ArrayIndex(l.maxSize, j)]
    ensures View(l)[j] == l.buffers[ArrayIndex(l.maxSize, j)][Position(l.maxSize, j)]
  {
    FillsBounded(l);
    Locate(l.buffers, l.fills, l.maxSize);
  }

  /**
   * The indexer's getter: out of range unless 0 <= index < size and the
   * mapped slot exists; no state change.
   */
  function Get<T>(l: LargeList<T>, index: int): (r: Result<T>)
    ensures index >= l.size || index < 0 ==> r == Err(ArgumentOutOfRange)
    ensures Addressable(l) ==> (r.Ok? <==> 0 <= index < l.size)
    ensures Addressable(l) && 0 <= index < l.size ==> r.value == View(l)[index]
  {
    if index >= l.size then Err(ArgumentOutOfRange)
    else
      var k := ArrayIndex(l.maxSize, index);
      var pos := Position(l.maxSize, index);
      assert Addressable(l) && 0 <= index ==>
               0 <= k < |l.buffers| && pos < |l.buffers[k]| && l.buffers[k][pos] == View(l)[index] by {
        if Addressable(l) && 0 <= index {
          ViewAt(l, index);
        }
      }
      if k < 0 || k >= |l.buffers| then Err(ArgumentOutOfRange)
      else if pos >= |l.buffers[k]| then Err(ArgumentOutOfRange)
      else Ok(l.buffers[k][pos])
  }

  /**
   * The indexer's setter: the same checks as the getter; on success exactly
   * one slot changes and the version grows by one.
   */
  function Set<T>(l: LargeList<T>, index: int, value: T): (r: Outcome<T>)
    ensures Get(l, index).Err? ==> r == Threw(ArgumentOutOfRange, l)
    ensures r.Done? ==> SameShape(l, r.list) && r.list.version == l.version + 1
    ensures r.Done? ==>
              && 0 <= ArrayIndex(l.maxSize, index) < |l.buffers|
              && 0 <= Position(l.maxSize, index) < |l.buffers[ArrayIndex(l.maxSize, index)]|
              && r.list.buffers[ArrayIndex(l.maxSize, index)][Position(l.maxSize, index)] == value
    ensures r.Done? ==>
              forall k, p | 0 <= k < |l.buffers| && 0 <= p < |l.buffers[k]| &&
                            (k != ArrayIndex(l.maxSize, index) || p != Position(l.maxSize, index)) ::
                r.list.buffers[k][p] == l.buffers[k][p]
    ensures Addressable(l) && 0 <= index < l.size ==>
              && r.Done? && Addressable(r.list)
              && View(r.list) == View(l)[index := value]
  {
    if index >= l.size then Threw(ArgumentOutOfRange, l)
    else
      var k := ArrayIndex(l.maxSize, index);
      var pos := Position(l.maxSize, index);
      assert Addressable(l) && 0 <= index ==> 0 <= k < |l.buffers| && pos < |l.buffers[k]| by {
        if Addressable(l) && 0 <= index {
          ViewAt(l, index);
        }
      }
      if k < 0 || k >= |l.buffers| then Threw(ArgumentOutOfRange, l)
      else if pos >= |l.buffers[k]| then Threw(ArgumentOutOfRange, l)
      else
          var l' := l.(buffers := l.buffers[k := l.buffers[k][pos := value]], version := l.version + 1);
          assert Addressable(l) && 0 <= index < l.size ==> View(l') == View(l)[index := value] by {
            if Addressable(l) && 0 <= index < l.size {
              SetView(l, l', index, value);
            }
          }
          Done(l')
  }

  lemma SetView<T>(l: LargeList<T>, l': LargeList<T>, index: int, value: T)
    requires Addressable(l) && 0 <= index < l.size
    requires 0 <= ArrayIndex(l.maxSize, index) < |l.buffers|
    requires 0 <= Position(l.maxSize, index) < |l.buffers[ArrayIndex(l.maxSize, index)]|
    requires l' == l.(buffers := l.buffers[ArrayIndex(l.maxSize, index) :=
                        l.buffers[ArrayIndex(l.maxSize, index)][Position(l.maxSize, index) := value]],
                      version := l.version + 1)
    ensures Addressable(l') && View(l') == View(l)[index := value]
  {
    assert SameShape(l, l');
    SameShapeInvariants(l, l');
    var max := l.maxSize;
    forall j | 0 <= j < l.size ensures View(l')[j] == View(l)[index := value][j] {
      ViewAt(l, j);
      ViewAt(l', j);
      if j != index && ArrayIndex(max, j) == ArrayIndex(max, index) {
        assert Position(max, j) != Position(max, index);
      }
    }
  }
}

=== FILE: powers_of_two.dfy ===
/**
 * Power-of-two sizing helpers of LargeList: the largest power of two not
 * above a number (used to derive the per-instance segment cap) and the
 * smallest power of two strictly above a number (used to size the last
 * segment of a pre-sized list).
 */
module PowersOfTwo {

  /** 2 to the power k. */
  function Pow2(k: nat): (r: int)
    ensures r >= 1
  {
    if k == 0 then 1 else 2 * Pow2(k - 1)
  }

  /** n is one of 1, 2, 4, 8, ... */
  predicate IsPow2(n: int)
    decreases if n < 0 then 0 else n
  {
    n == 1 || (n >= 2 && n % 2 == 0 && IsPow2(n / 2))
  }

  lemma {:induction false} Pow2IsPow2(k: nat)
    ensures IsPow2(Pow2(k))
  {
    if k > 0 {
      Pow2IsPow2(k - 1);
      assert Pow2(k) / 2 == Pow2(k - 1);
    }
  }

  lemma DoubleIsPow2(n: int)
    requires IsPow2(n)
    ensures IsPow2(2 * n)
  {
    assert (2 * n) / 2 == n;
  }

  /** Two distinct powers of two are at least a factor two apart. */
  lemma {:induction false} Pow2Gap(a: int, b: int)
    requires IsPow2(a) && IsPow2(b) && a < b
    ensures 2 * a <= b
    decreases b
  {
    if a == 1 {
      assert b >= 2;
    } else {
      assert b >= 2;
      Pow2Gap(a / 2, b / 2);
    }
  }

  /**
   * The helper loop of FirstSmallerPowerOf2 / FirstLargerPowerOf2 keeps
   * halving a copy of the input while counting; after `count` halvings the
   * copy is the input divided by 2^count.
   */
  lemma HalveStep(n0: int, p: int, num: int)
    requires p >= 1 && num >= 1
    requires p * num <= n0 < p * (num + 1)
    ensures (2 * p) * (num / 2) <= n0 < (2 * p) * (num / 2 + 1)
  {
    var h := num / 2;
    assert num == 2 * h || num == 2 * h + 1;
    if num == 2 * h {
      assert (2 * p) * h == p * num;
      assert p * (num + 1) <= (2 * p) * (h + 1) by {
        assert (2 * p) * (h + 1) == p * num + 2 * p;
        assert p * (num + 1) == p * num + p;
      }
    } else {
      assert (2 * p) * h == p * num - p;
      assert p * (num + 1) == (2 * p) * (h + 1) by {
        assert p * (num + 1) == p * num + p;
        assert (2 * p) * (h + 1) == p * num - p + 2 * p;
      }
    }
  }

  /**
   * FirstSmallerPowerOf2: 0 for a non-positive input, otherwise the largest
   * power of two that does not exceed the input.
   */
  method FirstSmallerPowerOf2(n: int) returns (r: int)
    ensures n <= 0 ==> r == 0
    ensures n > 0 ==> IsPow2(r) && r <= n < 2 * r
  {
    if n <= 0 {
      return 0;
    }
    var num := n;
    var count: nat := 0;
    while num > 1
      invariant num >= 1
      invariant Pow2(count) * num <= n < Pow2(count) * (num + 1)
      decreases num
    {
      HalveStep(n, Pow2(count), num);
      count := count + 1;
      num := num / 2;
    }
    Pow2IsPow2(count);
    r := Pow2(count);
  }

  /**
   * FirstLargerPowerOf2: 0 for a negative input, 2 for zero, otherwise the
   * smallest power of two strictly above the input (so 4 gives 8).
   */
  method FirstLargerPowerOf2(n: int) returns (r: int)
    ensures n < 0 ==> r == 0
    ensures n == 0 ==> r == 2
    ensures n > 0 ==> IsPow2(r) && n < r <= 2 * n
  {
    if n < 0 {
      return 0;
    }
    if n == 0 {
      return 2;
    }
    var num := n;
    var count: nat := 0;
    while num > 0
      invariant num >= 0
      invariant Pow2(count) * num <= n < Pow2(count) * (num + 1)
      invariant count > 0 ==> Pow2(count - 1) <= n
      invariant count == 0 ==> num == n
      decreases num
    {
      HalveStep(n, Pow2(count), num);
      assert Pow2(count) <= Pow2(count) * num;
      count := count + 1;
      num := num / 2;
    }
    assert n < Pow2(count);
    Pow2IsPow2(count);
    r := Pow2(count);
  }
}

=== FILE: queries.dfy ===
/**
 * The read-only walks over the backing arrays (IndexOf, Contains, ForEach,
 * CopyTo) and Remove, which is IndexOf followed by RemoveAt.
 */
module Queries {
  import opened Segments
  import opened ListState
  import opened Insertion
  import opened InsertEntry
  import opened Removal
  import opened Growth

  /** The reference search: the first position of x in v, or -1. */
  function Find<T(==)>(v: seq<T>, x: T): (r: int)
    ensures -1 <= r < |v|
    ensures r >= 0 ==> v[r] == x && x !in v[..r]
    ensures r < 0 <==> x !in v
  {
    if v == [] then -1
    else if v[0] == x then 0
    else
      var r := Find(v[1..], x);
      assert v == [v[0]] + v[1..];
      if r < 0 then -1
      else
        assert v[..r + 1] == [v[0]] + v[1..][..r];
        r + 1
  }

  /** Searching a concatenation: the first part, then the second shifted by the first's length. */
  lemma FindAppend<T>(a: seq<T>, b: seq<T>, x: T)
    ensures Find(a + b, x) == if Find(a, x) >= 0 then Find(a, x) else if Find(b, x) < 0 then -1 else |a| + Find(b, x)
  {
    if Find(a, x) >= 0 {
      var i := Find(a, x);
      assert (a + b)[..i] == a[..i];
      assert (a + b)[i] == x;
    } else if Find(b, x) >= 0 {
      var i := Find(b, x);
      assert (a + b)[|a| + i] == x;
      assert (a + b)[..|a| + i] == a + b[..i];
    }
  }

  /**
   * Array.IndexOf(array, item, 0, count): the first match among the first
   * count slots; a count outside the array raises ArgumentOutOfRange.
   */
  function ArrayIndexOf<T(==)>(a: seq<T>, x: T, count: int): (r: Result<int>)
    ensures r.Err? <==> count < 0 || count > |a|
    ensures r.Err? ==> r.error == ArgumentOutOfRange
    ensures r.Ok? ==> -1 <= r.value < count && (r.value >= 0 ==> a[r.value] == x && x !in a[..r.value])
    ensures r.Ok? ==> (r.value < 0 <==> x !in a[..count])
  {
    if count < 0 || count > |a| then Err(ArgumentOutOfRange)
    else
      var i := Find(a[..count], x);
      assert i >= 0 ==> a[..count][..i] == a[..i];
      Ok(i)
  }

  /** IndexOf's loop from array i: the first hit in array i is reported as offset + i * cap. */
  function IndexOfFrom<T(==)>(l: LargeList<T>, x: T, i: nat): (r: Result<int>)
    requires Parallel(l)
    ensures Wf(l) ==> r.Ok?
    decreases |l.buffers| - i
  {
    if i >= |l.buffers| then Ok(-1)
    else
      match ArrayIndexOf(l.buffers[i], x, l.fills[i])
      case Err(e) => Err(e)
      case Ok(t) => if t >= 0 then Ok(t + i * l.maxSize) else IndexOfFrom(l, x, i + 1)
  }

  /** IndexOf(item): the logical index of the first element equal to item, or -1. */
  function IndexOf<T(==)>(l: LargeList<T>, x: T): (r: Result<int>)
    requires Parallel(l)
    ensures Wf(l) ==> r.Ok?
  {
    IndexOfFrom(l, x, 0)
  }

  /** The fill view from array i on. */
  function Rest<T>(l: LargeList<T>, i: int): (v: seq<T>)
    requires Wf(l) && 0 <= i <= |l.buffers|
  {
    ConcatSplit(l.buffers, l.fills, i);
    Concat(l.buffers[i..], l.fills[i..])
  }

  lemma RestStep<T>(l: LargeList<T>, i: int)
    requires Wf(l) && 0 <= i < |l.buffers|
    ensures Rest(l, i) == l.buffers[i][..l.fills[i]] + Rest(l, i + 1)
    ensures |Rest(l, i + 1)| == Sum(l.fills[i + 1..])
  {
    ConcatSplit(l.buffers, l.fills, i);
    ConcatSplit(l.buffers, l.fills, i + 1);
    assert l.buffers[i..][1..] == l.buffers[i + 1..];
    assert l.fills[i..][1..] == l.fills[i + 1..];
  }

  /** Some array from i on holds an element when the rest of the fill view is non-empty. */
  lemma {:induction false} SomeFilled(fills: seq<int>, i: int) returns (m: int)
    requires 0 <= i <= |fills| && Sum(fills[i..]) != 0
    ensures i <= m < |fills| && fills[m] != 0
    decreases |fills| - i
  {
    if fills[i] != 0 {
      m := i;
    } else {
      assert fills[i..] == [fills[i]] + fills[i + 1..];
      assert Sum(fills[i..]) == fills[i] + Sum(fills[i + 1..]);
      m := SomeFilled(fills, i + 1);
    }
  }

  /**
   * Under the packed invariant, the loop from array i finds the first match
   * in the rest of the fill view, at offset i * cap: every array before a
   * filled one is full, so each skipped array accounts for exactly the cap.
   */
  lemma {:induction false} IndexOfFromFinds<T>(l: LargeList<T>, x: T, i: nat)
    requires Wf(l) && Packed(l.fills, l.maxSize) && i <= |l.buffers|
    ensures IndexOfFrom(l, x, i) == Ok(if Find(Rest(l, i), x) < 0 then -1 else Find(Rest(l, i), x) + i * l.maxSize)
    decreases |l.buffers| - i
  {
    if i < |l.buffers| {
      var a := l.buffers[i][..l.fills[i]];
      if Find(a, x) >= 0 {
        IndexOfHit(l, x, i);
      } else {
        IndexOfFromFinds(l, x, i + 1);
        IndexOfSkip(l, x, i);
      }
    }
  }

  /** A hit in array i is the first hit in the rest of the fill view. */
  lemma IndexOfHit<T>(l: LargeList<T>, x: T, i: nat)
    requires Wf(l) && i < |l.buffers| && Find(l.buffers[i][..l.fills[i]], x) >= 0
    ensures IndexOfFrom(l, x, i) == Ok(Find(Rest(l, i), x) + i * l.maxSize) && Find(Rest(l, i), x) >= 0
  {
    IndexOfStep(l, x, i);
    RestStep(l, i);
    FindAppend(l.buffers[i][..l.fills[i]], Rest(l, i + 1), x);
  }

  /** No hit in array i: the loop goes on, and a later hit sits past a full array i. */
  lemma IndexOfSkip<T>(l: LargeList<T>, x: T, i: nat)
    requires Wf(l) && Packed(l.fills, l.maxSize) && i < |l.buffers| && Find(l.buffers[i][..l.fills[i]], x) < 0
    requires IndexOfFrom(l, x, i + 1) == Ok(if Find(Rest(l, i + 1), x) < 0 then -1 else Find(Rest(l, i + 1), x) + (i + 1) * l.maxSize)
    ensures IndexOfFrom(l, x, i) == Ok(if Find(Rest(l, i), x) < 0 then -1 else Find(Rest(l, i), x) + i * l.maxSize)
  {
    IndexOfStep(l, x, i);
    RestStep(l, i);
    FindAppend(l.buffers[i][..l.fills[i]], Rest(l, i + 1), x);
    if Find(Rest(l, i + 1), x) >= 0 {
      SkipFull(l, i);
      NextOffset(l.maxSize, i, Find(Rest(l, i + 1), x));
    }
  }

  /** One pass of IndexOf's loop on a well-formed state. */
  lemma IndexOfStep<T>(l: LargeList<T>, x: T, i: nat)
    requires Wf(l) && i < |l.buffers|
    ensures IndexOfFrom(l, x, i) ==
              if Find(l.buffers[i][..l.fills[i]], x) >= 0 then Ok(Find(l.buffers[i][..l.fills[i]], x) + i * l.maxSize)
              else IndexOfFrom(l, x, i + 1)
  {
  }

  /** An array followed by a non-empty rest of the fill view is full, by the packed invariant. */
  lemma SkipFull<T>(l: LargeList<T>, i: int)
    requires Wf(l) && Packed(l.fills, l.maxSize) && 0 <= i < |l.buffers|
    requires |Rest(l, i + 1)| > 0
    ensures l.fills[i] == l.maxSize
  {
    RestStep(l, i);
    var m := SomeFilled(l.fills, i + 1);
  }

  lemma NextOffset(max: int, i: int, q: int)
    ensures q + (i + 1) * max == max + q + i * max
  {
  }

  /** Under the invariant IndexOf is the reference search on the indexer view. */
  lemma IndexOfFinds<T>(l: LargeList<T>, x: T)
    requires Inv(l)
    ensures IndexOf(l, x) == Ok(Find(View(l), x))
  {
    IndexOfFromFinds(l, x, 0);
    ViewIsFillView(l);
    assert l.buffers[0..] == l.buffers && l.fills[0..] == l.fills;
  }

  // ---------------------------------------------------------------------
  // Contains and ForEach: nested walks over the filled prefixes
  // ---------------------------------------------------------------------

  /** The fill view of the first i + 1 arrays extends that of the first i by array i's filled prefix. */
  lemma FillPrefix<T>(l: LargeList<T>, i: int)
    requires Wf(l) && 0 <= i < |l.buffers|
    ensures Fits(l.buffers[..i], l.fills[..i]) && Fits(l.buffers[..i + 1], l.fills[..i + 1])
    ensures Concat(l.buffers[..i + 1], l.fills[..i + 1]) == Concat(l.buffers[..i], l.fills[..i]) + l.buffers[i][..l.fills[i]]
  {
    ConcatAppend(l.buffers[..i], l.fills[..i], l.buffers[i], l.fills[i]);
    assert l.buffers[..i + 1] == l.buffers[..i] + [l.buffers[i]];
    assert l.fills[..i + 1] == l.fills[..i] + [l.fills[i]];
  }

  /** The fill view of all the arrays is FillView. */
  lemma FillPrefixAll<T>(l: LargeList<T>)
    requires Wf(l)
    ensures Fits(l.buffers[..|l.buffers|], l.fills[..|l.fills|])
    ensures Concat(l.buffers[..|l.buffers|], l.fills[..|l.fills|]) == FillView(l)
  {
    assert l.buffers[..|l.buffers|] == l.buffers && l.fills[..|l.fills|] == l.fills;
  }

  /** A filled slot of array i is an element of the fill view. */
  lemma FoundInFill<T>(l: LargeList<T>, i: int, j: int)
    requires Wf(l) && 0 <= i < |l.buffers| && 0 <= j < l.fills[i]
    ensures l.buffers[i][j] in FillView(l)
  {
    ConcatSplit(l.buffers, l.fills, i + 1);
    FillPrefix(l, i);
    assert l.buffers[i][j] in l.buffers[i][..l.fills[i]];
  }

  /**
   * Contains(item): every filled slot of every backing array is compared
   * with item; a fill count past its array makes the read throw
   * IndexOutOfRange.
   */
  method Contains<T(==)>(l: LargeList<T>, x: T) returns (r: Result<bool>)
    requires Parallel(l)
    ensures Wf(l) ==> r == Ok(x in FillView(l))
    ensures Inv(l) ==> r == Ok(x in View(l))
  {
    if Inv(l) {
      ViewIsFillView(l);
    }
    var i := 0;
    while i < |l.buffers|
      invariant 0 <= i <= |l.buffers|
      invariant Wf(l) ==> Fits(l.buffers[..i], l.fills[..i]) && x !in Concat(l.buffers[..i], l.fills[..i])
    {
      var a := l.buffers[i];
      var j := 0;
      while j < l.fills[i]
        invariant 0 <= j
        invariant Wf(l) ==> j <= l.fills[i] && x !in a[..j]
      {
        if j >= |a| {
          return Err(IndexOutOfRange);
        }
        if a[j] == x {
          if Wf(l) {
            FoundInFill(l, i, j);
          }
          return Ok(true);
        }
        assert a[..j + 1] == a[..j] + [a[j]];
        j := j + 1;
      }
      if Wf(l) {
        FillPrefix(l, i);
      }
      i := i + 1;
    }
    if Wf(l) {
      FillPrefixAll(l);
    }
    return Ok(false);
  }

  /**
   * ForEach(action): the action sees every filled slot of every backing
   * array in order; the model returns the sequence of elements it saw.
   */
  method ForEach<T>(l: LargeList<T>) returns (r: Result<seq<T>>)
    requires Parallel(l)
    ensures Wf(l) ==> r == Ok(FillView(l))
    ensures Inv(l) ==> r == Ok(View(l))
  {
    if Inv(l) {
      ViewIsFillView(l);
    }
    var seen: seq<T> := [];
    var i := 0;
    while i < |l.buffers|
      invariant 0 <= i <= |l.buffers|
      invariant Wf(l) ==> Fits(l.buffers[..i], l.fills[..i]) && seen == Concat(l.buffers[..i], l.fills[..i])
    {
      var a := l.buffers[i];
      var j := 0;
      ghost var before := seen;
      while j < l.fills[i]
        invariant 0 <= j
        invariant Wf(l) ==> j <= l.fills[i] && seen == before + a[..j]
      {
        if j >= |a| {
          return Err(IndexOutOfRange);
        }
        assert a[..j + 1] == a[..j] + [a[j]];
        seen := seen + [a[j]];
        j := j + 1;
      }
      if Wf(l) {
        FillPrefix(l, i);
      }
      i := i + 1;
    }
    if Wf(l) {
      FillPrefixAll(l);
    }
    return Ok(seen);
  }

  // ---------------------------------------------------------------------
  // Remove
  // ---------------------------------------------------------------------

  /** Remove(item): IndexOf, then RemoveAt at the position found; false when there is none. */
  function Remove<T(==)>(l: LargeList<T>, x: T): (r: (bool, Outcome<T>))
    requires Parallel(l)
    ensures !r.0 && r.1.Done? ==> r.1.list == l
  {
    match IndexOf(l, x)
    case Err(e) => (false, Threw(e, l))
    case Ok(position) => if position < 0 then (false, Done(l)) else (true, RemoveAt(l, position))
  }

  /** Remove with the corrected RemoveAt. */
  function RemoveFixed<T(==)>(l: LargeList<T>, x: T): (r: (bool, Outcome<T>))
    requires Parallel(l)
    ensures !r.0 && r.1.Done? ==> r.1.list == l
  {
    match IndexOf(l, x)
    case Err(e) => (false, Threw(e, l))
    case Ok(position) => if position < 0 then (false, Done(l)) else (true, RemoveAtFixed(l, position))
  }

  /** Under the invariant Remove reports false and changes nothing exactly when the item is absent. */
  lemma RemoveAbsent<T>(l: LargeList<T>, x: T)
    requires Inv(l)
    ensures x !in View(l) <==> Remove(l, x) == (false, Done(l))
    ensures x !in View(l) <==> RemoveFixed(l, x) == (false, Done(l))
    ensures x in View(l) ==> Remove(l, x) == (true, RemoveAt(l, Find(View(l), x)))
  {
    IndexOfFinds(l, x);
  }

  /**
   * The corrected Remove under the fullness invariant: an item present is
   * found, and its first occurrence is removed.
   */
  lemma RemoveFixedRemovesFirst<T>(l: LargeList<T>, x: T) returns (r: LargeList<T>, i: int)
    requires Fullness(l) && x in View(l)
    ensures RemoveFixed(l, x) == (true, Done(r))
    ensures 0 <= i < l.size && View(l)[i] == x && x !in View(l)[..i]
    ensures Removed(l, r, i)
  {
    IndexOfFinds(l, x);
    i := Find(View(l), x);
    r := RemoveAtFixedRemoves(l, i);
  }

  // ---------------------------------------------------------------------
  // CopyTo
  // ---------------------------------------------------------------------

  /**
   * The caller's array after CopyTo: Copied when every copy went through,
   * CopyThrew with the exception and the array as the copies before the
   * throw left it (C# writes into the caller's array in place).
   */
  datatype Copied<T> = Copied(dest: seq<T>) | CopyThrew(error: Error, dest: seq<T>)

  /**
   * CopyTo's loop from array i as written: array i's filled prefix goes to
   * offset i * fills[i]. A failing copy ends the loop with the destination
   * as the copies before it left it.
   */
  function CopyArrays<T>(l: LargeList<T>, dest: seq<T>, i: nat): (r: Copied<T>)
    requires Parallel(l)
    ensures |r.dest| == |dest|
    decreases |l.buffers| - i
  {
    if i >= |l.buffers| then Copied(dest)
    else
      match Copy(l.buffers[i], 0, dest, i * l.fills[i], l.fills[i])
      case Err(e) => CopyThrew(e, dest)
      case Ok(d) => CopyArrays(l, d, i + 1)
  }

  /**
   * CopyTo(array, arrayIndex) as written: the destination checks use
   * arrayIndex, the copies do not.
   */
  function CopyTo<T>(l: LargeList<T>, dest: seq<T>, arrayIndex: int): (r: Copied<T>)
    requires Parallel(l)
    ensures arrayIndex < 0 || arrayIndex > |dest| || |dest| - arrayIndex < l.size ==> r == CopyThrew(IndexOutOfRange, dest)
    ensures |r.dest| == |dest|
  {
    if arrayIndex < 0 || arrayIndex > |dest| then CopyThrew(IndexOutOfRange, dest)
    else if |dest| - arrayIndex < l.size then CopyThrew(IndexOutOfRange, dest)
    else CopyArrays(l, dest, 0)
  }

  /**
   * The corrected loop: array i's filled prefix goes to offset arrayIndex
   * plus the fill counts of the arrays before it.
   */
  function CopyArraysFixed<T>(l: LargeList<T>, dest: seq<T>, arrayIndex: int, i: nat): (r: Copied<T>)
    requires Parallel(l)
    ensures |r.dest| == |dest|
    decreases |l.buffers| - i
  {
    if i >= |l.buffers| then Copied(dest)
    else
      match Copy(l.buffers[i], 0, dest, arrayIndex + Sum(l.fills[..i]), l.fills[i])
      case Err(e) => CopyThrew(e, dest)
      case Ok(d) => CopyArraysFixed(l, d, arrayIndex, i + 1)
  }

  /** CopyTo as evidently intended: the same checks, the elements placed from arrayIndex on. */
  function CopyToFixed<T>(l: LargeList<T>, dest: seq<T>, arrayIndex: int): (r: Copied<T>)
    requires Parallel(l)
    ensures arrayIndex < 0 || arrayIndex > |dest| || |dest| - arrayIndex < l.size ==> r == CopyThrew(IndexOutOfRange, dest)
    ensures |r.dest| == |dest|
  {
    if arrayIndex < 0 || arrayIndex > |dest| then CopyThrew(IndexOutOfRange, dest)
    else if |dest| - arrayIndex < l.size then CopyThrew(IndexOutOfRange, dest)
    else CopyArraysFixed(l, dest, arrayIndex, 0)
  }

  /** dest with v written over it from offset at on. */
  function Placed<T>(dest: seq<T>, at: int, v: seq<T>): (r: seq<T>)
    requires 0 <= at && at + |v| <= |dest|
    ensures |r| == |dest|
  {
    dest[..at] + v + dest[at + |v|..]
  }

  /** Copying a prefix of b right after what is already placed extends the placed part. */
  lemma PlaceNext<T>(dest: seq<T>, at: int, v: seq<T>, b: seq<T>, f: int)
    requires 0 <= at && 0 <= f <= |b| && at + |v| + f <= |dest|
    ensures Copy(b, 0, Placed(dest, at, v), at + |v|, f) == Ok(Placed(dest, at, v + b[..f]))
  {
    var d := Placed(dest, at, v);
    var c := Copy(b, 0, d, at + |v|, f).value;
    var e := Placed(dest, at, v + b[..f]);
    forall t | 0 <= t < |dest| ensures c[t] == e[t] {
      if t < at {
      } else if t < at + |v| {
        assert e[t] == v[t - at];
      } else if t < at + |v| + f {
        assert e[t] == b[..f][t - at - |v|];
      }
    }
    assert c == e;
  }

  /** Summing a prefix of full arrays. */
  lemma {:induction false} SumFullPrefix(fills: seq<int>, max: int, i: int)
    requires 0 <= i <= |fills| && forall k :: 0 <= k < i ==> fills[k] == max
    ensures Sum(fills[..i]) == i * max
  {
    if i > 0 {
      SumAppend(fills[..i - 1], [fills[i - 1]]);
      assert fills[..i] == fills[..i - 1] + [fills[i - 1]];
      SumFullPrefix(fills, max, i - 1);
      assert Sum([fills[i - 1]]) == fills[i - 1];
    }
  }

  /** Under Inv, array i starts at the fills before it in the fill view, and its prefix ends within the count. */
  lemma ArrayOffset<T>(l: LargeList<T>, i: int)
    requires Inv(l) && 0 <= i < |l.buffers|
    ensures Fits(l.buffers[..i], l.fills[..i])
    ensures |Concat(l.buffers[..i], l.fills[..i])| == Sum(l.fills[..i])
    ensures Sum(l.fills[..i]) + l.fills[i] <= l.size
  {
    FillPrefix(l, i);
    SumAppend(l.fills[..i + 1], l.fills[i + 1..]);
    assert l.fills == l.fills[..i + 1] + l.fills[i + 1..];
    SumNonNegative(l.fills[i + 1..]);
    assert |Concat(l.buffers[..i + 1], l.fills[..i + 1])| == Sum(l.fills[..i + 1]);
  }

  /** The corrected loop from array i, once the arrays before it are placed, places all of them. */
  lemma {:induction false} CopyArraysFixedPlaces<T>(l: LargeList<T>, dest: seq<T>, at: int, i: nat)
    requires Inv(l) && i <= |l.buffers| && 0 <= at && at + l.size <= |dest|
    requires Fits(l.buffers[..i], l.fills[..i]) && at + |Concat(l.buffers[..i], l.fills[..i])| <= |dest|
    ensures CopyArraysFixed(l, Placed(dest, at, Concat(l.buffers[..i], l.fills[..i])), at, i) == Copied(Placed(dest, at, FillView(l)))
    decreases |l.buffers| - i
  {
    if i == |l.buffers| {
      FillPrefixAll(l);
    } else {
      CopyFixedStep(l, dest, at, i);
      CopyArraysFixedPlaces(l, dest, at, i + 1);
    }
  }

  /** One pass of the corrected loop: array i goes right after the arrays before it. */
  lemma CopyFixedStep<T>(l: LargeList<T>, dest: seq<T>, at: int, i: nat)
    requires Inv(l) && i < |l.buffers| && 0 <= at && at + l.size <= |dest|
    requires Fits(l.buffers[..i], l.fills[..i]) && at + |Concat(l.buffers[..i], l.fills[..i])| <= |dest|
    ensures Fits(l.buffers[..i + 1], l.fills[..i + 1]) && at + |Concat(l.buffers[..i + 1], l.fills[..i + 1])| <= |dest|
    ensures CopyArraysFixed(l, Placed(dest, at, Concat(l.buffers[..i], l.fills[..i])), at, i)
            == CopyArraysFixed(l, Placed(dest, at, Concat(l.buffers[..i + 1], l.fills[..i + 1])), at, i + 1)
  {
    var v := Concat(l.buffers[..i], l.fills[..i]);
    ArrayOffset(l, i);
    PlaceNext(dest, at, v, l.buffers[i], l.fills[i]);
    FillPrefix(l, i);
  }

  /** The corrected CopyTo places the indexer view at arrayIndex and leaves the rest of the destination alone. */
  lemma CopyToFixedCopies<T>(l: LargeList<T>, dest: seq<T>, arrayIndex: int)
    requires Inv(l) && 0 <= arrayIndex && arrayIndex + l.size <= |dest|
    ensures CopyToFixed(l, dest, arrayIndex) == Copied(dest[..arrayIndex] + View(l) + dest[arrayIndex + l.size..])
  {
    assert l.buffers[..0] == [] && l.fills[..0] == [];
    assert Placed(dest, arrayIndex, []) == dest;
    CopyArraysFixedPlaces(l, dest, arrayIndex, 0);
    ViewIsFillView(l);
  }

  /** When every array is full at the cap and the copy starts at 0, the two loops coincide. */
  lemma {:induction false} CopyArraysAgree<T>(l: LargeList<T>, dest: seq<T>, i: nat)
    requires Parallel(l) && forall k :: 0 <= k < |l.fills| ==> l.fills[k] == l.maxSize
    ensures CopyArrays(l, dest, i) == CopyArraysFixed(l, dest, 0, i)
    decreases |l.buffers| - i
  {
    if i < |l.buffers| {
      var d := Copy(l.buffers[i], 0, dest, i * l.fills[i], l.fills[i]);
      SumFullPrefix(l.fills, l.maxSize, i);
      if d.Ok? {
        CopyArraysAgree(l, d.value, i + 1);
      }
    }
  }

  /** As written, CopyTo is correct for a copy to offset 0 of a list whose arrays are all full. */
  lemma CopyToAllFull<T>(l: LargeList<T>, dest: seq<T>)
    requires Fullness(l) && l.size <= |dest|
    requires forall k :: 0 <= k < |l.fills| ==> l.fills[k] == l.maxSize
    ensures CopyTo(l, dest, 0) == Copied(View(l) + dest[l.size..])
  {
    CopyArraysAgree(l, dest, 0);
    CopyToFixedCopies(l, dest, 0);
    assert dest[..0] + View(l) == View(l);
  }

  /** A cap of 16 and one array holding the single element 5. */
  function SingleState(): (l: LargeList<int>)
    ensures Fullness(l) && l.fills == [1] && l.size == 1 && View(l) == [5]
  {
    var l := LargeList(16, [[5] + NewArray(15, 0)], [1], 1, 0, 0);
    SixteenIsPow2();
    assert Sum([1]) == 1 by {
      assert [1][1..] == [];
    }
    ViewAt(l, 0);
    l
  }

  /** CopyTo ignores arrayIndex in its copies: the element lands at 0 instead of at 1. */
  lemma CopyToIgnoresOffset()
    ensures CopyTo(SingleState(), [0, 0], 1) == Copied([5, 0])
    ensures CopyToFixed(SingleState(), [0, 0], 1) == Copied([0, 5])
  {
    var l := SingleState();
    assert l.buffers[0][0..1] == [5];
    assert Copy(l.buffers[0], 0, [0, 0], 0, 1) == Ok([5, 0]) by {
      var d: seq<int> := [0, 0];
      assert d[..0] + l.buffers[0][0..1] + d[1..] == [5, 0];
    }
    CopyToFixedCopies(l, [0, 0], 1);
    assert [0, 0][..1] + [5] + [0, 0][2..] == [0, 5];
  }

  /** A cap of 16, one full array of ones and an array holding 2, 2, 2. */
  function TwoArrayState(): (l: LargeList<int>)
    ensures Fullness(l) && l.fills == [16, 3] && l.size == 19 && l.maxSize == 16
    ensures |l.buffers| == 2 && |l.buffers[0]| == 16 && |l.buffers[1]| == 16 && l.buffers[1][15] == 0
    ensures View(l)[16] == 2 && View(l)[18] == 2
  {
    var l := LargeList(16, [NewArray(16, 1), [2, 2, 2] + NewArray(13, 0)], [16, 3], 19, 0, 0);
    SixteenIsPow2();
    assert Sum([16, 3]) == 19 by {
      assert [16, 3][1..] == [3];
      assert [3][1..] == [];
    }
    ViewAt(l, 16);
    Compose(16, 1, 0);
    ViewAt(l, 18);
    Compose(16, 1, 2);
    l
  }

  /**
   * CopyTo places array i at i * fills[i]: the last array of TwoArrayState
   * goes to offset 3 instead of 16, so slot 16 of the destination keeps its
   * old value where the indexer view has 2.
   */
  lemma CopyToMisplaces()
    ensures CopyTo(TwoArrayState(), NewArray(19, 0), 0).Copied?
    ensures CopyTo(TwoArrayState(), NewArray(19, 0), 0).dest[16] == 0
    ensures CopyToFixed(TwoArrayState(), NewArray(19, 0), 0) == Copied(View(TwoArrayState()))
  {
    var l := TwoArrayState();
    var dest := NewArray(19, 0);
    var d1 := Copy(l.buffers[0], 0, dest, 0, 16).value;
    var d2 := Copy(l.buffers[1], 0, d1, 3, 3).value;
    assert d2[16] == 0;
    assert CopyArrays(l, d1, 1) == Copied(d2);
    CopyToFixedCopies(l, dest, 0);
    assert dest[..0] + View(l) + dest[19..] == View(l);
  }

  /**
   * A cap of 16 and two arrays with fills [10, 0]: the shape the size
   * constructor for 32 elements leaves after ten Adds. It satisfies the
   * invariant but not Fullness.
   */
  function SizedState(): (l: LargeList<int>)
    ensures Inv(l) && !Fullness(l) && l.fills == [10, 0] && l.size == 10
    ensures |l.buffers| == 2 && l.buffers[0][..10] == NewArray(10, 1) && |l.buffers[1]| == 16
  {
    var l := LargeList(16, [NewArray(10, 1) + NewArray(6, 0), NewArray(16, 0)], [10, 0], 10, 0, 0);
    SixteenIsPow2();
    assert Sum([10, 0]) == 10 by {
      assert [10, 0][1..] == [0];
      assert [0][1..] == [];
    }
    assert (NewArray(10, 1) + NewArray(6, 0))[..10] == NewArray(10, 1);
    l
  }

  /**
   * On SizedState both loops copy the ten elements to a ten-slot
   * destination: the empty second array is copied with length 0, at offset
   * 1 * 0 as written and at offset 10 in the corrected loop.
   */
  lemma CopyToSized()
    ensures CopyTo(SizedState(), NewArray(10, 0), 0) == Copied(View(SizedState()))
    ensures CopyToFixed(SizedState(), NewArray(10, 0), 0) == Copied(View(SizedState()))
    ensures View(SizedState()) == NewArray(10, 1)
  {
    var l := SizedState();
    var dest := NewArray(10, 0);
    var d1 := Copy(l.buffers[0], 0, dest, 0, 10).value;
    assert d1 == NewArray(10, 1) by {
      assert d1 == dest[..0] + l.buffers[0][0..10] + dest[10..];
    }
    assert Copy(l.buffers[1], 0, d1, 0, 0) == Ok(d1) by {
      assert d1[..0] + l.buffers[1][0..0] + d1[0..] == d1;
    }
    assert CopyArrays(l, d1, 1) == Copied(d1);
    assert Sum(l.fills[..1]) == 10 by {
      assert l.fills[..1] == [10];
      assert [10][1..] == [];
    }
    assert Copy(l.buffers[1], 0, d1, 10, 0) == Ok(d1);
    assert CopyArraysFixed(l, d1, 0, 1) == Copied(d1);
    CopyToFixedCopies(l, dest, 0);
    assert dest[..0] + View(l) + dest[10..] == View(l);
  }

  /**
   * RemoveAt(0) as written on two arrays full at the cap leaves fills
   * [cap, cap] with Count 2 * cap - 1. CopyTo into a destination of exactly
   * Count slots passes the argument checks, copies the first array, and
   * then throws Argument on the second, whose copy runs one slot past the
   * end; the caller's array keeps the first copy.
   */
  lemma CopyToAfterPull<T>(l: LargeList<T>) returns (r: LargeList<T>)
    requires Fullness(l) && |l.buffers| == 2 && l.fills[1] == l.maxSize
    ensures RemoveAt(l, 0) == Done(r) && r.fills == l.fills && r.size == 2 * l.maxSize - 1
    ensures CopyTo(r, NewArray(r.size, r.zero), 0)
            == CopyThrew(Argument, r.buffers[0] + NewArray(l.maxSize - 1, r.zero))
  {
    Shape(l.fills, l.maxSize);
    assert Sum(l.fills) == 2 * l.maxSize by {
      assert l.fills[1..][1..] == [];
    }
    r := RemoveAtPull(l, 0);
    var max := l.maxSize;
    assert |r.buffers| == 2 && |r.buffers[0]| == max && |r.buffers[1]| == max by {
      assert Wf(r);
      assert r.fills[0] <= |r.buffers[0]| && CapacityOk(max, |r.buffers[0]|);
      assert r.fills[1] <= |r.buffers[1]| && CapacityOk(max, |r.buffers[1]|);
    }
    var dest := NewArray(r.size, r.zero);
    var d1 := dest[..0] + r.buffers[0][0..max] + dest[max..];
    assert Copy(r.buffers[0], 0, dest, 0, max) == Ok(d1);
    assert d1 == r.buffers[0] + NewArray(max - 1, r.zero);
    assert Copy(r.buffers[1], 0, d1, 1 * r.fills[1], r.fills[1]) == Err(Argument);
    assert CopyArrays(r, d1, 1) == CopyThrew(Argument, d1);
    assert CopyArrays(r, dest, 0) == CopyArrays(r, d1, 1);
  }
}

=== FILE: removal.dfy ===
/**
 * RemoveAt: close the gap inside the array that held the element, then
 * either clear a slot of the last array or pull the first element of every
 * later array back into the last slot of the array before it.
 */
module Removal {
  import opened Segments
  import opened ListState
  import opened Insertion
  import opened InsertEntry

  /**
   * One pass of RemoveAt's loop, on array ic: the first element of array
   * ic + 1 is read, array ic is shifted down by one unless it is the array
   * the element was removed from (k), and the element read is written to its
   * last filled slot.
   */
  function PullOne<T>(l: LargeList<T>, k: int, ic: int): (r: Outcome<T>)
    requires Parallel(l) && 0 <= ic < |l.buffers| - 1
    ensures r.Done? ==> Parallel(r.list) && BuffersOnly(l, r.list) && |r.list.buffers| == |l.buffers|
  {
    if |l.buffers[ic + 1]| == 0 then Threw(IndexOutOfRange, l)
    else if ic != k then
      match Shift(l, ic, 1, 0, l.fills[ic] - 1)
      case Threw(e, l1) => Threw(e, l1)
      case Done(l1) => Store(l1, ic, l.fills[ic] - 1, l.buffers[ic + 1][0])
    else Store(l, ic, l.fills[ic] - 1, l.buffers[ic + 1][0])
  }

  /** RemoveAt's loop, over arrays ic .. |buffers| - 2. */
  function Pull<T>(l: LargeList<T>, k: int, ic: int): (r: Outcome<T>)
    requires Parallel(l) && 0 <= ic
    ensures r.Done? ==> Parallel(r.list) && BuffersOnly(l, r.list) && |r.list.buffers| == |l.buffers|
    decreases |l.buffers| - ic
  {
    if ic >= |l.buffers| - 1 then Done(l)
    else
      match PullOne(l, k, ic)
      case Threw(e, l') => Threw(e, l')
      case Done(l') => Pull(l', k, ic + 1)
  }

  /** The first copy of RemoveAt: the elements after offset pos of array k move down by one. */
  function CloseGap<T>(l: LargeList<T>, k: int, pos: int): (r: Outcome<T>)
    requires Parallel(l) && 0 <= k < |l.buffers|
    ensures r.Done? ==> Parallel(r.list) && BuffersOnly(l, r.list) && |r.list.buffers| == |l.buffers|
  {
    if pos < l.fills[k] then Shift(l, k, pos + 1, pos, l.fills[k] - 1 - pos) else Done(l)
  }

  /** The last-array branch: slot s of array k is reset to the default value and k counts one element less. */
  function ClearSlot<T>(l: LargeList<T>, k: int, s: int): (r: Outcome<T>)
    requires Parallel(l) && 0 <= k < |l.buffers|
  {
    match Store(l, k, s, l.zero)
    case Threw(e, l') => Threw(e, l')
    case Done(l') => Done(l'.(fills := l'.fills[k := l'.fills[k] - 1], version := l'.version + 1))
  }

  /** The other branch: the loop from array k, then the last array shifted down by one. */
  function PullBack<T>(l: LargeList<T>, k: int): (r: Outcome<T>)
    requires Parallel(l) && 0 <= k < |l.buffers| - 1
  {
    match Pull(l, k, k)
    case Threw(e, l') => Threw(e, l')
    case Done(l3) =>
      var last := |l3.buffers| - 1;
      match Shift(l3, last, 1, 0, l3.fills[last] - 1)
      case Threw(e, l') => Threw(e, l')
      case Done(l4) => Done(l4.(version := l4.version + 1))
  }

  /**
   * RemoveAt(index) as written: only index >= Count is rejected up front;
   * the count drops before any array is touched, the last-array branch
   * clears the slot just past the filled prefix, and the other branch never
   * lowers a fill count.
   */
  function RemoveAt<T>(l: LargeList<T>, index: int): (r: Outcome<T>)
    requires Parallel(l)
    ensures index >= l.size ==> r == Threw(ArgumentOutOfRange, l)
  {
    if index >= l.size then Threw(ArgumentOutOfRange, l)
    else
      var k := ArrayIndex(l.maxSize, index);
      if k < 0 || k >= |l.buffers| then Threw(ArgumentOutOfRange, l)
      else
        match CloseGap(l.(size := l.size - 1), k, Position(l.maxSize, index))
        case Threw(e, l') => Threw(e, l')
        case Done(l2) =>
          if k == |l.buffers| - 1 then ClearSlot(l2, k, l2.fills[k])
          else PullBack(l2, k)
  }

  /** The count of the last array drops by one after a successful pull. */
  function DropLast<T>(o: Outcome<T>): (r: Outcome<T>)
    requires o.Done? ==> |o.list.fills| >= 1
  {
    match o
    case Threw(e, l') => Threw(e, l')
    case Done(l4) => Done(l4.(fills := l4.fills[|l4.fills| - 1 := l4.fills[|l4.fills| - 1] - 1]))
  }

  /**
   * The corrected RemoveAt's first step: an empty last array that comes
   * after array k is dropped, so that the pull loop never ends on an array
   * with nothing to pull.
   */
  function DropEmptyLast<T>(l: LargeList<T>, k: int): (r: LargeList<T>)
    requires Parallel(l) && 0 <= k < |l.buffers|
    ensures Parallel(r) && k < |r.buffers| <= |l.buffers|
    ensures r.maxSize == l.maxSize && r.size == l.size && r.version == l.version && r.zero == l.zero
    ensures forall m :: 0 <= m < |r.buffers| ==> r.buffers[m] == l.buffers[m] && r.fills[m] == l.fills[m]
    ensures |r.buffers| < |l.buffers| <==> k < |l.buffers| - 1 && l.fills[|l.buffers| - 1] == 0
  {
    var n := |l.buffers|;
    if k < n - 1 && l.fills[n - 1] == 0 then l.(buffers := l.buffers[..n - 1], fills := l.fills[..n - 1])
    else l
  }

  /**
   * RemoveAt as evidently intended: an empty last array after the element's
   * array is dropped first, the last-array branch clears the slot the shift
   * vacated (the last filled one) and the other branch counts one element
   * less in the last array.
   */
  function RemoveAtFixed<T>(l: LargeList<T>, index: int): (r: Outcome<T>)
    requires Parallel(l)
    ensures index >= l.size ==> r == Threw(ArgumentOutOfRange, l)
  {
    if index >= l.size then Threw(ArgumentOutOfRange, l)
    else
      var k := ArrayIndex(l.maxSize, index);
      if k < 0 || k >= |l.buffers| then Threw(ArgumentOutOfRange, l)
      else
        var t := DropEmptyLast(l, k);
        match CloseGap(t.(size := t.size - 1), k, Position(t.maxSize, index))
        case Threw(e, l') => Threw(e, l')
        case Done(l2) =>
          if k == |t.buffers| - 1 then ClearSlot(l2, k, l2.fills[k] - 1)
          else DropLast(PullBack(l2, k))
  }

  // ---------------------------------------------------------------------
  // The pull loop under the fullness invariant
  // ---------------------------------------------------------------------

  /** The shape the pull loop expects from array ic on: every array but the last full at the cap. */
  ghost predicate PullReady<T>(l: LargeList<T>, ic: int)
  {
    && Wf(l) && 0 <= ic < |l.buffers|
    && forall m :: ic <= m < |l.buffers| - 1 ==> l.fills[m] == l.maxSize
  }

  /**
   * What the pull loop from array ic leaves behind: arrays before ic and the
   * last untouched; every other array shifted down by one (array k, where
   * the gap was closed already, excepted) and holding the next array's first
   * element in its last slot.
   */
  ghost predicate Pulled<T>(l: LargeList<T>, r: LargeList<T>, k: int, ic: int)
    requires PullReady(l, ic)
  {
    && Wf(r) && BuffersOnly(l, r) && |r.buffers| == |l.buffers|
    && (forall m :: 0 <= m < |l.buffers| && (m < ic || m == |l.buffers| - 1) ==> r.buffers[m] == l.buffers[m])
    && (forall m :: ic <= m < |l.buffers| - 1 ==> |r.buffers[m]| == l.maxSize)
    && (forall m, t {:trigger r.buffers[m][t]} :: ic <= m < |l.buffers| - 1 && 0 <= t < l.maxSize ==>
          r.buffers[m][t] ==
            if t == l.maxSize - 1 then l.buffers[m + 1][0]
            else if m == k then l.buffers[m][t]
            else l.buffers[m][t + 1])
  }

  lemma FullArray<T>(l: LargeList<T>, m: int)
    requires Wf(l) && 0 <= m < |l.buffers| && l.fills[m] == l.maxSize
    ensures |l.buffers[m]| == l.maxSize
  {
    assert CapacityOk(l.maxSize, |l.buffers[m]|);
  }

  /** One pass of the loop on a full array ic before the last: array ic becomes b3. */
  lemma PullStep<T>(l: LargeList<T>, k: int, ic: int) returns (b3: seq<T>)
    requires PullReady(l, ic) && ic < |l.buffers| - 1
    ensures PullOne(l, k, ic) == Done(l.(buffers := l.buffers[ic := b3]))
    ensures |b3| == l.maxSize
    ensures forall t {:trigger b3[t]} :: 0 <= t < l.maxSize ==>
              b3[t] == if t == l.maxSize - 1 then l.buffers[ic + 1][0]
                       else if ic == k then l.buffers[ic][t]
                       else l.buffers[ic][t + 1]
  {
    var max := l.maxSize;
    FullArray(l, ic);
    assert CapacityOk(max, |l.buffers[ic + 1]|);
    var first := l.buffers[ic + 1][0];
    if ic != k {
      var c := Copy(l.buffers[ic], 1, l.buffers[ic], 0, max - 1).value;
      b3 := c[max - 1 := first];
      var l1 := l.(buffers := l.buffers[ic := c]);
      assert Shift(l, ic, 1, 0, max - 1) == Done(l1);
      assert Store(l1, ic, max - 1, first) == Done(l.(buffers := l.buffers[ic := b3]));
    } else {
      b3 := l.buffers[ic][max - 1 := first];
    }
  }

  /** Under PullReady, the loop from array ic succeeds with the effect Pulled describes. */
  lemma {:induction false} PullShifts<T>(l: LargeList<T>, k: int, ic: int) returns (r: LargeList<T>)
    requires PullReady(l, ic)
    ensures Pull(l, k, ic) == Done(r)
    ensures Pulled(l, r, k, ic)
    decreases |l.buffers| - ic, 1
  {
    if ic == |l.buffers| - 1 {
      r := l;
      assert Pulled(l, r, k, ic);
    } else {
      r := PullShiftsStep(l, k, ic);
    }
  }

  lemma {:induction false} PullShiftsStep<T>(l: LargeList<T>, k: int, ic: int) returns (r: LargeList<T>)
    requires PullReady(l, ic) && ic < |l.buffers| - 1
    ensures Pull(l, k, ic) == Done(r)
    ensures Pulled(l, r, k, ic)
    decreases |l.buffers| - ic, 0
  {
    var b3 := PullStep(l, k, ic);
    var l3 := l.(buffers := l.buffers[ic := b3]);
    PullReadyMoves(l, ic, b3);
    r := PullShifts(l3, k, ic + 1);
    PullClose(l, b3, r, k, ic);
  }

  lemma PullReadyMoves<T>(l: LargeList<T>, ic: int, b3: seq<T>)
    requires PullReady(l, ic) && ic < |l.buffers| - 1 && |b3| == l.maxSize
    ensures PullReady(l.(buffers := l.buffers[ic := b3]), ic + 1)
  {
    var l3 := l.(buffers := l.buffers[ic := b3]);
    SixteenFitsCap(l);
    assert Wf(l3) by {
      forall m | 0 <= m < |l3.buffers| ensures CapacityOk(l.maxSize, |l3.buffers[m]|) && 0 <= l3.fills[m] <= |l3.buffers[m]| {
        if m != ic {
          assert l3.buffers[m] == l.buffers[m];
        }
      }
    }
  }

  lemma SixteenFitsCap<T>(l: LargeList<T>)
    requires Wf(l)
    ensures CapacityOk(l.maxSize, l.maxSize)
  {
  }

  /** The loop from ic is one pass followed by the loop from ic + 1, whose effect is known. */
  lemma PullClose<T>(l: LargeList<T>, b3: seq<T>, r: LargeList<T>, k: int, ic: int)
    requires PullReady(l, ic) && ic < |l.buffers| - 1
    requires PullOne(l, k, ic) == Done(l.(buffers := l.buffers[ic := b3]))
    requires |b3| == l.maxSize
    requires forall t {:trigger b3[t]} :: 0 <= t < l.maxSize ==>
               b3[t] == if t == l.maxSize - 1 then l.buffers[ic + 1][0]
                        else if ic == k then l.buffers[ic][t]
                        else l.buffers[ic][t + 1]
    requires PullReady(l.(buffers := l.buffers[ic := b3]), ic + 1)
    requires Pull(l.(buffers := l.buffers[ic := b3]), k, ic + 1) == Done(r)
    requires Pulled(l.(buffers := l.buffers[ic := b3]), r, k, ic + 1)
    ensures Pull(l, k, ic) == Done(r)
    ensures Pulled(l, r, k, ic)
  {
    PullUnfold(l, k, ic, l.(buffers := l.buffers[ic := b3]), r);
    PullLink(l, b3, r, k, ic);
  }

  lemma PullUnfold<T>(l: LargeList<T>, k: int, ic: int, l3: LargeList<T>, r: LargeList<T>)
    requires Parallel(l) && 0 <= ic < |l.buffers| - 1
    requires PullOne(l, k, ic) == Done(l3)
    requires Pull(l3, k, ic + 1) == Done(r)
    ensures Pull(l, k, ic) == Done(r)
  {
  }

  /** Composing one pass with the loop over the remaining arrays. */
  lemma PullLink<T>(l: LargeList<T>, b3: seq<T>, r: LargeList<T>, k: int, ic: int)
    requires PullReady(l, ic) && ic < |l.buffers| - 1
    requires |b3| == l.maxSize
    requires forall t {:trigger b3[t]} :: 0 <= t < l.maxSize ==>
               b3[t] == if t == l.maxSize - 1 then l.buffers[ic + 1][0]
                        else if ic == k then l.buffers[ic][t]
                        else l.buffers[ic][t + 1]
    requires PullReady(l.(buffers := l.buffers[ic := b3]), ic + 1)
    requires Pulled(l.(buffers := l.buffers[ic := b3]), r, k, ic + 1)
    ensures Pulled(l, r, k, ic)
  {
    var n := |l.buffers|;
    var max := l.maxSize;
    var l3 := l.(buffers := l.buffers[ic := b3]);
    assert BuffersOnly(l, r);
    forall m | 0 <= m < n && (m < ic || m == n - 1) ensures r.buffers[m] == l.buffers[m] {
      assert l3.buffers[m] == l.buffers[m];
    }
    forall m, t {:trigger r.buffers[m][t]} | ic <= m < n - 1 && 0 <= t < max
      ensures r.buffers[m][t] ==
                if t == max - 1 then l.buffers[m + 1][0]
                else if m == k then l.buffers[m][t]
                else l.buffers[m][t + 1]
    {
      PullSlot(l, b3, r, k, ic, m, t);
    }
    assert Pulled(l, r, k, ic);
  }

  /** One slot of PullLink. */
  lemma PullSlot<T>(l: LargeList<T>, b3: seq<T>, r: LargeList<T>, k: int, ic: int, m: int, t: int)
    requires PullReady(l, ic) && ic < |l.buffers| - 1
    requires |b3| == l.maxSize
    requires forall t {:trigger b3[t]} :: 0 <= t < l.maxSize ==>
               b3[t] == if t == l.maxSize - 1 then l.buffers[ic + 1][0]
                        else if ic == k then l.buffers[ic][t]
                        else l.buffers[ic][t + 1]
    requires PullReady(l.(buffers := l.buffers[ic := b3]), ic + 1)
    requires Pulled(l.(buffers := l.buffers[ic := b3]), r, k, ic + 1)
    requires ic <= m < |l.buffers| - 1 && 0 <= t < l.maxSize
    ensures |r.buffers[m]| == l.maxSize
    ensures r.buffers[m][t] ==
              if t == l.maxSize - 1 then l.buffers[m + 1][0]
              else if m == k then l.buffers[m][t]
              else l.buffers[m][t + 1]
  {
    var l3 := l.(buffers := l.buffers[ic := b3]);
    if m == ic {
      assert r.buffers[m] == b3;
    } else {
      assert l3.buffers[m] == l.buffers[m];
      assert l3.buffers[m + 1] == l.buffers[m + 1];
    }
  }

  // ---------------------------------------------------------------------
  // The steps around the loop
  // ---------------------------------------------------------------------

  /** The first copy, on an array whose slot p is filled: the elements after p move down by one. */
  lemma CloseGapEffect<T>(l: LargeList<T>, k: int, p: int) returns (c: seq<T>)
    requires Wf(l) && 0 <= k < |l.buffers| && 0 <= p < l.fills[k]
    ensures CloseGap(l, k, p) == Done(l.(buffers := l.buffers[k := c]))
    ensures |c| == |l.buffers[k]|
    ensures forall t {:trigger c[t]} :: 0 <= t < l.fills[k] - 1 ==>
              c[t] == if t < p then l.buffers[k][t] else l.buffers[k][t + 1]
  {
    c := Copy(l.buffers[k], p + 1, l.buffers[k], p, l.fills[k] - 1 - p).value;
  }

  /** The final copy of the pull branch: the last array, filled at least once, moves down by one. */
  lemma LastShift<T>(l: LargeList<T>) returns (d: seq<T>)
    requires Wf(l) && |l.buffers| >= 1 && l.fills[|l.buffers| - 1] >= 1
    ensures Shift(l, |l.buffers| - 1, 1, 0, l.fills[|l.buffers| - 1] - 1) == Done(l.(buffers := l.buffers[|l.buffers| - 1 := d]))
    ensures |d| == |l.buffers[|l.buffers| - 1]|
    ensures forall t {:trigger d[t]} :: 0 <= t < l.fills[|l.buffers| - 1] - 1 ==> d[t] == l.buffers[|l.buffers| - 1][t + 1]
  {
    var L := |l.buffers| - 1;
    d := Copy(l.buffers[L], 1, l.buffers[L], 0, l.fills[L] - 1).value;
  }

  /** The pull branch under PullReady with a filled last array: the loop, the final copy, the version. */
  lemma PullBackEffect<T>(l: LargeList<T>, k: int) returns (l3: LargeList<T>, d: seq<T>)
    requires PullReady(l, k) && k < |l.buffers| - 1 && l.fills[|l.buffers| - 1] >= 1
    ensures Pulled(l, l3, k, k)
    ensures PullBack(l, k) == Done(l3.(buffers := l3.buffers[|l.buffers| - 1 := d], version := l3.version + 1))
    ensures |d| == |l.buffers[|l.buffers| - 1]|
    ensures forall t {:trigger d[t]} :: 0 <= t < l.fills[|l.buffers| - 1] - 1 ==> d[t] == l.buffers[|l.buffers| - 1][t + 1]
  {
    l3 := PullShifts(l, k, k);
    assert l3.buffers[|l.buffers| - 1] == l.buffers[|l.buffers| - 1];
    d := LastShift(l3);
    PullBackUnfold(l, k, l3, l3.(buffers := l3.buffers[|l.buffers| - 1 := d]));
  }

  lemma PullBackUnfold<T>(l: LargeList<T>, k: int, l3: LargeList<T>, l4: LargeList<T>)
    requires Parallel(l) && 0 <= k < |l.buffers| - 1
    requires Pull(l, k, k) == Done(l3)
    requires Shift(l3, |l3.buffers| - 1, 1, 0, l3.fills[|l3.buffers| - 1] - 1) == Done(l4)
    ensures PullBack(l, k) == Done(l4.(version := l4.version + 1))
  {
  }

  // ---------------------------------------------------------------------
  // RemoveAt under the fullness invariant
  // ---------------------------------------------------------------------

  /**
   * r is l with logical element i removed: the fullness invariant holds, the
   * count drops by one, the version grows by one, and the indexer view loses
   * element i with everything after it moved down by one.
   */
  ghost predicate Removed<T>(l: LargeList<T>, r: LargeList<T>, i: int)
    requires Fullness(l) && 0 <= i < l.size
  {
    && Fullness(r)
    && r.maxSize == l.maxSize && r.zero == l.zero
    && r.size == l.size - 1 && r.version == l.version + 1
    && View(r) == View(l)[..i] + View(l)[i + 1..]
  }

  /** A sequence that agrees slot by slot with v without element i is v[..i] + v[i + 1..]. */
  lemma RemovedSeq<T>(v: seq<T>, w: seq<T>, i: int)
    requires 0 <= i < |v| && |w| == |v| - 1
    requires forall j {:trigger w[j]} :: 0 <= j < |w| ==> w[j] == if j < i then v[j] else v[j + 1]
    ensures w == v[..i] + v[i + 1..]
  {
    var u := v[..i] + v[i + 1..];
    forall j | 0 <= j < |w| ensures w[j] == u[j] {
      if j >= i {
        assert u[j] == v[i + 1..][j - i];
      }
    }
  }

  /** The last slot of an array is followed by the first slot of the next. */
  lemma FirstOfNext(max: PosInt, j: int)
    requires Position(max, j) == max - 1
    ensures ArrayIndex(max, j + 1) == ArrayIndex(max, j) + 1
    ensures Position(max, j + 1) == 0
  {
    Compose(max, ArrayIndex(max, j) + 1, 0);
    assert (ArrayIndex(max, j) + 1) * max + 0 == j + 1;
  }

  /** Slot t + 1 of the array holding j, when it exists, holds element j + 1. */
  lemma NextInArray(max: PosInt, j: int)
    requires Position(max, j) < max - 1
    ensures ArrayIndex(max, j + 1) == ArrayIndex(max, j)
    ensures Position(max, j + 1) == Position(max, j) + 1
  {
    Compose(max, ArrayIndex(max, j), Position(max, j) + 1);
  }

  /** The count after a removal: one less in the last array, everything else unchanged. */
  lemma FullnessAfterDrop<T>(l: LargeList<T>, r: LargeList<T>)
    requires Fullness(l) && |l.buffers| >= 1 && l.fills[|l.buffers| - 1] >= 1
    requires r.maxSize == l.maxSize && |r.buffers| == |l.buffers|
    requires forall m :: 0 <= m < |l.buffers| ==> |r.buffers[m]| == |l.buffers[m]|
    requires r.fills == l.fills[|l.buffers| - 1 := l.fills[|l.buffers| - 1] - 1] && r.size == l.size - 1
    ensures Fullness(r)
  {
    var L := |l.buffers| - 1;
    SumUpdate(l.fills, L, l.fills[L] - 1);
    assert Fits(r.buffers, r.fills) by {
      forall i | 0 <= i < |r.fills| ensures 0 <= r.fills[i] <= |r.buffers[i]| {
      }
    }
    SumNonNegative(r.fills);
    assert Wf(r) by {
      forall m | 0 <= m < |r.buffers| ensures CapacityOk(r.maxSize, |r.buffers[m]|) {
        assert CapacityOk(l.maxSize, |l.buffers[m]|);
      }
    }
  }

  /** The indexer view reads only the backing arrays, the count and the cap. */
  lemma ViewIgnoresFills<T>(a: LargeList<T>, b: LargeList<T>)
    requires Addressable(a) && Addressable(b)
    requires a.buffers == b.buffers && a.size == b.size && a.maxSize == b.maxSize
    ensures View(a) == View(b)
  {
  }

  /**
   * r is l after a removal at index, offset p of an array k before the last:
   * arrays before k untouched, array k with the gap closed and the next
   * array's first element last, every later array moved down by one, the
   * last array over its filled prefix too.
   */
  ghost predicate PullShape<T>(l: LargeList<T>, r: LargeList<T>, index: int, k: int, p: int)
  {
    && Fullness(l) && 0 <= index < l.size
    && k == ArrayIndex(l.maxSize, index) && p == Position(l.maxSize, index)
    && 0 <= k < |l.buffers| - 1
    && Addressable(r) && r.size == l.size - 1 && r.maxSize == l.maxSize && |r.buffers| == |l.buffers|
    && (forall m :: 0 <= m < |l.buffers| ==> |r.buffers[m]| == |l.buffers[m]|)
    && (forall m :: 0 <= m < k ==> r.buffers[m] == l.buffers[m])
    && (forall m, t {:trigger r.buffers[m][t]} :: k <= m < |l.buffers| - 1 && 0 <= t < l.maxSize ==>
          r.buffers[m][t] ==
            if m == k && t < p then l.buffers[m][t]
            else if t < l.maxSize - 1 then l.buffers[m][t + 1]
            else l.buffers[m + 1][0])
    && l.fills[|l.buffers| - 1] <= |r.buffers[|l.buffers| - 1]|
    && (forall t {:trigger r.buffers[|l.buffers| - 1][t]} :: 0 <= t < l.fills[|l.buffers| - 1] - 1 ==>
          r.buffers[|l.buffers| - 1][t] == l.buffers[|l.buffers| - 1][t + 1])
  }

  /** Elements before the removed one, in arrays up to k, stay in place. */
  lemma PullSlotBefore<T>(l: LargeList<T>, r: LargeList<T>, index: int, k: int, p: int, j: int)
    requires PullShape(l, r, index, k, p)
    requires 0 <= j < r.size
    requires ArrayIndex(l.maxSize, j) < k || (ArrayIndex(l.maxSize, j) == k && Position(l.maxSize, j) < p)
    ensures j < index && View(r)[j] == View(l)[j]
  {
    var max := l.maxSize;
    var a := ArrayIndex(max, j);
    ViewAt(r, j);
    ViewAt(l, j);
    ArrayIndexBounds(max, j, k);
    if a < k {
      assert r.buffers[a] == l.buffers[a];
    }
  }

  /** An element at or after the removed one, in an array before the last: its successor. */
  lemma PullSlotAfter<T>(l: LargeList<T>, r: LargeList<T>, index: int, k: int, p: int, j: int)
    requires PullShape(l, r, index, k, p)
    requires 0 <= j < r.size
    requires k <= ArrayIndex(l.maxSize, j) < |l.buffers| - 1
    requires ArrayIndex(l.maxSize, j) == k ==> Position(l.maxSize, j) >= p
    ensures j >= index && View(r)[j] == View(l)[j + 1]
  {
    var max := l.maxSize;
    var t := Position(max, j);
    ViewAt(r, j);
    ArrayIndexBounds(max, j, k + 1);
    if t < max - 1 {
      NextInArray(max, j);
    } else {
      FirstOfNext(max, j);
    }
    ViewAt(l, j + 1);
  }

  /** An element of the last array, when the removal was before it: its successor. */
  lemma PullSlotLast<T>(l: LargeList<T>, r: LargeList<T>, index: int, k: int, p: int, j: int)
    requires PullShape(l, r, index, k, p)
    requires 0 <= j < r.size && ArrayIndex(l.maxSize, j) == |l.buffers| - 1
    ensures j >= index && View(r)[j] == View(l)[j + 1]
  {
    var max := l.maxSize;
    var L := |l.buffers| - 1;
    ViewAt(r, j);
    FullSize(l);
    ArrayIndexBounds(max, j, k + 1);
    assert Position(max, j) < l.fills[L] - 1;
    NextInArray(max, j);
    ViewAt(l, j + 1);
  }

  lemma PullView<T>(l: LargeList<T>, r: LargeList<T>, index: int, k: int, p: int)
    requires PullShape(l, r, index, k, p)
    ensures View(r) == View(l)[..index] + View(l)[index + 1..]
  {
    var v := View(l);
    var w := View(r);
    forall j {:trigger w[j]} | 0 <= j < |w|
      ensures w[j] == if j < index then v[j] else v[j + 1]
    {
      var a := ArrayIndex(l.maxSize, j);
      ViewAt(r, j);
      if a < k || (a == k && Position(l.maxSize, j) < p) {
        PullSlotBefore(l, r, index, k, p, j);
      } else if a < |l.buffers| - 1 {
        PullSlotAfter(l, r, index, k, p, j);
      } else {
        PullSlotLast(l, r, index, k, p, j);
      }
    }
    RemovedSeq(v, w, index);
  }

  /**
   * r is l after a removal at index, offset p of the last array: the arrays
   * before it untouched, the last with the gap closed over its filled
   * prefix.
   */
  ghost predicate LastShape<T>(l: LargeList<T>, r: LargeList<T>, index: int, p: int)
  {
    && Fullness(l) && 0 <= index < l.size && |l.buffers| >= 1
    && ArrayIndex(l.maxSize, index) == |l.buffers| - 1 && p == Position(l.maxSize, index)
    && Addressable(r) && r.size == l.size - 1 && r.maxSize == l.maxSize && |r.buffers| == |l.buffers|
    && (forall m :: 0 <= m < |l.buffers| - 1 ==> r.buffers[m] == l.buffers[m])
    && l.fills[|l.buffers| - 1] <= |r.buffers[|l.buffers| - 1]|
    && l.fills[|l.buffers| - 1] <= |l.buffers[|l.buffers| - 1]|
    && (forall t {:trigger r.buffers[|l.buffers| - 1][t]} :: 0 <= t < l.fills[|l.buffers| - 1] - 1 ==>
          r.buffers[|l.buffers| - 1][t] ==
            if t < p then l.buffers[|l.buffers| - 1][t] else l.buffers[|l.buffers| - 1][t + 1])
  }

  lemma LastSlot<T>(l: LargeList<T>, r: LargeList<T>, index: int, p: int, j: int)
    requires LastShape(l, r, index, p)
    requires 0 <= j < r.size
    ensures View(r)[j] == if j < index then View(l)[j] else View(l)[j + 1]
  {
    var max := l.maxSize;
    var L := |l.buffers| - 1;
    var a := ArrayIndex(max, j);
    var t := Position(max, j);
    ViewAt(r, j);
    FullSize(l);
    ArrayIndexBounds(max, j, L);
    if a < L {
      assert r.buffers[a] == l.buffers[a];
      ViewAt(l, j);
    } else if t < p {
      ViewAt(l, j);
    } else {
      assert t < l.fills[L] - 1;
      NextInArray(max, j);
      ViewAt(l, j + 1);
    }
  }

  lemma LastView<T>(l: LargeList<T>, r: LargeList<T>, index: int, p: int)
    requires LastShape(l, r, index, p)
    ensures View(r) == View(l)[..index] + View(l)[index + 1..]
  {
    var v := View(l);
    var w := View(r);
    forall j {:trigger w[j]} | 0 <= j < |w|
      ensures w[j] == if j < index then v[j] else v[j + 1]
    {
      LastSlot(l, r, index, p, j);
    }
    RemovedSeq(v, w, index);
  }

  // ---------------------------------------------------------------------
  // The two branches, as written and corrected
  // ---------------------------------------------------------------------

  /** RemoveAt reaches the pull branch once the gap in array k is closed. */
  lemma RemoveAtPullUnfold<T>(l: LargeList<T>, index: int, k: int, p: int, l2: LargeList<T>, x: Outcome<T>)
    requires Parallel(l) && index < l.size
    requires k == ArrayIndex(l.maxSize, index) && p == Position(l.maxSize, index) && 0 <= k < |l.buffers| - 1
    requires CloseGap(l.(size := l.size - 1), k, p) == Done(l2)
    requires PullBack(l2, k) == x
    ensures RemoveAt(l, index) == x
  {
  }

  /** So does the corrected RemoveAt, when the last array holds something. */
  lemma RemoveAtFixedPullUnfold<T>(l: LargeList<T>, index: int, k: int, p: int, l2: LargeList<T>, x: Outcome<T>)
    requires Parallel(l) && index < l.size
    requires k == ArrayIndex(l.maxSize, index) && p == Position(l.maxSize, index) && 0 <= k < |l.buffers| - 1
    requires l.fills[|l.buffers| - 1] >= 1
    requires CloseGap(l.(size := l.size - 1), k, p) == Done(l2)
    requires PullBack(l2, k) == x
    ensures RemoveAtFixed(l, index) == DropLast(x)
  {
    assert DropEmptyLast(l, k) == l;
  }

  /** RemoveAt reaches the last-array branch once the gap is closed. */
  lemma RemoveAtLastUnfold<T>(l: LargeList<T>, index: int, p: int, l2: LargeList<T>, x: Outcome<T>, y: Outcome<T>)
    requires Parallel(l) && index < l.size && |l.buffers| >= 1
    requires ArrayIndex(l.maxSize, index) == |l.buffers| - 1 && p == Position(l.maxSize, index)
    requires CloseGap(l.(size := l.size - 1), |l.buffers| - 1, p) == Done(l2)
    requires ClearSlot(l2, |l.buffers| - 1, l2.fills[|l.buffers| - 1]) == x
    requires ClearSlot(l2, |l.buffers| - 1, l2.fills[|l.buffers| - 1] - 1) == y
    ensures RemoveAt(l, index) == x
    ensures RemoveAtFixed(l, index) == y
  {
  }

  /** The pieces of the pull branch put together give PullShape. */
  lemma PullShapeHolds<T>(l: LargeList<T>, index: int, k: int, p: int, c: seq<T>, l3: LargeList<T>, d: seq<T>, r: LargeList<T>)
    requires Fullness(l) && 0 <= index < l.size
    requires k == ArrayIndex(l.maxSize, index) && p == Position(l.maxSize, index) && 0 <= k < |l.buffers| - 1
    requires |c| == |l.buffers[k]|
    requires forall t {:trigger c[t]} :: 0 <= t < l.fills[k] - 1 ==> c[t] == if t < p then l.buffers[k][t] else l.buffers[k][t + 1]
    requires PullReady(l.(size := l.size - 1, buffers := l.buffers[k := c]), k)
    requires Pulled(l.(size := l.size - 1, buffers := l.buffers[k := c]), l3, k, k)
    requires |d| == |l.buffers[|l.buffers| - 1]|
    requires forall t {:trigger d[t]} :: 0 <= t < l.fills[|l.buffers| - 1] - 1 ==> d[t] == l.buffers[|l.buffers| - 1][t + 1]
    requires r.buffers == l3.buffers[|l.buffers| - 1 := d]
    requires r.fills == l.fills && r.size == l.size - 1 && r.maxSize == l.maxSize
    ensures PullShape(l, r, index, k, p)
  {
    var n := |l.buffers|;
    var max := l.maxSize;
    var l2 := l.(size := l.size - 1, buffers := l.buffers[k := c]);
    forall m | 0 <= m < n ensures |r.buffers[m]| == |l.buffers[m]| {
      if m != k && m != n - 1 {
        assert l2.buffers[m] == l.buffers[m];
      }
    }
    forall m | 0 <= m < k ensures r.buffers[m] == l.buffers[m] {
      assert l2.buffers[m] == l.buffers[m];
    }
    forall m, t {:trigger r.buffers[m][t]} | k <= m < n - 1 && 0 <= t < max
      ensures r.buffers[m][t] ==
                if m == k && t < p then l.buffers[m][t]
                else if t < max - 1 then l.buffers[m][t + 1]
                else l.buffers[m + 1][0]
    {
      assert l2.buffers[m + 1] == l.buffers[m + 1];
      if m != k {
        assert l2.buffers[m] == l.buffers[m];
      }
    }
    assert Wf(r) by {
      forall m | 0 <= m < n ensures CapacityOk(max, |r.buffers[m]|) && 0 <= r.fills[m] <= |r.buffers[m]| {
        assert CapacityOk(max, |l.buffers[m]|);
      }
    }
    assert PullShape(l, r, index, k, p);
  }

  /**
   * The pull branch under the fullness invariant, for an index in an array
   * before the last and a last array holding something: the loop succeeds,
   * and r is the state the branch leaves before any fill count changes.
   */
  lemma PullBranch<T>(l: LargeList<T>, index: int) returns (r: LargeList<T>)
    requires Fullness(l) && 0 <= index < l.size && l.fills[|l.buffers| - 1] >= 1
    requires ArrayIndex(l.maxSize, index) < |l.buffers| - 1
    ensures RemoveAt(l, index) == Done(r)
    ensures RemoveAtFixed(l, index) == DropLast(Done(r))
    ensures PullShape(l, r, index, ArrayIndex(l.maxSize, index), Position(l.maxSize, index))
    ensures r.fills == l.fills && r.version == l.version + 1 && r.zero == l.zero
  {
    var k := ArrayIndex(l.maxSize, index);
    var p := Position(l.maxSize, index);
    var L := |l.buffers| - 1;
    ArrayIndexBounds(l.maxSize, index, 0);
    var c := GapClosed(l, k, p);
    var l2 := l.(size := l.size - 1, buffers := l.buffers[k := c]);
    var l3, d := PullBackEffect(l2, k);
    r := l3.(buffers := l3.buffers[L := d], version := l3.version + 1);
    PullBranchClose(l, index, k, p, c, l3, d, r);
  }

  /** The first copy of the pull branch, on the full array k, and the loop's precondition after it. */
  lemma GapClosed<T>(l: LargeList<T>, k: int, p: int) returns (c: seq<T>)
    requires Fullness(l) && 0 <= k < |l.buffers| - 1 && 0 <= p < l.maxSize
    ensures CloseGap(l.(size := l.size - 1), k, p) == Done(l.(size := l.size - 1, buffers := l.buffers[k := c]))
    ensures PullReady(l.(size := l.size - 1, buffers := l.buffers[k := c]), k)
    ensures |c| == |l.buffers[k]|
    ensures forall t {:trigger c[t]} :: 0 <= t < l.fills[k] - 1 ==> c[t] == if t < p then l.buffers[k][t] else l.buffers[k][t + 1]
  {
    var l1 := l.(size := l.size - 1);
    c := CloseGapEffect(l1, k, p);
    assert CapacityOk(l.maxSize, |l.buffers[k]|);
    ReplaceKeepsWf(l1, k, c);
  }

  /** PullBranch's conclusions from its pieces. */
  lemma PullBranchClose<T>(l: LargeList<T>, index: int, k: int, p: int, c: seq<T>, l3: LargeList<T>, d: seq<T>, r: LargeList<T>)
    requires Fullness(l) && 0 <= index < l.size
    requires k == ArrayIndex(l.maxSize, index) && p == Position(l.maxSize, index) && 0 <= k < |l.buffers| - 1
    requires CloseGap(l.(size := l.size - 1), k, p) == Done(l.(size := l.size - 1, buffers := l.buffers[k := c]))
    requires |c| == |l.buffers[k]|
    requires forall t {:trigger c[t]} :: 0 <= t < l.fills[k] - 1 ==> c[t] == if t < p then l.buffers[k][t] else l.buffers[k][t + 1]
    requires PullReady(l.(size := l.size - 1, buffers := l.buffers[k := c]), k)
    requires Pulled(l.(size := l.size - 1, buffers := l.buffers[k := c]), l3, k, k)
    requires PullBack(l.(size := l.size - 1, buffers := l.buffers[k := c]), k) == Done(r)
    requires |d| == |l.buffers[|l.buffers| - 1]|
    requires forall t {:trigger d[t]} :: 0 <= t < l.fills[|l.buffers| - 1] - 1 ==> d[t] == l.buffers[|l.buffers| - 1][t + 1]
    requires r == l3.(buffers := l3.buffers[|l.buffers| - 1 := d], version := l3.version + 1)
    requires l.fills[|l.buffers| - 1] >= 1
    ensures RemoveAt(l, index) == Done(r)
    ensures RemoveAtFixed(l, index) == DropLast(Done(r))
    ensures PullShape(l, r, index, k, p)
    ensures r.fills == l.fills && r.version == l.version + 1 && r.zero == l.zero
  {
    RemoveAtPullUnfold(l, index, k, p, l.(size := l.size - 1, buffers := l.buffers[k := c]), Done(r));
    RemoveAtFixedPullUnfold(l, index, k, p, l.(size := l.size - 1, buffers := l.buffers[k := c]), Done(r));
    PullShapeHolds(l, index, k, p, c, l3, d, r);
  }

  /**
   * The pull branch as written: the view loses the element, but no fill
   * count drops, so the fill counts add up to one more than the count.
   */
  lemma RemoveAtPull<T>(l: LargeList<T>, index: int) returns (r: LargeList<T>)
    requires Fullness(l) && 0 <= index < l.size && l.fills[|l.buffers| - 1] >= 1
    requires ArrayIndex(l.maxSize, index) < |l.buffers| - 1
    ensures RemoveAt(l, index) == Done(r)
    ensures Addressable(r) && r.size == l.size - 1 && r.version == l.version + 1
    ensures View(r) == View(l)[..index] + View(l)[index + 1..]
    ensures r.fills == l.fills && Sum(r.fills) == r.size + 1 && !Inv(r)
  {
    r := PullBranch(l, index);
    PullView(l, r, index, ArrayIndex(l.maxSize, index), Position(l.maxSize, index));
  }

  /**
   * The corrected pull branch removes the element and keeps the fullness
   * invariant, an empty last array included: that array is dropped first.
   */
  lemma RemoveAtFixedPull<T>(l: LargeList<T>, index: int) returns (r: LargeList<T>)
    requires Fullness(l) && 0 <= index < l.size
    requires ArrayIndex(l.maxSize, index) < |l.buffers| - 1
    ensures RemoveAtFixed(l, index) == Done(r)
    ensures Removed(l, r, index)
  {
    if l.fills[|l.buffers| - 1] == 0 {
      r := RemoveAtTrimmed(l, index);
    } else {
      r := PullDrop(l, index);
    }
  }

  /** The corrected pull branch on a state whose last array holds something. */
  lemma PullDrop<T>(l: LargeList<T>, index: int) returns (r: LargeList<T>)
    requires Fullness(l) && 0 <= index < l.size && l.fills[|l.buffers| - 1] >= 1
    requires ArrayIndex(l.maxSize, index) < |l.buffers| - 1
    ensures RemoveAtFixed(l, index) == Done(r)
    ensures Removed(l, r, index)
  {
    var r0 := PullBranch(l, index);
    r := DropRemoves(l, r0, index, ArrayIndex(l.maxSize, index), Position(l.maxSize, index));
  }

  /** l without its last array. */
  function Trimmed<T>(l: LargeList<T>): (t: LargeList<T>)
    requires Parallel(l) && |l.buffers| >= 1
    ensures Parallel(t) && |t.buffers| == |l.buffers| - 1
  {
    l.(buffers := l.buffers[..|l.buffers| - 1], fills := l.fills[..|l.buffers| - 1])
  }

  /**
   * Dropping an empty last array from a state under the fullness invariant
   * leaves a tight state with the same indexer view.
   */
  lemma TrimmedTight<T>(l: LargeList<T>)
    requires Fullness(l) && |l.buffers| >= 1 && l.fills[|l.buffers| - 1] == 0
    ensures Tight(Trimmed(l)) && View(Trimmed(l)) == View(l)
  {
    var n := |l.buffers|;
    var t := Trimmed(l);
    assert l.fills == t.fills + [0];
    SumAppendZero(t.fills);
    assert Wf(t) by {
      forall m | 0 <= m < n - 1 ensures CapacityOk(t.maxSize, |t.buffers[m]|) && 0 <= t.fills[m] <= |t.buffers[m]| {
        assert t.buffers[m] == l.buffers[m];
      }
    }
    assert Fullness(t);
    if n >= 2 {
      assert t.fills[n - 2] == l.maxSize;
    }
    forall j | 0 <= j < l.size ensures View(t)[j] == View(l)[j] {
      ViewAt(l, j);
      ViewAt(t, j);
    }
  }

  lemma {:induction false} SumAppendZero(xs: seq<int>)
    ensures Sum(xs + [0]) == Sum(xs)
  {
    if xs != [] {
      assert (xs + [0])[1..] == xs[1..] + [0];
      SumAppendZero(xs[1..]);
    }
  }

  /** The corrected RemoveAt on l runs as on l without its empty last array. */
  lemma TrimmedUnfold<T>(l: LargeList<T>, index: int)
    requires Parallel(l) && 0 <= index < l.size && |l.buffers| >= 2 && l.fills[|l.buffers| - 1] == 0
    requires 0 <= ArrayIndex(l.maxSize, index) < |l.buffers| - 1 && l.fills[|l.buffers| - 2] >= 1
    ensures RemoveAtFixed(l, index) == RemoveAtFixed(Trimmed(l), index)
  {
    var k := ArrayIndex(l.maxSize, index);
    assert DropEmptyLast(l, k) == Trimmed(l);
    assert DropEmptyLast(Trimmed(l), k) == Trimmed(l);
  }

  /** An empty last array is dropped, and the element removed from what is left. */
  lemma RemoveAtTrimmed<T>(l: LargeList<T>, index: int) returns (r: LargeList<T>)
    requires Fullness(l) && 0 <= index < l.size && |l.buffers| >= 1 && l.fills[|l.buffers| - 1] == 0
    ensures RemoveAtFixed(l, index) == Done(r)
    ensures Removed(l, r, index)
  {
    var n := |l.buffers|;
    var k := ArrayIndex(l.maxSize, index);
    ViewAt(l, index);
    var t := Trimmed(l);
    TrimmedTight(l);
    assert t.fills[n - 2] == l.maxSize;
    TrimmedUnfold(l, index);
    RemoveInArrays(t, index);
    if k == n - 2 {
      r := RemoveAtFixedLast(t, index);
    } else {
      r := PullDrop(t, index);
    }
  }

  /** The pull branch followed by the corrected count: the element is removed. */
  lemma DropRemoves<T>(l: LargeList<T>, r0: LargeList<T>, index: int, k: int, p: int) returns (r: LargeList<T>)
    requires PullShape(l, r0, index, k, p) && l.fills[|l.buffers| - 1] >= 1
    requires r0.fills == l.fills && r0.version == l.version + 1 && r0.zero == l.zero
    ensures DropLast(Done(r0)) == Done(r)
    ensures Removed(l, r, index)
  {
    var L := |l.buffers| - 1;
    PullView(l, r0, index, k, p);
    r := r0.(fills := r0.fills[L := r0.fills[L] - 1]);
    FullnessAfterDrop(l, r);
    ViewIgnoresFills(r0, r);
    assert Removed(l, r, index);
  }

  /** An index in the last array lies within its filled prefix. */
  lemma InLastFill<T>(l: LargeList<T>, index: int)
    requires Fullness(l) && 0 <= index < l.size && |l.buffers| >= 1
    requires ArrayIndex(l.maxSize, index) == |l.buffers| - 1
    ensures Position(l.maxSize, index) < l.fills[|l.buffers| - 1]
  {
    var L := |l.buffers| - 1;
    FullSize(l);
    InArray(l.maxSize, L, l.fills[L], index, l.size);
  }

  lemma InArray(max: PosInt, a: int, f: int, index: int, size: int)
    requires ArrayIndex(max, index) == a && index < size && size == a * max + f
    ensures Position(max, index) < f
  {
  }

  /** The first copy of the last-array branch. */
  lemma LastGap<T>(l: LargeList<T>, index: int) returns (c: seq<T>)
    requires Fullness(l) && 0 <= index < l.size && |l.buffers| >= 1
    requires ArrayIndex(l.maxSize, index) == |l.buffers| - 1
    ensures CloseGap(l.(size := l.size - 1), |l.buffers| - 1, Position(l.maxSize, index)) ==
              Done(l.(size := l.size - 1, buffers := l.buffers[|l.buffers| - 1 := c]))
    ensures |c| == |l.buffers[|l.buffers| - 1]| && l.fills[|l.buffers| - 1] >= 1
    ensures forall t {:trigger c[t]} :: 0 <= t < l.fills[|l.buffers| - 1] - 1 ==>
              c[t] == if t < Position(l.maxSize, index) then l.buffers[|l.buffers| - 1][t] else l.buffers[|l.buffers| - 1][t + 1]
  {
    InLastFill(l, index);
    c := CloseGapEffect(l.(size := l.size - 1), |l.buffers| - 1, Position(l.maxSize, index));
  }

  /** The pieces of the last-array branch put together: slot s cleared, one element less counted. */
  lemma LastRemoved<T>(l: LargeList<T>, index: int, c: seq<T>, s: int, r: LargeList<T>)
    requires Fullness(l) && 0 <= index < l.size && |l.buffers| >= 1
    requires ArrayIndex(l.maxSize, index) == |l.buffers| - 1
    requires |c| == |l.buffers[|l.buffers| - 1]| && 0 <= s < |c| && l.fills[|l.buffers| - 1] - 1 <= s
    requires forall t {:trigger c[t]} :: 0 <= t < l.fills[|l.buffers| - 1] - 1 ==>
               c[t] == if t < Position(l.maxSize, index) then l.buffers[|l.buffers| - 1][t] else l.buffers[|l.buffers| - 1][t + 1]
    requires r.buffers == l.buffers[|l.buffers| - 1 := c[s := l.zero]]
    requires r.fills == l.fills[|l.buffers| - 1 := l.fills[|l.buffers| - 1] - 1]
    requires r.size == l.size - 1 && r.version == l.version + 1 && r.maxSize == l.maxSize && r.zero == l.zero
    ensures Removed(l, r, index)
  {
    InLastFill(l, index);
    FullnessAfterDrop(l, r);
    assert LastShape(l, r, index, Position(l.maxSize, index));
    LastView(l, r, index, Position(l.maxSize, index));
    assert Removed(l, r, index);
  }

  /** The last-array branch, as written or corrected, once slot s is known to exist. */
  lemma LastBranch<T>(l: LargeList<T>, index: int, s: int) returns (l2: LargeList<T>, r: LargeList<T>)
    requires Fullness(l) && 0 <= index < l.size && |l.buffers| >= 1
    requires ArrayIndex(l.maxSize, index) == |l.buffers| - 1
    requires l.fills[|l.buffers| - 1] - 1 <= s <= l.fills[|l.buffers| - 1] && s < |l.buffers[|l.buffers| - 1]|
    ensures CloseGap(l.(size := l.size - 1), |l.buffers| - 1, Position(l.maxSize, index)) == Done(l2)
    ensures l2.fills == l.fills
    ensures ClearSlot(l2, |l.buffers| - 1, s) == Done(r)
    ensures Removed(l, r, index)
  {
    var L := |l.buffers| - 1;
    var c := LastGap(l, index);
    l2 := l.(size := l.size - 1, buffers := l.buffers[L := c]);
    r := l2.(buffers := l2.buffers[L := c[s := l.zero]], fills := l.fills[L := l.fills[L] - 1], version := l.version + 1);
    LastRemoved(l, index, c, s, r);
  }

  /**
   * The last-array branch as written, when that array has a free slot past
   * its filled prefix: the element is removed and the invariant kept.
   */
  lemma RemoveAtLast<T>(l: LargeList<T>, index: int) returns (r: LargeList<T>)
    requires Fullness(l) && 0 <= index < l.size && |l.buffers| >= 1
    requires ArrayIndex(l.maxSize, index) == |l.buffers| - 1
    requires l.fills[|l.buffers| - 1] < |l.buffers[|l.buffers| - 1]|
    ensures RemoveAt(l, index) == Done(r)
    ensures Removed(l, r, index)
  {
    var L := |l.buffers| - 1;
    var l2;
    l2, r := LastBranch(l, index, l.fills[L]);
    RemoveAtLastUnfold(l, index, Position(l.maxSize, index), l2, Done(r), ClearSlot(l2, L, l.fills[L] - 1));
  }

  /** The corrected last-array branch clears the vacated slot: it always succeeds. */
  lemma RemoveAtFixedLast<T>(l: LargeList<T>, index: int) returns (r: LargeList<T>)
    requires Fullness(l) && 0 <= index < l.size && |l.buffers| >= 1
    requires ArrayIndex(l.maxSize, index) == |l.buffers| - 1
    ensures RemoveAtFixed(l, index) == Done(r)
    ensures Removed(l, r, index)
  {
    var L := |l.buffers| - 1;
    InLastFill(l, index);
    var l2;
    l2, r := LastBranch(l, index, l.fills[L] - 1);
    RemoveAtLastUnfold(l, index, Position(l.maxSize, index), l2, ClearSlot(l2, L, l.fills[L]), Done(r));
  }

  /**
   * The last-array branch as written, when that array is full to its
   * capacity: the write past the filled prefix throws IndexOutOfRange after
   * the count has dropped, leaving a state whose fill counts no longer add
   * up to the count.
   */
  lemma RemoveAtLastFull<T>(l: LargeList<T>, index: int) returns (r: LargeList<T>)
    requires Fullness(l) && 0 <= index < l.size && |l.buffers| >= 1
    requires ArrayIndex(l.maxSize, index) == |l.buffers| - 1
    requires l.fills[|l.buffers| - 1] == |l.buffers[|l.buffers| - 1]|
    ensures RemoveAt(l, index) == Threw(IndexOutOfRange, r)
    ensures r.size == l.size - 1 && r.fills == l.fills && r.version == l.version && !Inv(r)
  {
    var L := |l.buffers| - 1;
    var c := LastGap(l, index);
    r := l.(size := l.size - 1, buffers := l.buffers[L := c]);
    RemoveAtLastUnfold(l, index, Position(l.maxSize, index), r, Threw(IndexOutOfRange, r), ClearSlot(r, L, l.fills[L] - 1));
  }

  /** A negative index maps to a negative array index, which List<T> rejects before anything changes. */
  lemma RemoveAtNegative<T>(l: LargeList<T>, index: int)
    requires Parallel(l) && index < 0
    ensures RemoveAt(l, index) == Threw(ArgumentOutOfRange, l)
    ensures RemoveAtFixed(l, index) == Threw(ArgumentOutOfRange, l)
  {
    ArrayIndexBounds(l.maxSize, index, 0);
  }

  /**
   * The corrected RemoveAt removes any element below the count of a state
   * under the fullness invariant, and keeps that invariant, so removals
   * chain.
   */
  lemma RemoveAtFixedRemoves<T>(l: LargeList<T>, index: int) returns (r: LargeList<T>)
    requires Fullness(l) && 0 <= index < l.size
    ensures RemoveAtFixed(l, index) == Done(r)
    ensures Removed(l, r, index)
  {
    var k := ArrayIndex(l.maxSize, index);
    ViewAt(l, index);
    if k == |l.buffers| - 1 {
      r := RemoveAtFixedLast(l, index);
    } else {
      r := RemoveAtFixedPull(l, index);
    }
  }

  /** Under Fullness every index below the count falls in an existing array. */
  lemma RemoveInArrays<T>(l: LargeList<T>, index: int)
    requires Tight(l) && 0 <= index < l.size
    ensures 0 <= ArrayIndex(l.maxSize, index) < |l.buffers|
    ensures l.fills[|l.buffers| - 1] >= 1
  {
    ViewAt(l, index);
  }

  /** Two corrected removals in a row: the second sees the first one's state, which still qualifies. */
  lemma RemoveTwice<T>(l: LargeList<T>, i: int, j: int) returns (r: LargeList<T>, s: LargeList<T>)
    requires Fullness(l) && 0 <= i < l.size && 0 <= j < l.size - 1
    ensures RemoveAtFixed(l, i) == Done(r) && RemoveAtFixed(r, j) == Done(s)
    ensures Fullness(s) && s.size == l.size - 2 && s.version == l.version + 2
    ensures View(s) == (View(l)[..i] + View(l)[i + 1..])[..j] + (View(l)[..i] + View(l)[i + 1..])[j + 1..]
  {
    r := RemoveAtFixedRemoves(l, i);
    s := RemoveAtFixedRemoves(r, j);
  }

  /**
   * The pull branch as written, when the last array is empty: the loop runs,
   * then the final Array.Copy gets length -1 and throws ArgumentOutOfRange,
   * after the count has dropped. The fill counts no longer add up to it.
   */
  lemma RemoveAtEmptyLast<T>(l: LargeList<T>, index: int) returns (r: LargeList<T>)
    requires Fullness(l) && 0 <= index < l.size && |l.buffers| >= 1 && l.fills[|l.buffers| - 1] == 0
    ensures RemoveAt(l, index) == Threw(ArgumentOutOfRange, r)
    ensures r.size == l.size - 1 && r.fills == l.fills && r.version == l.version && !Inv(r)
  {
    var k := ArrayIndex(l.maxSize, index);
    var p := Position(l.maxSize, index);
    ViewAt(l, index);
    var c := GapClosed(l, k, p);
    var l2 := l.(size := l.size - 1, buffers := l.buffers[k := c]);
    r := PullBackEmpty(l2, k);
    RemoveAtPullUnfold(l, index, k, p, l2, Threw(ArgumentOutOfRange, r));
  }

  /** The pull loop runs, then the shift of an empty last array has length -1. */
  lemma PullBackEmpty<T>(l: LargeList<T>, k: int) returns (r: LargeList<T>)
    requires PullReady(l, k) && k < |l.buffers| - 1 && l.fills[|l.buffers| - 1] == 0
    ensures PullBack(l, k) == Threw(ArgumentOutOfRange, r) && BuffersOnly(l, r)
  {
    r := PullShifts(l, k, k);
    var L := |l.buffers| - 1;
    assert Shift(r, L, 1, 0, r.fills[L] - 1) == Threw(ArgumentOutOfRange, r);
  }

  /**
   * Seventeen Adds and RemoveAt(16) leave a full array and an empty one (the
   * state of GapState). There RemoveAt(0) as written throws, while the
   * corrected RemoveAt removes the element.
   */
  lemma RemoveAtGap() returns (r: LargeList<int>, s: LargeList<int>)
    ensures RemoveAt(GapState(), 0) == Threw(ArgumentOutOfRange, r) && r.size == 15 && !Inv(r)
    ensures RemoveAtFixed(GapState(), 0) == Done(s) && Removed(GapState(), s, 0)
  {
    r := RemoveAtEmptyLast(GapState(), 0);
    s := RemoveAtFixedRemoves(GapState(), 0);
  }

  /**
   * Insert and the corrected RemoveAt at the same index are inverses: on a
   * tight list the round trip restores the indexer view and the count.
   */
  lemma InsertThenRemove<T>(l: LargeList<T>, index: int, item: T) returns (r: LargeList<T>, s: LargeList<T>)
    requires Tight(l) && 0 <= index <= l.size
    ensures Insert(l, index, item) == Done(r)
    ensures RemoveAtFixed(r, index) == Done(s)
    ensures Fullness(s) && View(s) == View(l) && s.size == l.size && s.version == l.version + 2
  {
    r := InsertInserts(l, index, item);
    s := RemoveAtFixedRemoves(r, index);
    InsertRemoveSeq(View(l), index, item);
  }

  lemma InsertRemoveSeq<T>(v: seq<T>, i: int, x: T)
    requires 0 <= i <= |v|
    ensures (v[..i] + [x] + v[i..])[..i] + (v[..i] + [x] + v[i..])[i + 1..] == v
  {
    var w := v[..i] + [x] + v[i..];
    assert w[..i] == v[..i];
    assert w[i + 1..] == v[i..];
    assert v == v[..i] + v[i..];
  }
}

=== FILE: reversal.dfy ===
/**
 * Reverse: as written it reverses every whole backing array, unused
 * capacity included, and then the order of the arrays, but leaves the fill
 * counts where they were. That reverses the list only when every array is
 * full to the cap. ReverseFixed reverses the indexer view through the
 * indexer, the way HeapSort rearranges it.
 */
module Reversal {
  import opened Segments
  import opened ListState
  import opened Insertion
  import opened InsertEntry
  import opened Sorting
  import opened Queries

  /** Array.Reverse on a whole array. */
  function Reversed<T>(s: seq<T>): (r: seq<T>)
    ensures |r| == |s|
    ensures forall i :: 0 <= i < |s| ==> r[i] == s[|s| - 1 - i]
  {
    if s == [] then [] else Reversed(s[1..]) + [s[0]]
  }

  lemma ReversedTwice<T>(s: seq<T>)
    ensures Reversed(Reversed(s)) == s
  {
  }

  /** The foreach over arrayHolder: Array.Reverse on each backing array in turn. */
  function ReverseEach<T>(bufs: seq<seq<T>>): (r: seq<seq<T>>)
    ensures |r| == |bufs|
    ensures forall k :: 0 <= k < |bufs| ==> r[k] == Reversed(bufs[k])
  {
    if bufs == [] then [] else [Reversed(bufs[0])] + ReverseEach(bufs[1..])
  }

  /**
   * Reverse as written: each backing array reversed end to end, then
   * arrayHolder reversed; arraySizes and size unchanged, version + 1.
   */
  function Reverse<T>(l: LargeList<T>): (r: LargeList<T>)
    ensures r.maxSize == l.maxSize && r.fills == l.fills && r.size == l.size && r.zero == l.zero
    ensures r.version == l.version + 1
    ensures |r.buffers| == |l.buffers|
    ensures forall k :: 0 <= k < |l.buffers| ==>
              r.buffers[k] == Reversed(l.buffers[|l.buffers| - 1 - k])
  {
    l.(buffers := Reversed(ReverseEach(l.buffers)), version := l.version + 1)
  }

  /** Reverse twice restores every backing array and their order; the fills never moved. */
  lemma ReverseTwice<T>(l: LargeList<T>)
    ensures Reverse(Reverse(l)).buffers == l.buffers
    ensures Reverse(Reverse(l)).fills == l.fills && Reverse(Reverse(l)).size == l.size
    ensures Reverse(Reverse(l)).version == l.version + 2
  {
    var r := Reverse(Reverse(l));
    var n := |l.buffers|;
    forall k | 0 <= k < n ensures r.buffers[k] == l.buffers[k] {
      ReversedTwice(l.buffers[k]);
    }
  }

  /** Index j and index n * max - 1 - j sit at mirrored arrays and mirrored offsets. */
  lemma MirrorIndex(max: PosInt, n: int, j: int)
    requires 0 <= j < n * max
    ensures ArrayIndex(max, n * max - 1 - j) == n - 1 - ArrayIndex(max, j)
    ensures Position(max, n * max - 1 - j) == max - 1 - Position(max, j)
  {
    var a := ArrayIndex(max, j);
    var p := Position(max, j);
    assert n * max - 1 - j == (n - 1 - a) * max + (max - 1 - p);
    Compose(max, n - 1 - a, max - 1 - p);
  }

  /** When every backing array has the cap as its length, Reverse keeps the shape. */
  lemma ReverseKeepsShape<T>(l: LargeList<T>)
    requires forall k :: 0 <= k < |l.buffers| ==> |l.buffers[k]| == l.maxSize
    ensures SameShape(l, Reverse(l))
  {
  }

  /** Under Fullness with a full last array, every array is full to the cap. */
  lemma AllFull<T>(l: LargeList<T>)
    requires Fullness(l) && (|l.buffers| == 0 || l.fills[|l.buffers| - 1] == l.maxSize)
    ensures l.size == |l.buffers| * l.maxSize
    ensures forall k :: 0 <= k < |l.buffers| ==> l.fills[k] == l.maxSize == |l.buffers[k]|
  {
    AllFullSize(l);
    forall k | 0 <= k < |l.buffers| ensures l.fills[k] == l.maxSize == |l.buffers[k]| {
      assert CapacityOk(l.maxSize, |l.buffers[k]|);
    }
  }

  /** Slot j of r, the mirror image of l, holds l's element size - 1 - j. */
  lemma MirrorSlot<T>(l: LargeList<T>, r: LargeList<T>, j: int)
    requires Addressable(l) && Addressable(r) && r.size == l.size && r.maxSize == l.maxSize
    requires l.size == |l.buffers| * l.maxSize && |r.buffers| == |l.buffers|
    requires forall k :: 0 <= k < |l.buffers| ==>
               |l.buffers[k]| == l.maxSize && r.buffers[k] == Reversed(l.buffers[|l.buffers| - 1 - k])
    requires 0 <= j < l.size
    ensures View(r)[j] == View(l)[l.size - 1 - j]
  {
    var max := l.maxSize;
    var n := |l.buffers|;
    ViewAt(r, j);
    var a := ArrayIndex(max, j);
    var p := Position(max, j);
    MirrorIndex(max, n, j);
    ViewAt(l, l.size - 1 - j);
    assert r.buffers[a] == Reversed(l.buffers[n - 1 - a]);
    assert r.buffers[a][p] == l.buffers[n - 1 - a][max - 1 - p];
  }

  /** r mirrors l array by array: its indexer view is l's reversed. */
  lemma MirrorView<T>(l: LargeList<T>, r: LargeList<T>)
    requires Addressable(l) && Addressable(r) && r.size == l.size && r.maxSize == l.maxSize
    requires l.size == |l.buffers| * l.maxSize && |r.buffers| == |l.buffers|
    requires forall k :: 0 <= k < |l.buffers| ==>
               |l.buffers[k]| == l.maxSize && r.buffers[k] == Reversed(l.buffers[|l.buffers| - 1 - k])
    ensures View(r) == Reversed(View(l))
  {
    forall j | 0 <= j < l.size ensures View(r)[j] == Reversed(View(l))[j] {
      MirrorSlot(l, r, j);
    }
  }

  /**
   * When every array holds exactly the cap, Reverse keeps the fullness
   * invariant and turns the indexer view into its reverse.
   */
  lemma ReverseAllFull<T>(l: LargeList<T>)
    requires Fullness(l) && (|l.buffers| == 0 || l.fills[|l.buffers| - 1] == l.maxSize)
    ensures Fullness(Reverse(l))
    ensures View(Reverse(l)) == Reversed(View(l))
  {
    AllFull(l);
    ReverseKeepsShape(l);
    SameShapeInvariants(l, Reverse(l));
    MirrorView(l, Reverse(l));
  }

  /**
   * With a part-filled last array Reverse brings that array's unused tail
   * to the front: TwoArrayState holds sixteen 1s then 2, 2, 2, yet after
   * Reverse the indexer's first element is a never-written 0 where the
   * reversed list starts with 2.
   */
  lemma ReverseExposesCapacity()
    ensures Fullness(Reverse(TwoArrayState()))
    ensures View(Reverse(TwoArrayState()))[0] == 0
    ensures Reversed(View(TwoArrayState()))[0] == 2
  {
    ReverseFrontSlot(TwoArrayState());
  }

  /** Reverse on a list of two arrays of the cap, the last with an unwritten final slot. */
  lemma ReverseFrontSlot(l: LargeList<int>)
    requires Fullness(l) && l.size >= 1
    requires |l.buffers| == 2 && |l.buffers[0]| == l.maxSize && |l.buffers[1]| == l.maxSize
    requires l.buffers[1][l.maxSize - 1] == 0
    ensures Fullness(Reverse(l))
    ensures View(Reverse(l))[0] == 0
    ensures Reversed(View(l))[0] == View(l)[l.size - 1]
  {
    var r := Reverse(l);
    ReverseKeepsShape(l);
    SameShapeInvariants(l, r);
    assert r.buffers[0][0] == l.buffers[1][l.maxSize - 1];
    ViewAt(r, 0);
    Compose(l.maxSize, 0, 0);
  }

  /** w is v with the first i and the last i elements already mirrored. */
  ghost predicate MirroredUpTo<T>(v: seq<T>, w: seq<T>, i: int)
  {
    && |w| == |v|
    && forall k {:trigger w[k]} :: 0 <= k < |v| ==> w[k] == if k < i || k >= |v| - i then v[|v| - 1 - k] else v[k]
  }

  lemma MirrorStep<T>(v: seq<T>, w: seq<T>, i: int)
    requires MirroredUpTo(v, w, i) && 0 <= i < |v| / 2
    ensures MirroredUpTo(v, Swapped(w, i, |v| - 1 - i), i + 1)
  {
    var u := Swapped(w, i, |v| - 1 - i);
    forall k | 0 <= k < |v|
      ensures u[k] == if k < i + 1 || k >= |v| - (i + 1) then v[|v| - 1 - k] else v[k]
    {
      if k == i {
        assert u[k] == w[|v| - 1 - i];
      } else if k == |v| - 1 - i {
        assert u[k] == w[i];
      } else {
        assert u[k] == w[k];
      }
    }
  }

  lemma MirrorDone<T>(v: seq<T>, w: seq<T>)
    requires MirroredUpTo(v, w, |v| / 2)
    ensures w == Reversed(v)
  {
  }

  /**
   * Reverse as evidently intended: swap element i with element
   * size - 1 - i through the indexer for every i below size / 2. The
   * indexer view is reversed and the shape, fills included, is kept.
   */
  method ReverseFixed<T>(l: LargeList<T>) returns (r: LargeList<T>)
    requires Addressable(l)
    ensures Addressable(r) && SameShape(l, r) && r.version > l.version
    ensures View(r) == Reversed(View(l))
  {
    r := l;
    var i := 0;
    while i < l.size / 2
      invariant 0 <= i <= l.size / 2
      invariant Addressable(r) && SameShape(l, r) && r.version >= l.version
      invariant MirroredUpTo(View(l), View(r), i)
    {
      MirrorStep(View(l), View(r), i);
      r := SwapInPlace(r, i, l.size - 1 - i);
      i := i + 1;
    }
    MirrorDone(View(l), View(r));
    var s := r;
    r := r.(version := r.version + 1);
    assert SameShape(s, r);
    SameShapeInvariants(s, r);
  }
}

=== FILE: segments.dfy ===
/**
 * Value-level building blocks of the segmented store: the exceptions the
 * runtime raises, element reads and writes on a backing array, Array.Copy,
 * and the "fill view" — the concatenation of each backing array's filled
 * prefix.
 */
module Segments {

  /** The .NET exceptions that LargeList operations can raise. */
  datatype Error =
    | ArgumentOutOfRange   // List<T> indexer, explicit range checks, Array.Copy with a negative argument
    | IndexOutOfRange      // array element access, CopyTo's argument checks
    | Argument             // Array.Copy with a range past the end of an array
    | InvalidOperation     // enumerator version check

  datatype Result<+R> = Ok(value: R) | Err(error: Error) {
    predicate IsFailure() {
      Err?
    }

    function PropagateFailure<U>(): Result<U>
      requires Err?
    {
      Err(error)
    }

    function Extract(): R
      requires Ok?
    {
      value
    }
  }

  /** `a[i]` on a backing array. */
  function Read<T>(a: seq<T>, i: int): (r: Result<T>)
    ensures r.Ok? <==> 0 <= i < |a|
    ensures r.Ok? ==> r.value == a[i]
    ensures r.Err? ==> r.error == IndexOutOfRange
  {
    if 0 <= i < |a| then Ok(a[i]) else Err(IndexOutOfRange)
  }

  /** `a[i] = v` on a backing array. */
  function Write<T>(a: seq<T>, i: int, v: T): (r: Result<seq<T>>)
    ensures r.Ok? <==> 0 <= i < |a|
    ensures r.Ok? ==> |r.value| == |a| && r.value[i] == v
    ensures r.Ok? ==> forall k :: 0 <= k < |a| && k != i ==> r.value[k] == a[k]
    ensures r.Err? ==> r.error == IndexOutOfRange
  {
    if 0 <= i < |a| then Ok(a[i := v]) else Err(IndexOutOfRange)
  }

  /**
   * Array.Copy(src, si, dst, di, len). All of `src` is read before `dst` is
   * written, so copying within one array (src == dst) behaves like memmove.
   * A negative argument raises ArgumentOutOfRange, a range running past the
   * end of either array raises Argument, in that order.
   */
  function Copy<T>(src: seq<T>, si: int, dst: seq<T>, di: int, len: int): (r: Result<seq<T>>)
    ensures r.Ok? <==> 0 <= si && 0 <= di && 0 <= len && si + len <= |src| && di + len <= |dst|
    ensures r.Err? ==> (r.error == ArgumentOutOfRange <==> si < 0 || di < 0 || len < 0)
    ensures r.Ok? ==> |r.value| == |dst|
    ensures r.Ok? ==> forall k :: 0 <= k < |dst| ==>
              r.value[k] == if di <= k < di + len then src[si + k - di] else dst[k]
  {
    if len < 0 || si < 0 || di < 0 then Err(ArgumentOutOfRange)
    else if si + len > |src| || di + len > |dst| then Err(Argument)
    else Ok(dst[..di] + src[si..si + len] + dst[di + len..])
  }

  function Sum(xs: seq<int>): int
  {
    if xs == [] then 0 else xs[0] + Sum(xs[1..])
  }

  lemma {:induction false} SumAppend(xs: seq<int>, ys: seq<int>)
    ensures Sum(xs + ys) == Sum(xs) + Sum(ys)
  {
    if xs == [] {
      assert xs + ys == ys;
    } else {
      assert (xs + ys)[1..] == xs[1..] + ys;
      SumAppend(xs[1..], ys);
    }
  }

  lemma {:induction false} SumUpdate(xs: seq<int>, k: int, v: int)
    requires 0 <= k < |xs|
    ensures Sum(xs[k := v]) == Sum(xs) - xs[k] + v
  {
    if k > 0 {
      assert xs[k := v][1..] == xs[1..][k - 1 := v];
      SumUpdate(xs[1..], k - 1, v);
    }
  }

  /** A fill count for every backing array, each within its array. */
  ghost predicate Fits<T>(bufs: seq<seq<T>>, fills: seq<int>)
  {
    && |bufs| == |fills|
    && forall k :: 0 <= k < |fills| ==> 0 <= fills[k] <= |bufs[k]|
  }

  /** The fill view: the filled prefix of every backing array, in order. */
  function Concat<T>(bufs: seq<seq<T>>, fills: seq<int>): (r: seq<T>)
    requires Fits(bufs, fills)
    ensures |r| == Sum(fills)
  {
    if bufs == [] then [] else bufs[0][..fills[0]] + Concat(bufs[1..], fills[1..])
  }

  lemma {:induction false} ConcatAppend<T>(bufs: seq<seq<T>>, fills: seq<int>, b: seq<T>, f: int)
    requires Fits(bufs, fills) && 0 <= f <= |b|
    ensures Fits(bufs + [b], fills + [f])
    ensures Concat(bufs + [b], fills + [f]) == Concat(bufs, fills) + b[..f]
  {
    if bufs == [] {
      assert (bufs + [b])[1..] == [];
    } else {
      assert (bufs + [b])[1..] == bufs[1..] + [b];
      assert (fills + [f])[1..] == fills[1..] + [f];
      ConcatAppend(bufs[1..], fills[1..], b, f);
    }
  }

  /** The fill view splits at any segment boundary. */
  lemma {:induction false} ConcatSplit<T>(bufs: seq<seq<T>>, fills: seq<int>, k: int)
    requires Fits(bufs, fills) && 0 <= k <= |bufs|
    ensures Fits(bufs[..k], fills[..k]) && Fits(bufs[k..], fills[k..])
    ensures Concat(bufs, fills) == Concat(bufs[..k], fills[..k]) + Concat(bufs[k..], fills[k..])
  {
    if k > 0 {
      ConcatSplit(bufs[1..], fills[1..], k - 1);
      assert bufs[1..][..k - 1] == bufs[..k][1..];
      assert fills[1..][..k - 1] == fills[..k][1..];
      assert bufs[1..][k - 1..] == bufs[k..];
      assert fills[1..][k - 1..] == fills[k..];
    }
  }
}

=== FILE: sorting.dfy ===
/**
 * The in-place heap sort that LargeList runs through its own indexer:
 * Swap, the sift-down BuildMaxHeap, and HeapSort. Elements are ints and
 * the comparer is the default one, so Compare(a, b) > 0 is a > b.
 */
module Sorting {
  import opened Segments
  import opened ListState

  /** v with the elements at i and j exchanged. */
  function Swapped<T>(v: seq<T>, i: int, j: int): (w: seq<T>)
    requires 0 <= i < |v| && 0 <= j < |v|
    ensures |w| == |v|
  {
    v[i := v[j]][j := v[i]]
  }

  lemma SwappedPermutes<T>(v: seq<T>, i: int, j: int)
    requires 0 <= i < |v| && 0 <= j < |v|
    ensures multiset(Swapped(v, i, j)) == multiset(v)
  {
  }

  /**
   * Swap(left, right): read this[left], then the setter writes this[right]
   * into left and the saved value into right. Each indexer call checks its
   * index; on an addressable state with both indices below the count the
   * two elements of the indexer view trade places and nothing else moves.
   */
  function Swap<T>(l: LargeList<T>, left: int, right: int): (r: Outcome<T>)
    ensures Get(l, left).Err? || Get(l, right).Err? ==> r == Threw(ArgumentOutOfRange, l)
    ensures Addressable(l) && 0 <= left < l.size && 0 <= right < l.size ==>
              && r.Done? && Addressable(r.list) && SameShape(l, r.list)
              && r.list.version == l.version + 2
              && View(r.list) == Swapped(View(l), left, right)
  {
    match Get(l, left)
    case Err(e) => Threw(e, l)
    case Ok(temp) =>
      match Get(l, right)
      case Err(e) => Threw(e, l)
      case Ok(x) =>
        var l1 :- Set(l, left, x);
        assert Addressable(l) && 0 <= left < l.size && 0 <= right < l.size ==>
                 Addressable(l1) && SameShape(l, l1) && 0 <= right < l1.size by {
          if Addressable(l) && 0 <= left < l.size && 0 <= right < l.size {
            SameShapeInvariants(l, l1);
          }
        }
        Set(l1, right, temp)
  }

  // ---------------------------------------------------------------------
  // Heaps over the indexer view
  // ---------------------------------------------------------------------

  /** The parent of heap node j: its children are 2p + 1 and 2p + 2. */
  function Parent(j: int): (p: int)
    requires j >= 1
    ensures 0 <= p < j && (j == 2 * p + 1 || j == 2 * p + 2)
  {
    (j - 1) / 2
  }

  /**
   * The max-heap order on v[..n] for every parent at or after lo: node j's
   * parent is (j - 1) / 2, and no child exceeds its parent.
   */
  ghost predicate HeapFrom(v: seq<int>, lo: int, n: int)
    requires n <= |v|
  {
    forall j :: 1 <= j < n && lo <= Parent(j) ==> v[j] <= v[Parent(j)]
  }

  /**
   * The sift-down's loop invariant: the heap order holds below st except at
   * the node i being sifted, and when i is not st its children are already
   * no larger than its parent.
   */
  ghost predicate SiftInv(v: seq<int>, st: int, i: int, n: int)
    requires 0 <= st && n <= |v|
  {
    && (forall j :: 1 <= j < n && st <= Parent(j) && Parent(j) != i ==> v[j] <= v[Parent(j)])
    && (st < i < n ==> forall j :: 1 <= j < n && Parent(j) == i ==> v[j] <= v[Parent(i)])
  }

  /** w rearranges v[..n] and leaves v[n..] as it was. */
  ghost predicate Permutes<T>(v: seq<T>, w: seq<T>, n: int)
  {
    && |w| == |v| && 0 <= n <= |v|
    && multiset(w[..n]) == multiset(v[..n]) && w[n..] == v[n..]
  }

  ghost predicate Sorted(v: seq<int>)
  {
    forall a, b :: 0 <= a < b < |v| ==> v[a] <= v[b]
  }

  lemma PermutesWhole<T>(v: seq<T>, w: seq<T>, n: int)
    requires Permutes(v, w, n)
    ensures multiset(w) == multiset(v)
  {
    assert v == v[..n] + v[n..];
    assert w == w[..n] + w[n..];
  }

  /** A swap of two positions below n rearranges v[..n] only. */
  lemma SwapPermutes<T>(v: seq<T>, i: int, j: int, n: int)
    requires 0 <= i < n && 0 <= j < n && n <= |v|
    ensures Permutes(v, Swapped(v, i, j), n)
  {
    assert Swapped(v, i, j)[..n] == Swapped(v[..n], i, j);
    SwappedPermutes(v[..n], i, j);
  }

  /** One sift-down step: the larger child moves up and the sift continues from its slot. */
  lemma SiftStep(v: seq<int>, st: int, i: int, m: int, n: int)
    requires 0 <= st <= i && n <= |v| && SiftInv(v, st, i, n)
    requires 2 * i + 1 <= m <= 2 * i + 2 && m < n
    requires v[m] > v[i] && v[2 * i + 1] <= v[m] && (2 * i + 2 < n ==> v[2 * i + 2] <= v[m])
    ensures SiftInv(Swapped(v, m, i), st, m, n)
  {
    var w := Swapped(v, m, i);
    assert Parent(m) == i;
    forall j | 1 <= j < n && st <= Parent(j) && Parent(j) != m
      ensures w[j] <= w[Parent(j)]
    {
      if Parent(j) == i {
        assert j == 2 * i + 1 || j == 2 * i + 2;
      } else if j == i {
        assert w[j] == v[m];
      }
    }
  }

  /** The sift stops when no child exceeds the node: the heap order now holds from st. */
  lemma SiftStop(v: seq<int>, st: int, i: int, n: int)
    requires 0 <= st <= i && n <= |v| && SiftInv(v, st, i, n)
    requires 2 * i + 1 < n && v[2 * i + 1] <= v[i] && (2 * i + 2 < n ==> v[2 * i + 2] <= v[i])
    ensures HeapFrom(v, st, n)
  {
    forall j | 1 <= j < n && st <= Parent(j) ensures v[j] <= v[Parent(j)] {
      if Parent(j) == i {
        assert j == 2 * i + 1 || j == 2 * i + 2;
      }
    }
  }

  /** this[j] on a state where j is a valid index. */
  function At(l: LargeList<int>, j: int): (x: int)
    requires Addressable(l) && 0 <= j < l.size
    ensures x == View(l)[j]
  {
    Get(l, j).value
  }

  /**
   * The comparisons of one sift-down step: the node i or the larger of its
   * children, whichever is largest, preferring i and then the left child on ties.
   */
  method Largest(l: LargeList<int>, i: int, heapSize: int) returns (next: int)
    requires Addressable(l) && 0 <= i && i * 2 + 1 < heapSize <= l.size
    ensures next == i || next == 2 * i + 1 || (next == 2 * i + 2 && next < heapSize)
    ensures View(l)[i] <= View(l)[next] && View(l)[2 * i + 1] <= View(l)[next]
    ensures 2 * i + 2 < heapSize ==> View(l)[2 * i + 2] <= View(l)[next]
    ensures next != i ==> View(l)[i] < View(l)[next]
  {
    var left := i * 2 + 1;
    next := if At(l, left) > At(l, i) then left else i;
    var right := i * 2 + 2;
    if right < heapSize && At(l, right) > At(l, next) {
      next := right;
    }
  }

  /** Swap on a state where both indices are valid, as a statement. */
  method SwapInPlace<T>(l: LargeList<T>, left: int, right: int) returns (r: LargeList<T>)
    requires Addressable(l) && 0 <= left < l.size && 0 <= right < l.size
    ensures Addressable(r) && SameShape(l, r) && r.version == l.version + 2
    ensures View(r) == Swapped(View(l), left, right)
  {
    r := Swap(l, left, right).list;
  }

  /**
   * BuildMaxHeap(index, heapSize): sift the element at index down through
   * v[..heapSize]. Given the heap order below index + 1 it establishes it
   * below index, and it moves only elements before heapSize.
   */
  method BuildMaxHeap(l: LargeList<int>, index: int, heapSize: int) returns (r: LargeList<int>)
    requires Addressable(l) && 0 <= index && 0 <= heapSize <= l.size
    requires HeapFrom(View(l), index + 1, heapSize)
    ensures Addressable(r) && SameShape(l, r) && r.version >= l.version
    ensures HeapFrom(View(r), index, heapSize)
    ensures Permutes(View(l), View(r), heapSize)
  {
    r := l;
    var i := index;
    while i * 2 + 1 < heapSize
      invariant Addressable(r) && SameShape(l, r) && r.version >= l.version
      invariant index <= i && (i < heapSize || i == index)
      invariant Permutes(View(l), View(r), heapSize)
      invariant SiftInv(View(r), index, i, heapSize)
      decreases heapSize - i
    {
      var next := Largest(r, i, heapSize);
      if next != i {
        ghost var v := View(r);
        SiftStep(v, index, i, next, heapSize);
        SwapPermutes(v, next, i, heapSize);
        r := SwapInPlace(r, next, i);
        i := next;
      } else {
        SiftStop(View(r), index, i, heapSize);
        return;
      }
    }
  }

  /** In a heap the root is a largest element. */
  lemma {:induction false} RootMax(v: seq<int>, n: int, j: int)
    requires n <= |v| && HeapFrom(v, 0, n) && 0 <= j < n
    ensures v[j] <= v[0]
    decreases j
  {
    if j > 0 {
      RootMax(v, n, Parent(j));
    }
  }

  /** Moving the root to the end leaves a heap below 1 on the shorter prefix. */
  lemma SwapRootOut(v: seq<int>, i: int)
    requires 0 < i < |v| && HeapFrom(v, 0, i + 1)
    ensures HeapFrom(Swapped(v, i, 0), 1, i)
  {
  }

  /** Every element of the heap v[..i+1] is at most the sorted tail v[i+1..], which is sorted. */
  ghost predicate Extracted(v: seq<int>, i: int)
    requires -1 <= i < |v|
  {
    && (forall a, b :: i < a < b < |v| ==> v[a] <= v[b])
    && (forall a, b :: 0 <= a <= i < b < |v| ==> v[a] <= v[b])
  }

  /**
   * One extraction: the root, a largest heap element, goes to slot i; the
   * sift-down rearranges only the slots below i, so everything there stays
   * at most the new tail.
   */
  lemma ExtractStep(v: seq<int>, w: seq<int>, i: int)
    requires 0 < i < |v| && HeapFrom(v, 0, i + 1) && Extracted(v, i)
    requires Permutes(Swapped(v, i, 0), w, i)
    ensures Extracted(w, i - 1)
  {
    var u := Swapped(v, i, 0);
    assert w[i..] == u[i..];
    assert forall b :: i <= b < |w| ==> w[b] == u[b] by {
      forall b | i <= b < |w| ensures w[b] == u[b] {
        assert w[b] == w[i..][b - i];
      }
    }
    forall a | 0 <= a < i ensures w[a] <= v[0] {
      assert w[a] == w[..i][a];
      assert w[a] in multiset(u[..i]);
      var c :| 0 <= c < i && u[..i][c] == w[a];
      RootMax(v, i + 1, if c == 0 then i else c);
    }
    forall b | i < b < |w| ensures v[0] <= w[b] {
      assert v[0] <= v[b];
    }
  }

  /** HeapSort's first loop: sift down every node from size / 2 to the root. */
  method Heapify(l: LargeList<int>) returns (r: LargeList<int>)
    requires Addressable(l)
    ensures Addressable(r) && SameShape(l, r) && r.version >= l.version
    ensures HeapFrom(View(r), 0, l.size)
    ensures multiset(View(r)) == multiset(View(l))
  {
    var middle := l.size / 2;
    r := l;
    var i := middle;
    while i >= 0
      invariant -1 <= i <= middle
      invariant Addressable(r) && SameShape(l, r) && r.version >= l.version
      invariant HeapFrom(View(r), i + 1, l.size)
      invariant multiset(View(r)) == multiset(View(l))
    {
      ghost var v := View(r);
      r := BuildMaxHeap(r, i, l.size);
      PermutesWhole(v, View(r), l.size);
      i := i - 1;
    }
  }

  /**
   * HeapSort's second loop: move the root, a largest element, behind the
   * shrinking heap and sift the new root down.
   */
  method Extract(l: LargeList<int>) returns (r: LargeList<int>)
    requires Addressable(l) && HeapFrom(View(l), 0, l.size)
    ensures Addressable(r) && SameShape(l, r) && r.version >= l.version
    ensures Sorted(View(r))
    ensures multiset(View(r)) == multiset(View(l))
  {
    r := l;
    var heapSize := l.size;
    var i := l.size - 1;
    while i > 0
      invariant -1 <= i < l.size && heapSize == i + 1
      invariant Addressable(r) && SameShape(l, r) && r.version >= l.version
      invariant HeapFrom(View(r), 0, heapSize)
      invariant Extracted(View(r), i)
      invariant multiset(View(r)) == multiset(View(l))
    {
      r := ExtractOne(r, i);
      heapSize := heapSize - 1;
      i := i - 1;
    }
  }

  /** One pass of the second loop: Swap(i, 0), then BuildMaxHeap(0) on the heap of size i. */
  method ExtractOne(l: LargeList<int>, i: int) returns (r: LargeList<int>)
    requires Addressable(l) && 0 < i < l.size
    requires HeapFrom(View(l), 0, i + 1) && Extracted(View(l), i)
    ensures Addressable(r) && SameShape(l, r) && r.version >= l.version
    ensures HeapFrom(View(r), 0, i) && Extracted(View(r), i - 1)
    ensures multiset(View(r)) == multiset(View(l))
  {
    ghost var v := View(l);
    SwapRootOut(v, i);
    var s := SwapInPlace(l, i, 0);
    ghost var u := View(s);
    r := BuildMaxHeap(s, 0, i);
    SwappedPermutes(v, i, 0);
    PermutesWhole(u, View(r), i);
    ExtractStep(v, View(r), i);
  }

  /**
   * HeapSort: build a max-heap bottom-up, then extract; the version grows.
   * The indexer view ends up sorted and a permutation of what it was.
   */
  method HeapSort(l: LargeList<int>) returns (r: LargeList<int>)
    requires Addressable(l)
    ensures Addressable(r) && SameShape(l, r) && r.version > l.version
    ensures Sorted(View(r))
    ensures multiset(View(r)) == multiset(View(l))
  {
    var h := Heapify(l);
    var s := Extract(h);
    r := s.(version := s.version + 1);
    assert SameShape(s, r);
    SameShapeInvariants(s, r);
  }
}
